=== FILE: README.md ===
# Prompt manager core in Dafny

This project models the logic at the heart of a Qt prompt manager. Prompts are kept as
Markdown files with a small "key: value" header and may contain `{{name}}` placeholders
that a wizard walks the user through. The model covers these parts:

- **Placeholders** (`placeholders.dfy`): the placeholder template engine of
  `PlaceholderUtils`:
  - a leftmost, non-overlapping scanner for the pattern `\{\{([^}]+)\}\}`;
  - extraction and counting of the trimmed, non-empty, distinct names;
  - the two substitutions, `replacePlaceholders` and `generatePreview`. They splice
    replacements into the text from the last match to the first, at the offsets of the
    original text. This splicing is proved equal to a single left-to-right rebuild.
- **Wizard** (`wizard.dfy`): the placeholder-filling wizard of `PlaceholderViewModel`,
  modelled as a state record with pure transitions:
  - the index invariant;
  - the staged value and the committed values;
  - the processed text, which must equal the live preview;
  - navigation, completion, and the number of all-completed events a call announces.
- **FrontMatter** (`frontmatter.dfy`): the front-matter codec of
  `MarkdownPromptRepository`.
  - The header map is a `QMap`, modelled as a strictly sorted list of entries.
  - `extractFrontMatter` and `generateFrontMatter` are proved to round-trip.
- **FileNames** (`filenames.dfy`): the title and folder-name sanitiser of the repository,
  which save, delete, rename and saveFolder use, and the directory a folder name stands
  for. An empty folder name stands for the root directory itself.
- **PromptCache** (`repository.dfy`): the in-memory cache of `MarkdownPromptRepository`,
  covering reload, saving and deleting prompts and folders, and the per-folder counts.
  - The file system is replaced by parameters: what a directory listing returned, whether
    a file could be read, and whether a remove or `mkpath` succeeded.
  - The returned file effects are the writes, removes and renames the repository asks for.
  - Both id counters are proved to keep cached ids distinct.
- **SearchFilter** (`searchfilter.dfy`): the list filters of `SearchFilter`. Each one is
  an order-preserving selection. Null pointers in the lists are modelled as `None`.
- **Migrate** (`migrate.dfy`): the header writer, the file-name sanitiser and the
  target-path choice of the one-off exporter `migrate_db_to_md.py`.
  - Its files are proved to be read back by the repository as the prompts they came
    from, when the title and both timestamps are non-empty, trimmed and on one line.
    A title with whitespace at an end reads back trimmed. An empty title reads back as
    the file's base name.
  - Its sanitiser uses Python's whitespace, which is wider than Qt's. On names whose
    whitespace is ASCII it agrees with the repository's sanitiser.
- **Support modules**:
  - `Common` (`common.dfy`): `Option`.
  - `Strings` (`strings.dfy`): trimming, ASCII lower-casing, search, split and join, and
    the `QString` order.
  - `Models` (`models.dfy`): the `Prompt` and `Folder` records.

Some behaviours of the code are easy to mistake:

- There is no `{{name|default}}` syntax: a `|` is part of a placeholder name.
- `extractPlaceholders` returns the names of a `QSet`, so no order is promised.
- An unfilled placeholder previews as `[name]`.
- The all-completed event fires on every save that leaves the wizard complete, not once.

## Model

| member | source | states |
|---|---|---|
| Strings.Trim | src/utils/placeholderutils.cpp:119-122 | the result has no whitespace at either end, is the input cut at some offset with only whitespace outside the cut, and equals the input exactly when the input was already trimmed |
| Strings.Lower | src/utils/searchfilter.cpp:55-57 | lower-casing keeps the length and leaves no upper-case ASCII letter: each one moves 32 code points down to its lower-case twin, and every other character is kept |
| Strings.LowerIdempotent | src/utils/searchfilter.cpp:55-57 | lower-casing twice is lower-casing once |
| Strings.ContainsLower | src/utils/searchfilter.cpp:55-57 | an occurrence of a pattern survives lower-casing both the text and the pattern |
| Strings.IndexOf | src/repository/markdownpromptrepository.cpp:123 | the result is -1 when the pattern occurs nowhere at or after `from`, and otherwise the first such occurrence |
| Strings.JoinSplit | src/repository/markdownpromptrepository.cpp:131 | joining the pieces of a split with the separator gives back the text that was split |
| Strings.SplitJoin | src/repository/markdownpromptrepository.cpp:131 | splitting at a line feed gives back the lines that were joined with line feeds, when none of them contains one |
| FileNames.KeepAllowed | src/repository/markdownpromptrepository.cpp:182 | the regular-expression replace keeps exactly the allowed characters, drops the rest, never lengthens, and leaves an all-allowed text unchanged |
| FileNames.KeepAllowedAppend | src/repository/markdownpromptrepository.cpp:182 | the filtering distributes over concatenation |
| FileNames.SanitizeFolderName | src/repository/markdownpromptrepository.cpp:371-374 | the folder name is left with only allowed characters and is trimmed, and is the filtered name cut at whitespace |
| FileNames.SanitizeTitle | src/repository/markdownpromptrepository.cpp:180-184 | the file name is non-empty, allowed and trimmed, and is "Untitled" exactly when the filtered and trimmed title is empty or already "Untitled" |
| FileNames.SanitizeTitleIdempotent | src/repository/markdownpromptrepository.cpp:180-184 | sanitising a sanitised title changes nothing |
| FileNames.SanitizeIgnoresDisallowed | src/repository/markdownpromptrepository.cpp:182 | inserting a disallowed character anywhere in a title does not change its file name |
| FileNames.PromptPath | src/repository/markdownpromptrepository.cpp:180-187 | a prompt's file sits in the directory given, and its name is a non-empty, allowed and trimmed stem, the sanitised title, followed by ".md" |
| FileNames.UnderRoot | src/repository/markdownpromptrepository.cpp:173 | a folder name stands for the sub-directory of that name, and an empty name for the root itself |
| FileNames.SamePathIffSameTitle | src/repository/markdownpromptrepository.cpp:229-231 | two titles give the same file in a directory exactly when they sanitise alike |
| FrontMatter.Lookup | src/repository/markdownpromptrepository.cpp:103 | a key is found exactly when it is present, and the value found is stored under it |
| FrontMatter.Insert | src/repository/markdownpromptrepository.cpp:137 | after an insert the key maps to the new value, every other key keeps its value, and the keys stay sorted |
| FrontMatter.InsertGreatest | src/repository/markdownpromptrepository.cpp:137 | inserting a key above every present key appends its entry at the end |
| FrontMatter.ParseLine | src/repository/markdownpromptrepository.cpp:133-138 | a line yields an entry exactly when it contains a colon; the entry is the trimmed text before the first colon and the trimmed text after it, so the key has no colon |
| FrontMatter.Put | src/repository/markdownpromptrepository.cpp:134-137 | a line without a colon leaves the map alone, and one with a colon sets its key and nothing else |
| FrontMatter.ParseLinesIsPutAll | src/repository/markdownpromptrepository.cpp:131-139 | parsing the header line by line equals folding the parses of the lines in order |
| FrontMatter.ExtractFrontMatter | src/repository/markdownpromptrepository.cpp:117-142 | without a leading "---\n", or without a closing "\n---\n" at index 4 or later, the text and the map come back unchanged; with both, the body is the text after the first such closing delimiter; keys already in the map stay |
| FrontMatter.ParseLines | src/repository/markdownpromptrepository.cpp:131-139 | parsing header lines only ever adds keys, and a key that no line names keeps its entry from the map passed in |
| FrontMatter.LaterLineWins | src/repository/markdownpromptrepository.cpp:132-139 | a key ends up with the value of the last line that names it |
| FrontMatter.ParseEntryLine | src/repository/markdownpromptrepository.cpp:133-150 | a "key: value" line as the generator writes it parses back to its entry |
| FrontMatter.HeaderBodyIsJoin | src/repository/markdownpromptrepository.cpp:144-154 | the generated header body is the entry lines joined by line feeds, plus a final line feed |
| FrontMatter.GenerateFrontMatter | src/repository/markdownpromptrepository.cpp:144-154 | the header opens and closes with a "---" line; an empty map gives those two lines alone, any other map its entry lines joined by line feeds between them |
| FrontMatter.ExtractHeader | src/repository/markdownpromptrepository.cpp:119-139 | any header text whose lines are not "---" is split off at its own closing delimiter, and its lines, the pieces between its line feeds, are parsed in order |
| FrontMatter.ExtractJoinedHeader | src/repository/markdownpromptrepository.cpp:119-139 | a header of lines that contain no line feed and are not "---" is split off at its own closing delimiter, and its lines are parsed in order |
| FrontMatter.ParseEntryLines | src/repository/markdownpromptrepository.cpp:131-154 | parsing the lines written for a sorted map of well-formed entries rebuilds that map |
| FrontMatter.FrontMatterRoundTrip | src/repository/markdownpromptrepository.cpp:117-154 | for a non-empty map of trimmed, single-line entries whose keys have no colon, the written header followed by any text reads back as that text and that map |
| FrontMatter.EmptyHeaderIsNotRecognised | src/repository/markdownpromptrepository.cpp:119-126 | the header written for an empty map is not recognised on reading, because its closing delimiter starts before index 4 |
| PromptCache.EmptyCache | src/repository/markdownpromptrepository.cpp:39-44 | the cleared cache is valid and both counters are 1 |
| PromptCache.FindPrompt | src/repository/markdownpromptrepository.cpp:270-278 | the lookup finds the first prompt with the id, or reports that none has it |
| PromptCache.FindFolder | src/repository/markdownpromptrepository.cpp:164-170 | the lookup finds the first folder with the id, or reports that none has it |
| PromptCache.FolderDir | src/repository/markdownpromptrepository.cpp:161-175 | a prompt lives in a folder's directory only when its folder id is not -1 and a cached folder has it; with distinct folder ids, that directory is the one the folder's name stands for, the root for an empty name |
| PromptCache.RemoveAt | src/repository/markdownpromptrepository.cpp:300 | removing one element shifts the later elements down by one and keeps the earlier ones |
| PromptCache.AddPrompt | src/repository/markdownpromptrepository.cpp:190-198 | a prompt appended under the next id keeps the cache valid and advances the prompt counter |
| PromptCache.AddFolder | src/repository/markdownpromptrepository.cpp:55-62 | a folder appended under the next id keeps the cache valid and advances the folder counter |
| PromptCache.PromptHeaderIsInserts | src/repository/markdownpromptrepository.cpp:253-256 | inserting title, createdAt and updatedAt into an empty map gives the header in key order createdAt, title, updatedAt |
| PromptCache.PromptHeaderLookups | src/repository/markdownpromptrepository.cpp:103-111 | each of the three keys reads back the value written under it |
| PromptCache.ParsePromptFile | src/repository/markdownpromptrepository.cpp:89-115 | an unreadable file gives no prompt; a readable one gives a prompt with the id and folder passed in |
| PromptCache.FileTextExtracts | src/repository/markdownpromptrepository.cpp:253-258 | a written prompt file whose title and timestamps are trimmed and on one line splits back into the prompt's content and its three-key header |
| PromptCache.ThreeEntryRoundTrip | src/repository/markdownpromptrepository.cpp:253-258 | the three-key header round-trips through the codec for any trimmed, single-line values, empty ones included |
| PromptCache.WrittenPromptReadsBack | src/repository/markdownpromptrepository.cpp:251-266 | the file written for a prompt whose title and timestamps are non-empty, trimmed and on one line is parsed back as that prompt, under whatever id and folder the reader assigns |
| PromptCache.EmptyTitleReadsAsBaseName | src/repository/markdownpromptrepository.cpp:103-106 | a prompt written with an empty title reads back with the file's base name as its title |
| PromptCache.FileText | src/repository/markdownpromptrepository.cpp:251-266 | the written file opens with the header's "---" line and ends with the prompt's text, unchanged |
| PromptCache.LoadFile | src/repository/markdownpromptrepository.cpp:67-72 | each listed file takes the next prompt id whether or not it can be read; a readable one is appended with that id and the folder being scanned |
| PromptCache.LoadFiles | src/repository/markdownpromptrepository.cpp:66-73 | reading a directory's files keeps the cache valid, leaves the folders alone, and uses one prompt id per file |
| PromptCache.LoadFilesAppends | src/repository/markdownpromptrepository.cpp:66-73 | reading files only appends prompts, each filed in the folder being read |
| PromptCache.NewFoldersAt | src/repository/markdownpromptrepository.cpp:53-62 | the i-th listed sub-directory becomes a folder named after it with id firstId + i |
| PromptCache.LoadDir | src/repository/markdownpromptrepository.cpp:54-73 | a sub-directory takes the next folder id and is appended before its files are read |
| PromptCache.LoadDirs | src/repository/markdownpromptrepository.cpp:53-74 | reading the sub-directories keeps the cache valid and uses one folder id per directory |
| PromptCache.LoadDirsFolders | src/repository/markdownpromptrepository.cpp:53-62 | the folders after the scan are the old ones followed by one per listed directory, in listing order, with consecutive ids |
| PromptCache.LoadDirsConsumesIds | src/repository/markdownpromptrepository.cpp:54-74 | the prompt counter advances by the number of files in the listed directories |
| PromptCache.Reload | src/repository/markdownpromptrepository.cpp:37-48 | after a reload the cache is valid and the i-th sub-directory is folder i + 1 |
| PromptCache.ReloadConsumesOneIdPerFile | src/repository/markdownpromptrepository.cpp:50-87 | after a reload the prompt counter is one past the number of files listed, readable or not |
| PromptCache.SaveNewPrompt | src/repository/markdownpromptrepository.cpp:189-200 | saving a new prompt keeps the cache valid and writes its file last, at the path its folder and title give |
| PromptCache.UpdateCached | src/repository/markdownpromptrepository.cpp:201-240 | only the cached prompt with the saved id changes, taking the new title, content, folder and update time; without one the cache is unchanged |
| PromptCache.SaveStoredPrompt | src/repository/markdownpromptrepository.cpp:201-246 | updating a stored prompt keeps the cache valid and writes its file last |
| PromptCache.MoveAndWrite | src/repository/markdownpromptrepository.cpp:225-246 | the old file is removed exactly when its path differs from the new one and it exists, and the new file is written last |
| PromptCache.SavePrompt | src/repository/markdownpromptrepository.cpp:157-249 | saving keeps the cache valid, leaves the folders alone, and writes the prompt's file last |
| PromptCache.SaveNewPromptAppends | src/repository/markdownpromptrepository.cpp:189-198 | a new prompt takes the next id, which no cached prompt has, is stamped with the save time twice, and is appended; only its file is touched |
| PromptCache.SaveStoredPromptUpdates | src/repository/markdownpromptrepository.cpp:235-242 | a stored prompt replaces the fields of the cached prompt with its id, changes no other prompt, and keeps its creation time |
| PromptCache.SaveStoredPromptMovesFile | src/repository/markdownpromptrepository.cpp:211-233 | an update removes at most one file: the cached prompt's old file, when its path changed and it exists |
| PromptCache.DeletePrompt | src/repository/markdownpromptrepository.cpp:268-306 | an unknown id fails and touches nothing; otherwise the prompt's file is removed, and the prompt leaves the cache exactly when that removal succeeds |
| PromptCache.DeletePromptDropsOnlyIt | src/repository/markdownpromptrepository.cpp:298-302 | a successful delete drops exactly the prompt with that id, and the cache stays valid |
| PromptCache.SaveAndDeleteAgreeOnPath | src/repository/markdownpromptrepository.cpp:292-296 | re-saving a cached prompt writes the very file that deleting it would remove |
| PromptCache.RemovePromptKeepsIds | src/repository/markdownpromptrepository.cpp:300 | removing a prompt keeps the remaining ids distinct and in range, and removes exactly the prompt with that id |
| PromptCache.RenameFolder | src/repository/markdownpromptrepository.cpp:379-394 | renaming keeps every folder id and the counters; a folder either stays as it was or takes the sanitised name |
| PromptCache.RenamedFolderMoves | src/repository/markdownpromptrepository.cpp:379-394 | a known folder is afterwards found in the directory its sanitised name stands for, with one directory rename from the old name's directory when the name changed and none otherwise; every other folder keeps its directory; an unknown id changes nothing |
| PromptCache.RenameToBlankNameTargetsRoot | src/repository/markdownpromptrepository.cpp:379-394 | renaming a folder to "??" caches an empty name and renames its directory onto the root path, after which its prompts resolve to the root |
| PromptCache.FindFolderSameIds | src/repository/markdownpromptrepository.cpp:379-394 | a lookup by id sees only the ids, so a rename that keeps them finds every folder where it was |
| PromptCache.SaveFolderAsWritten | src/repository/markdownpromptrepository.cpp:367-409 | a new folder's directory is made under the sanitised name, while the folder is cached under the name as given |
| PromptCache.SaveFolderCachesUnsanitisedName | src/repository/markdownpromptrepository.cpp:395-404 | for "a?b" the directory made is "ab", but the cache files the folder's prompts under "a?b" |
| PromptCache.SaveFolder | src/repository/markdownpromptrepository.cpp:367-409 | the corrected saveFolder (line 400 caches the name as given; SaveFolderAsWritten follows that): a new folder takes the next id and is cached under its sanitised name when mkpath succeeds; the cache is unchanged otherwise; the cache stays valid |
| PromptCache.NewFolderLivesWhereItWasMade | src/repository/markdownpromptrepository.cpp:395-404 | a new folder is afterwards found in the directory that was made for it |
| PromptCache.WithoutFolder | src/repository/markdownpromptrepository.cpp:429-436 | the prompts left are exactly those not filed under the folder |
| PromptCache.WithoutFolderCounts | src/repository/markdownpromptrepository.cpp:429-436 | dropping a folder's prompts zeroes its count and leaves every other folder's count alone |
| PromptCache.WithoutFolderKeepsIds | src/repository/markdownpromptrepository.cpp:429-436 | dropping prompts keeps the remaining ids distinct and in range |
| PromptCache.RemoveFolderKeepsIds | src/repository/markdownpromptrepository.cpp:438 | removing a folder keeps the remaining folder ids distinct, and removes exactly the folder with that id |
| PromptCache.DeleteFolder | src/repository/markdownpromptrepository.cpp:411-445 | an unknown id fails and touches nothing; otherwise the directory the cached name stands for is removed, and on success exactly that folder and the prompts filed in it leave the cache, which stays valid |
| PromptCache.RemoveFolderKeepsValid | src/repository/markdownpromptrepository.cpp:429-438 | dropping a folder and its prompts from a valid cache keeps it valid and drops exactly that folder |
| PromptCache.DeletingBlankFolderRemovesRoot | src/repository/markdownpromptrepository.cpp:423-427 | deleting a folder cached under an empty name asks to remove the root directory recursively, and succeeds when that removal does, keeping the other prompts in the cache |
| PromptCache.DeleteFolderCounts | src/repository/markdownpromptrepository.cpp:427-443 | after a folder delete no prompt counts under that folder, and every other count is unchanged |
| PromptCache.PromptCountByFolder | src/repository/markdownpromptrepository.cpp:551-558 | the loop counts exactly the cached prompts filed under the folder |
| PromptCache.FoldersWithCounts | src/repository/markdownpromptrepository.cpp:466-482 | each cached folder comes back in order with exactly its prompt count |
| SearchFilter.Select | src/utils/searchfilter.cpp:14-20 | the selection never lengthens the list and contains only elements that pass |
| SearchFilter.SelectKeeps | src/utils/searchfilter.cpp:14-20 | the selection is an order-preserving subsequence that contains an element exactly when it occurs and passes, as often as it occurs |
| SearchFilter.SelectIdempotent | src/utils/searchfilter.cpp:14-20 | selecting twice by the same test is selecting once |
| SearchFilter.SelectBoth | src/utils/searchfilter.cpp:36-46 | selecting by one test and then another is one selection by both |
| SearchFilter.FilterPrompts | src/utils/searchfilter.cpp:8-21 | an empty search returns the list unchanged; otherwise the result is an order-preserving subsequence that keeps exactly the matching entries, each as often as it occurs; null entries survive |
| SearchFilter.FilterByFolder | src/utils/searchfilter.cpp:23-32 | the result is an order-preserving subsequence that keeps exactly the entries the folder rule accepts, each as often as it occurs; null entries never survive |
| SearchFilter.ApplyFilters | src/utils/searchfilter.cpp:34-47 | an entry survives exactly when it matches the search and, for a folder id of 0 or more, the folder rule |
| SearchFilter.FilterPromptsIdempotent | src/utils/searchfilter.cpp:8-21 | searching again for the same text changes nothing |
| SearchFilter.FilterByFolderIdempotent | src/utils/searchfilter.cpp:23-32 | filtering again by the same folder changes nothing |
| SearchFilter.FiltersCommute | src/utils/searchfilter.cpp:34-47 | the folder filter and the search filter may be applied in either order |
| SearchFilter.ApplyFiltersIsOnePass | src/utils/searchfilter.cpp:34-47 | the combined filter is one order-preserving pass keeping the entries that pass both tests, the folder test applying only to ids of 0 or more |
| SearchFilter.NegativeFolderKeepsNulls | src/utils/searchfilter.cpp:60-76 | with folder id -1 the combined filter keeps a null entry, which the folder filter with the same id drops |
| SearchFilter.SearchIgnoresCase | src/utils/searchfilter.cpp:49-58 | matching does not depend on the case of the search text |
| SearchFilter.MatchesSearch | src/utils/searchfilter.cpp:49-58 | a null entry or an empty search always matches, and so does any entry whose title or content contains the text as typed |
| SearchFilter.MatchesFolder | src/utils/searchfilter.cpp:60-76 | a null entry never matches; a negative id matches every prompt; for an id of 0 or more a prompt matches exactly when the id is its own folder id, or 0 for a prompt whose folder id is 0 or below |
| SearchFilter.FolderFiltersPartition | src/utils/searchfilter.cpp:60-76 | for a folder id of 0 or more, a prompt passes exactly when the id is its folder id, or 0 for a prompt with no folder; so every prompt passes for exactly one such id |
| Placeholders.FirstClose | src/utils/placeholderutils.cpp:13 | finds the first closing brace at or after a position, or the end of the text |
| Placeholders.TokenAt | src/utils/placeholderutils.cpp:13 | reports a match at a position exactly when the pattern matches there, with its only possible end |
| Placeholders.Scan | src/utils/placeholderutils.cpp:24 | the global match yields increasing, non-overlapping matches, each a token of the text |
| Placeholders.ScanIsLeftmost | src/utils/placeholderutils.cpp:24 | every position where the pattern could match lies inside a reported match |
| Placeholders.DistinctNames | src/utils/placeholderutils.cpp:26-32 | the collected names have no repeats, and a name is collected exactly when it occurs, is non-empty and was not seen before |
| Placeholders.ExtractPlaceholders | src/utils/placeholderutils.cpp:17-35 | an empty text has no placeholders; the list has no repeats and holds exactly the non-empty trimmed token names |
| Placeholders.PlaceholderCount | src/utils/placeholderutils.cpp:67-70 | the count is the number of distinct non-empty trimmed token names |
| Placeholders.HasPlaceholders | src/utils/placeholderutils.cpp:62-65 | the text has placeholders exactly when the scan finds a token, even one whose name is empty |
| Placeholders.BlankTokenIsNotCounted | src/utils/placeholderutils.cpp:62-70 | "{{ }}" has placeholders but a count of 0 and no names |
| Placeholders.ValidPlaceholderWraps | src/utils/placeholderutils.cpp:103-112 | a non-empty, trimmed name without a closing brace, wrapped in braces, is one token of that name |
| Placeholders.IsValidPlaceholder | src/utils/placeholderutils.cpp:103-112 | a name is valid exactly when it is not empty; a valid, trimmed name without a closing brace, wrapped in braces, is a template whose one placeholder is that name |
| Placeholders.ValidPlaceholderMayNotWrap | src/utils/placeholderutils.cpp:103-107 | the emptiness check accepts "}", which cannot be wrapped into a token |
| Placeholders.RightToLeftIsRebuild | src/utils/placeholderutils.cpp:46-57 | splicing replacements last-to-first at the original offsets gives the same text as one left-to-right rebuild |
| Placeholders.SpliceRightToLeft | src/utils/placeholderutils.cpp:46-57 | when every match is left alone, the splice returns the text unchanged |
| Placeholders.SpliceIsRebuild | src/utils/placeholderutils.cpp:43-57 | over the scan of a text, the right-to-left splice under either policy is the left-to-right rebuild under that policy |
| Placeholders.ReplacePlaceholders | src/utils/placeholderutils.cpp:37-60 | an empty text or map returns the text; otherwise each mapped token becomes its value and everything else is copied verbatim |
| Placeholders.GeneratePreview | src/utils/placeholderutils.cpp:72-101 | an empty text returns the text; otherwise each token becomes its mapped value, even an empty one, or "[name]" |
| Placeholders.StrictKeepsUnmapped | src/utils/placeholderutils.cpp:52-57 | tokens whose names are unmapped come out of the strict substitution as they went in |
| Placeholders.PoliciesAgreeOnMapped | src/utils/placeholderutils.cpp:87-98 | when every token name is mapped, the two substitutions render each token alike |
| Placeholders.NoTokensNoChange | src/utils/placeholderutils.cpp:37-101 | a text without tokens passes through both substitutions unchanged |
| Placeholders.ReplaceWithUnrelatedMap | src/utils/placeholderutils.cpp:52-57 | a map naming none of the tokens leaves the text unchanged |
| Placeholders.ReplaceIsPreviewWhenAllMapped | src/utils/placeholderutils.cpp:52-98 | with every token name mapped, replacement and preview agree |
| Placeholders.TwoAdjacentTokensPreview | src/utils/placeholderutils.cpp:72-101 | a text of two adjacent tokens with different non-empty names has exactly those two placeholders, and previews as their two renderings side by side |
| Placeholders.TwoTokenTemplate | src/utils/placeholderutils.cpp:72-101 | "{{a}}{{b}}" has the names a and b, and previews as the two renderings side by side |
| Wizard.CurrentPlaceholder | src/viewmodels/placeholderviewmodel.cpp:31-37 | the name under the index, or "" when the index is out of range; while the list is the template's, the current name is a non-empty token name of the template |
| Wizard.Overlay | src/viewmodels/placeholderviewmodel.cpp:150-155 | the names are the committed ones plus the current one; the current name maps to the staged value, and every other name keeps its committed value |
| Wizard.GetPreview | src/viewmodels/placeholderviewmodel.cpp:148-158 | an empty template previews as empty; without a current placeholder, or when the staged value is the committed one, the preview is the template rendered with the committed values |
| Wizard.IsComplete | src/viewmodels/placeholderviewmodel.cpp:53-65 | complete exactly when every placeholder name has a non-empty committed value, and always with no placeholders |
| Wizard.CanGoNext | src/viewmodels/placeholderviewmodel.cpp:67-70 | under the index invariant, true exactly when the index after the current one is a placeholder's |
| Wizard.CanGoPrevious | src/viewmodels/placeholderviewmodel.cpp:72-75 | under the index invariant, true exactly when the index before the current one is a placeholder's |
| Wizard.CheckComplete | src/viewmodels/placeholderviewmodel.cpp:53-65 | the early exit and the loop return true exactly when every placeholder has a non-empty committed value |
| Wizard.CompletionIgnoresStaged | src/viewmodels/placeholderviewmodel.cpp:53-65 | staged, uncommitted text does not change completion |
| Wizard.UpdateCurrentValue | src/viewmodels/placeholderviewmodel.cpp:160-169 | only the staged value changes, so the index invariant and the processed text are kept; afterwards the preview's values are the committed ones, with "" for a current name that has none |
| Wizard.UpdateProcessedContent | src/viewmodels/placeholderviewmodel.cpp:171-185 | the processed text becomes the live preview, which restores the invariant; nothing else changes |
| Wizard.Empty | src/viewmodels/placeholderviewmodel.cpp:5-8 | a fresh view model has index -1, no placeholders, and satisfies the invariant |
| Wizard.Initialize | src/viewmodels/placeholderviewmodel.cpp:77-95 | sets the content, clears the values and the staged value, takes the extracted names, sets the index to 0 or -1, and satisfies the invariant |
| Wizard.SetOriginalContent | src/viewmodels/placeholderviewmodel.cpp:10-17 | the same content changes nothing; new content reinitialises |
| Wizard.Reset | src/viewmodels/placeholderviewmodel.cpp:97-111 | clears the values and the staged value, sets the index to 0 or -1, keeps content and names, keeps the invariant, and refreshes the processed text to the preview from any session |
| Wizard.CommitKeepsOverlay | src/viewmodels/placeholderviewmodel.cpp:137-139 | committing the staged value does not change what the preview shows |
| Wizard.SaveCurrentValue | src/viewmodels/placeholderviewmodel.cpp:133-146 | with a current placeholder its value becomes the staged value and no other entry changes; completion is announced exactly when the wizard is then complete; the processed text becomes the preview, which committing does not change, from any session, stale or not; with none, nothing happens |
| Wizard.SaveAgain | src/viewmodels/placeholderviewmodel.cpp:133-146 | saving again commits the same value, and announces completion again exactly when the first save did |
| Wizard.SetCurrentIndexAsWritten | src/viewmodels/placeholderviewmodel.cpp:19-29 | an out-of-range or unchanged index is ignored; otherwise the staged value is committed, the index moves, the staged value is reloaded for the new name, content and names are kept, the invariant holds, one all-completed event is counted when the save announces one, and the processed text keeps the preview from before the move |
| Wizard.SetCurrentIndex | src/viewmodels/placeholderviewmodel.cpp:19-29 | the same move as the as-written one, differing only in the processed text, which is the live preview after a move; a valid session stays valid |
| Wizard.StaleAfterFirstMove | src/viewmodels/placeholderviewmodel.cpp:19-29 | in a template of two adjacent tokens a and b, the as-written move leaves "[b]" as the processed text while the live preview is "" |
| Wizard.SetCurrentIndexLeavesStalePreview | src/viewmodels/placeholderviewmodel.cpp:19-29 | the same, for the concrete template "{{a}}{{b}}" |
| Wizard.SaveThenMove | src/viewmodels/placeholderviewmodel.cpp:113-131 | from any session with a current placeholder, stale or not, saving and then moving to another valid index commits the staged value once, reloads the staged value for the new name, keeps the invariant, announces completion on the second save exactly when the first did, and leaves the processed text at the preview from before the move, which for a valid session is the old processed text |
| Wizard.GoNext | src/viewmodels/placeholderviewmodel.cpp:113-121 | without a next placeholder nothing changes; from any session keeping the index invariant, stale or not, the staged value is committed, the index moves up by one, the staged value is reloaded for the new name, two completion events are counted when the wizard is then complete and none otherwise, and the processed text is the preview from before the move, not the one after it; from a valid session that is the old processed text |
| Wizard.GoPrevious | src/viewmodels/placeholderviewmodel.cpp:123-131 | without a previous placeholder nothing changes; from any session keeping the index invariant, stale or not, the staged value is committed, the index moves down by one, the staged value is reloaded, two completion events are counted when the wizard is then complete and none otherwise, and the processed text is the preview from before the move; from a valid session that is the old processed text |
| Wizard.GoNextRefreshed | src/viewmodels/placeholderviewmodel.cpp:113-121 | the same move as goNext, differing only in the processed text, which is the live preview after a move; a valid session stays valid |
| Wizard.GoPreviousRefreshed | src/viewmodels/placeholderviewmodel.cpp:123-131 | the same move as goPrevious, differing only in the processed text, which is the live preview after a move; a valid session stays valid |
| Wizard.GoNextLeavesStalePreview | src/viewmodels/placeholderviewmodel.cpp:113-121 | in a template of two adjacent tokens a and b, goNext from the first name leaves "[b]" as the processed text while the live preview is "", and the refreshed move shows "" |
| Wizard.GoNextAnnouncesTwice | src/viewmodels/placeholderviewmodel.cpp:113-121 | a move that completes the wizard announces completion twice, once per save |
| Wizard.SetCurrentValue | src/viewmodels/placeholderviewmodel.cpp:39-46 | the same value changes nothing; a new value is staged and the processed text becomes the live preview from any session, stale or not, so the invariant is kept |
| Wizard.InitializeTwoNames | src/viewmodels/placeholderviewmodel.cpp:77-95 | on a template of two adjacent tokens a and b the wizard opens at the first name with the second shown as "[b]" |
| Migrate.SanitizeFilename | migrate_db_to_md.py:10-17 | the exporter's file name is never empty, holds only ASCII letters, digits, '_', '-' and Python whitespace, and has no Python whitespace at either end |
| Migrate.PyKeepAllowed | migrate_db_to_md.py:13 | the pattern replace keeps exactly the allowed characters in order, and on text whose whitespace is ASCII drops what the repository's pattern drops |
| Migrate.PyStrip | migrate_db_to_md.py:14 | strip removes Python whitespace from the two ends only, and on text whose whitespace is ASCII cuts what QString::trimmed cuts |
| Migrate.SanitizeFilenameProperties | migrate_db_to_md.py:10-17 | sanitising an exported name again changes nothing, and on a name whose whitespace is ASCII the exporter's sanitiser gives the repository's file name |
| Migrate.SanitizersDifferOnSeparator | migrate_db_to_md.py:13-14 | the name "a" U+001F "b" keeps its separator as inner whitespace in the exporter, while the repository's pattern drops it and gives "ab" |
| Migrate.GenerateFrontmatter | migrate_db_to_md.py:25-32 | the header is "---", the title, creation and update lines in that order, and "---", each on its own line |
| Migrate.ParseHeaderLines | migrate_db_to_md.py:28-30 | the exporter's three lines parse to the same map as the repository's own header |
| Migrate.ExportedHeaderParses | migrate_db_to_md.py:25-32 | the repository reads the exporter's header and the text after it back unchanged, although the keys are in another order |
| Migrate.ExportedPromptReadsBack | migrate_db_to_md.py:92 | an exported file is read by the repository as the prompt it came from |
| Migrate.CreatedDirs | migrate_db_to_md.py:58-64 | one directory is made per folder, under the exporter's sanitised name, and no other; each is non-empty and clean, there are never more of them than folders, and none exactly when there are no folders |
| Migrate.DirsOfCardinality | migrate_db_to_md.py:58-64 | the sanitised names of a set of ids are never more than the ids, and for folder ids there are some exactly when there are ids |
| Migrate.TargetPath | migrate_db_to_md.py:81-89 | a prompt goes under its folder's sanitised name exactly when its folder id is set, non-zero and a known folder, and into the root otherwise; the file is the exporter's sanitised title with ".md" |
| Migrate.ExportedFileIsRepositoryFile | migrate_db_to_md.py:82-89 | for a title whose whitespace is ASCII, the exported file is the one the repository computes for that title in the same directory |
| Migrate.TargetDirWasCreated | migrate_db_to_md.py:58-89 | every file goes into the root or into a directory made beforehand |

## Left out

- File I/O is not modelled: opening, reading and writing files, `QDir::entryInfoList`,
  `mkpath`, `rename`, `QFile::remove`, `removeRecursively` and `QFile::exists`.
  - Their outcomes are parameters: a listing, a file's text or `None`, and success flags.
  - The requests are returned as a list of effects.
  - savePrompt's `mkpath` of the target directory and a failed write are not modelled.
- Qt signals are not modelled. The one exception is the all-completed event of
  `saveCurrentValue`, which each wizard transition reports as a count.
- `QDateTime` is not modelled: timestamps are ISO-8601 text.
  - A header value that fails to parse as a date is approximated by an empty value: both
    fall back to the file's own times.
  - savePrompt's separate calls to `currentDateTime()` are one `now` parameter.
- Unicode is not modelled, with one exception.
  - `QString::trimmed` is modelled with ASCII whitespace. It also trims U+0085, U+00A0
    and the Unicode spaces. So a placeholder name or a header line that starts or ends
    with non-ASCII whitespace is trimmed differently: for "{{\u00A0a}}" Qt extracts the
    name "a", while the model keeps "\u00A0a" and previews it as "[\u00A0a]".
  - The sanitiser's `\s` is ASCII in Qt's default pattern options, so the model is exact
    there.
  - The exception is the exporter's sanitiser: Python's `\s` and `strip` follow
    `str.isspace`, and that whitespace set is modelled (`Migrate.PyIsSpace`).
  - Lower-casing (`toLower`) is ASCII.
  - Strings are sequences of characters, not UTF-16 code units.
- Placeholders.ExtractPlaceholders: the source returns the names of a `QSet`, in hash
  order. The model lists them in order of first occurrence, and its contract promises
  only the set of names and the absence of repeats.
  - The wizard takes its placeholder list from it, so the wizard's order is this
    first-occurrence order too.
  - Wizard.InitializeTwoNames, Wizard.StaleAfterFirstMove and
    Wizard.GoNextLeavesStalePreview rely on that order. In the source, a and b may come
    the other way round.
- Placeholders.IsValidPlaceholder: only the emptiness check is modelled. The rest asks
  whether an escaped pattern compiles, which depends on the regular-expression engine and
  always holds for an escaped name.
- Integer overflow is not modelled: the id counters and the counts are unbounded, where
  the source uses 32-bit `int`.
- scanDirectory is modelled for the call reload makes: sub-directories of the root become
  folders and are not scanned further.
- Null `Prompt*` and `Folder*` arguments to savePrompt and saveFolder are not modelled.
  They only return false.
- PromptCache.FolderDir: a folder whose cached name is empty stands for the root
  directory, as `QDir::filePath("")` does.
  - A rename to a name that sanitises to nothing caches such a name.
  - Deleting that folder then asks to remove the root recursively
    (PromptCache.DeletingBlankFolderRemovesRoot).
  - The model keeps this behaviour and promises nothing about keeping the root.
- Models.Folder: a folder's createdAt and updatedAt are not modelled. None of the
  modelled operations reads or writes them.
- PromptCache.SaveFolder: saveFolder's `true` return value is not modelled, since it
  never depends on the outcome.
- PromptCache.SavePrompt: the file is written whether or not the stored id is cached, as
  in the source. The contract does not relate the written header to the cache entry.
- Other parts of the repository are not modelled:
  - the getters that return copies, duplicatePrompt, searchPrompts and
    searchPromptsInFolder, folderNameExists, getPromptsWithFolders, and the statistics
    other than the per-folder count;
  - the SQL repository and the DAOs behind it;
  - the list and edit view models;
  - clipboard and settings code.
- The exporter's database reading and `format_date` are not modelled. The folder table
  arrives as a map from id to name, and the dates as text.

## Findings

| source | as written | input that shows it | evidently intended | confidence | as-written member | corrected member |
|---|---|---|---|---|---|---|
| src/viewmodels/placeholderviewmodel.cpp:19-29 | setCurrentIndex saves, moves the index and reloads the staged value, but never refreshes the processed text | template "{{a}}{{b}}": moving from index 0 to 1 leaves the processed text "[b]", while getPreview, with "" staged for b, is "" | the processed text equals the live preview after every public call, as it does after setCurrentValue and saveCurrentValue | not executed | Wizard.SetCurrentIndexLeavesStalePreview | Wizard.SetCurrentIndex |
| src/viewmodels/placeholderviewmodel.cpp:113-131 | goNext and goPrevious save and then move with setCurrentIndex, so they too leave the processed text at the preview from before the move | template "{{a}}{{b}}": goNext from index 0 leaves the processed text "[b]", while getPreview is "" | the processed text equals the live preview after the move | not executed | Wizard.GoNextLeavesStalePreview | Wizard.GoNextRefreshed |
| src/repository/markdownpromptrepository.cpp:395-404 | a new folder's directory is made under the sanitised name, but the cached copy keeps the name as given | saveFolder with the name "a?b": the directory made is "ab", yet prompts saved into the new folder go to a directory "a?b" | the cache records the sanitised name, as the rename branch does | not executed | PromptCache.SaveFolderCachesUnsanitisedName | PromptCache.NewFolderLivesWhereItWasMade |

=== FILE: common.dfy ===
/** Small shared vocabulary: an optional value, used where the source returns a null
    pointer, an index of -1 or an absent map entry. */
module Common {

  datatype Option<+T> = None | Some(value: T) {

    /** The carried value, or `default` when there is none. */
    function GetOr(default: T): (r: T)
      ensures Some? ==> r == value
      ensures None? ==> r == default
    {
      match this
      case Some(v) => v
      case None => default
    }
  }

  /** QMap::value(key, default): the entry for `k`, or `d` when there is none. */
  function ValueOr<K, V>(m: map<K, V>, k: K, d: V): (r: V)
    ensures k in m ==> r == m[k]
    ensures k !in m ==> r == d
  {
    if k in m then m[k] else d
  }

  /** The position of the first `id` in `ids`, or None when it does not occur: the
      lookup loops over the cached prompts and folders, seen through their ids. */
  function FirstIndex(ids: seq<int>, id: int): (k: Option<nat>)
    ensures k.Some? ==> k.value < |ids| && ids[k.value] == id
    ensures k.Some? ==> forall j :: 0 <= j < k.value ==> ids[j] != id
    ensures k.None? ==> forall j :: 0 <= j < |ids| ==> ids[j] != id
    decreases |ids|
  {
    if |ids| == 0 then None
    else if ids[0] == id then Some(0)
    else match FirstIndex(ids[1..], id)
      case None => None
      case Some(k) => Some(k + 1)
  }

  /** True when no element occurs twice in `xs`. */
  predicate NoDuplicates<T(==)>(xs: seq<T>)
  {
    forall i, j :: 0 <= i < j < |xs| ==> xs[i] != xs[j]
  }

  /** A list without duplicates has as many elements as the set of its elements. */
  lemma {:induction false} NoDuplicatesCardinality<T>(xs: seq<T>)
    requires NoDuplicates(xs)
    ensures |set x | x in xs| == |xs|
  {
    if |xs| > 0 {
      var rest := xs[1..];
      assert NoDuplicates(rest) by {
        forall i, j | 0 <= i < j < |rest| ensures rest[i] != rest[j] {
          assert rest[i] == xs[i + 1] && rest[j] == xs[j + 1];
        }
      }
      NoDuplicatesCardinality(rest);
      assert xs[0] !in rest by {
        forall k | 0 <= k < |rest| ensures rest[k] != xs[0] {
          assert rest[k] == xs[k + 1];
        }
      }
      assert (set x | x in xs) == (set x | x in rest) + {xs[0]} by {
        assert xs == [xs[0]] + rest;
      }
    } else {
      assert (set x | x in xs) == {};
    }
  }

  /** Some element of a non-empty set. */
  lemma Pick<T>(s: set<T>) returns (x: T)
    requires s != {}
    ensures x in s
  {
    x :| x in s;
  }

  /** Concatenation is associative. */
  lemma AppendAssociative<T>(a: seq<T>, b: seq<T>, c: seq<T>)
    ensures (a + b) + c == a + (b + c)
  {
  }

  /** Short lists built by appending one element. */
  lemma AppendToShort<T>(x: T, y: T, z: T)
    ensures [] + [x] == [x]
    ensures [x] + [y] == [x, y]
    ensures [x, y] + [z] == [x, y, z]
  {
  }
}

=== FILE: filenames.dfy ===
/** The title sanitiser of src/repository/markdownpromptrepository.cpp and its Python twin
    sanitize_filename in migrate_db_to_md.py: a prompt's file name is its title with every
    character outside [A-Za-z0-9_-] and whitespace removed, then trimmed, with "Untitled"
    standing in when nothing is left. Folder names get the same filtering and trimming
    but no fallback. */
module FileNames {
  import opened Common
  import opened Strings

  /** A character the pattern [^a-zA-Z0-9_\-\s] does not remove. */
  predicate IsAllowed(c: char)
  {
    ('a' <= c <= 'z') || ('A' <= c <= 'Z') || ('0' <= c <= '9') || c == '_' || c == '-' || IsSpace(c)
  }

  predicate AllAllowed(s: string)
  {
    forall i :: 0 <= i < |s| ==> IsAllowed(s[i])
  }

  /** The regular-expression replace: drop every character that is not allowed, keeping
      the others in order. */
  function KeepAllowed(s: string): (r: string)
    ensures AllAllowed(r)
    ensures |r| <= |s|
    ensures forall c :: c in r <==> c in s && IsAllowed(c)
    ensures AllAllowed(s) ==> r == s
    decreases |s|
  {
    if |s| == 0 then ""
    else
      var rest := KeepAllowed(s[1..]);
      assert s == [s[0]] + s[1..];
      if IsAllowed(s[0]) then [s[0]] + rest else rest
  }

  /** The first character is kept when allowed, and the rest is filtered on its own. */
  lemma KeepAllowedCons(s: string)
    requires |s| > 0
    ensures KeepAllowed(s) == (if IsAllowed(s[0]) then [s[0]] else []) + KeepAllowed(s[1..])
  {
  }

  /** Dropping disallowed characters distributes over concatenation. */
  lemma {:induction false} KeepAllowedAppend(a: string, b: string)
    ensures KeepAllowed(a + b) == KeepAllowed(a) + KeepAllowed(b)
    decreases |a|
  {
    if |a| > 0 {
      var ab := a + b;
      assert ab[0] == a[0] && ab[1..] == a[1..] + b;
      KeepAllowedCons(ab);
      KeepAllowedCons(a);
      KeepAllowedAppend(a[1..], b);
      var head := if IsAllowed(a[0]) then [a[0]] else [];
      assert head + (KeepAllowed(a[1..]) + KeepAllowed(b)) == (head + KeepAllowed(a[1..])) + KeepAllowed(b);
    } else {
      assert a + b == b;
    }
  }

  /** The folder-name sanitiser of saveFolder: filter and trim, no fallback. */
  function SanitizeFolderName(name: string): (r: string)
    ensures AllAllowed(r) && IsTrimmed(r)
    ensures exists a :: CutAt(KeepAllowed(name), r, a)
  {
    var kept := KeepAllowed(name);
    var r := Trim(kept);
    assert forall i :: 0 <= i < |r| ==> r[i] in kept;
    r
  }

  /** The title sanitiser used for file names: the folder-name rule, with "Untitled" when
      the result would be empty. */
  function SanitizeTitle(title: string): (r: string)
    ensures |r| > 0 && AllAllowed(r) && IsTrimmed(r)
    ensures r == "Untitled" <==> SanitizeFolderName(title) == "" || SanitizeFolderName(title) == "Untitled"
    ensures r != "Untitled" ==> r == SanitizeFolderName(title)
  {
    var s := SanitizeFolderName(title);
    if s == "" then UntitledIsClean(); "Untitled" else s
  }

  /** The fallback title is itself a clean file name. */
  lemma UntitledIsClean()
    ensures AllAllowed("Untitled") && IsTrimmed("Untitled")
  {
    var u := "Untitled";
    assert forall i :: 0 <= i < |u| ==> 'a' <= u[i] <= 'z' || u[i] == 'U';
  }

  /** A name that is already allowed and trimmed is left as it is. */
  lemma SanitizeFixesClean(name: string)
    requires AllAllowed(name) && IsTrimmed(name)
    ensures SanitizeFolderName(name) == name
  {
  }

  /** Sanitising twice is the same as sanitising once. */
  lemma SanitizeTitleIdempotent(title: string)
    ensures SanitizeTitle(SanitizeTitle(title)) == SanitizeTitle(title)
  {
    SanitizeFixesClean(SanitizeTitle(title));
  }

  /** Only the allowed characters of a title matter to its file name. */
  lemma SanitizeIgnoresDisallowed(a: string, c: char, b: string)
    requires !IsAllowed(c)
    ensures SanitizeTitle(a + [c] + b) == SanitizeTitle(a + b)
  {
    assert KeepAllowed(a + [c] + b) == KeepAllowed(a + b) by {
      KeepAllowedAppend(a + [c], b);
      KeepAllowedAppend(a, [c]);
      KeepAllowedAppend(a, b);
      assert KeepAllowed([c]) == [] by {
        assert [c][1..] == [];
      }
      assert KeepAllowed(a) + [] == KeepAllowed(a);
    }
  }

  /** A directory: None is the root, Some(name) its sub-directory `name`. An empty name
      never names a sub-directory. */
  type Dir = d: Option<string> | d.None? || d.value != "" witness None

  /** QDir(root).filePath(name) for a folder name: the sub-directory of that name, or
      the root itself when the name is empty, since filePath("") is the directory's own
      path. */
  function UnderRoot(name: string): (d: Dir)
    ensures d.None? <==> name == ""
    ensures d.Some? ==> d.value == name
  {
    if name == "" then None else Some(name)
  }

  /** Where a file lives: a directory (a folder's, or the root) and a file name in it. */
  datatype FilePath = FilePath(dir: Dir, file: string)

  /** The path savePrompt and deletePrompt compute for a title in a directory: the file
      sits in that directory, and its name is a clean, non-empty stem followed by ".md". */
  function PromptPath(dir: Dir, title: string): (p: FilePath)
    ensures p.dir == dir
    ensures |p.file| > 3 && p.file[|p.file| - 3..] == ".md"
    ensures var stem := p.file[..|p.file| - 3];
            stem != "" && AllAllowed(stem) && IsTrimmed(stem) && stem == SanitizeTitle(title)
  {
    var stem := SanitizeTitle(title);
    assert (stem + ".md")[..|stem|] == stem;
    FilePath(dir, stem + ".md")
  }

  /** Two titles are saved to the same file of a directory exactly when they sanitise
      alike: titles that differ only in removed characters or outer whitespace collide. */
  lemma SamePathIffSameTitle(dir: Dir, a: string, b: string)
    ensures PromptPath(dir, a) == PromptPath(dir, b) <==> SanitizeTitle(a) == SanitizeTitle(b)
  {
    var pa, pb := PromptPath(dir, a), PromptPath(dir, b);
    if pa == pb {
      assert pa.file[..|pa.file| - 3] == pb.file[..|pb.file| - 3];
    }
  }
}

=== FILE: frontmatter.dfy ===
/** The front-matter codec of src/repository/markdownpromptrepository.cpp.

    A prompt file starts with a header block: the line "---", then one "key: value" line
    per entry, then the line "---"; the prompt text follows. The header is parsed line by
    line, each line split at its first colon, and collected in a QMap, which keeps its
    keys in ascending order and lets a later insert overwrite an earlier one. */
module FrontMatter {
  import opened Common
  import opened Strings

  /** Keys strictly ascending: the order a QMap iterates in, without repeats. */
  predicate StrictlySorted(m: seq<(string, string)>)
  {
    forall i, j :: 0 <= i < j < |m| ==> Less(m[i].0, m[j].0)
  }

  /** QMap<QString, QString> as its list of entries in key order. */
  type SortedMap = m: seq<(string, string)> | StrictlySorted(m) witness []

  /** The keys present in `m`. */
  function Keys(m: seq<(string, string)>): set<string>
  {
    set i | 0 <= i < |m| :: m[i].0
  }

  /** QMap::value: the entry stored under `k`, if any. */
  function Lookup(m: seq<(string, string)>, k: string): (r: Option<string>)
    ensures r.Some? <==> k in Keys(m)
    ensures r.Some? ==> (k, r.value) in m
    decreases |m|
  {
    if |m| == 0 then None
    else if m[0].0 == k then Some(m[0].1)
    else
      KeysCons(m);
      assert m == [m[0]] + m[1..];
      Lookup(m[1..], k)
  }

  /** The keys of a non-empty list: its first key and the keys of the rest. */
  lemma KeysCons(m: seq<(string, string)>)
    requires |m| > 0
    ensures Keys(m) == Keys(m[1..]) + {m[0].0}
  {
    assert forall i :: 0 < i < |m| ==> m[i] == m[1..][i - 1];
  }

  /** A key below the least key of a sorted list is below all of them. */
  lemma BelowFirst(k: string, m: SortedMap)
    requires |m| > 0 && Less(k, m[0].0)
    ensures forall x :: x in Keys(m) ==> Less(k, x)
  {
    forall x | x in Keys(m) ensures Less(k, x) {
      if x != m[0].0 { LessTransitive(k, m[0].0, x); }
    }
  }

  /** A strictly sorted list with a new first entry below all its keys is still sorted. */
  lemma ConsSorted(e: (string, string), m: SortedMap)
    requires forall k :: k in Keys(m) ==> Less(e.0, k)
    ensures StrictlySorted([e] + m)
  {
    var r := [e] + m;
    forall i, j | 0 <= i < j < |r| ensures Less(r[i].0, r[j].0) {
      if i == 0 {
        assert r[j] == m[j - 1];
      } else {
        assert r[i] == m[i - 1] && r[j] == m[j - 1];
      }
    }
  }

  /** QMap::insert: `k` maps to `v` afterwards, every other key keeps its entry, and the
      entries stay in key order. */
  function Insert(m: SortedMap, k: string, v: string): (r: SortedMap)
    ensures Lookup(r, k) == Some(v)
    ensures forall k' :: k' != k ==> Lookup(r, k') == Lookup(m, k')
    ensures Keys(r) == Keys(m) + {k}
    decreases |m|, 1
  {
    if |m| == 0 then ConsEntry((k, v), m)
    else if m[0].0 == k then
      KeysCons(m);
      LookupCons(m);
      ConsEntry((k, v), m[1..])
    else if Less(k, m[0].0) then
      BelowFirst(k, m);
      ConsEntry((k, v), m)
    else
      LessTotal(k, m[0].0);
      InsertLater(m, k, v)
  }

  /** Insert for a key above the first key: the first entry stays in front. */
  function InsertLater(m: SortedMap, k: string, v: string): (r: SortedMap)
    requires |m| > 0 && Less(m[0].0, k)
    ensures Lookup(r, k) == Some(v)
    ensures forall k' :: k' != k ==> Lookup(r, k') == Lookup(m, k')
    ensures Keys(r) == Keys(m) + {k}
    decreases |m|, 0
  {
    var rest: SortedMap := m[1..];
    KeysCons(m);
    LookupCons(m);
    LessIrreflexive(k);
    assert forall x :: x in Keys(rest) ==> Less(m[0].0, x);
    var tail := Insert(rest, k, v);
    assert Keys(tail) == Keys(rest) + {k};
    var r := ConsEntry(m[0], tail);
    assert Keys(r) == Keys(rest) + {k} + {m[0].0};
    r
  }

  /** A new first entry whose key is below every key of `m`. */
  function ConsEntry(e: (string, string), m: SortedMap): (r: SortedMap)
    requires forall x :: x in Keys(m) ==> Less(e.0, x)
    ensures Lookup(r, e.0) == Some(e.1)
    ensures forall k :: k != e.0 ==> Lookup(r, k) == Lookup(m, k)
    ensures Keys(r) == Keys(m) + {e.0}
  {
    ConsSorted(e, m);
    var r: SortedMap := [e] + m;
    KeysCons(r);
    LookupCons(r);
    assert r[1..] == m;
    r
  }

  /** Looking up in a non-empty list: the first entry, or a lookup in the rest. */
  lemma LookupCons(m: seq<(string, string)>)
    requires |m| > 0
    ensures forall k :: Lookup(m, k) == if m[0].0 == k then Some(m[0].1) else Lookup(m[1..], k)
  {
  }

  /** A key above the first key is inserted into the rest. */
  lemma InsertAfterFirst(m: SortedMap, k: string, v: string)
    requires |m| > 0 && m[0].0 != k && !Less(k, m[0].0)
    ensures Insert(m, k, v) == [m[0]] + Insert(m[1..], k, v)
  {
    LessTotal(k, m[0].0);
  }

  /** Appending after the first element is appending to the rest. */
  lemma SnocCons<T>(xs: seq<T>, x: T)
    requires |xs| > 0
    ensures xs + [x] == [xs[0]] + (xs[1..] + [x])
  {
  }

  /** Insert into a map of one entry whose key is above the new key. */
  lemma InsertBelowSingle(a: string, va: string, b: string, vb: string)
    requires Less(b, a)
    ensures Insert([(a, va)], b, vb) == [(b, vb), (a, va)]
  {
    LessIrreflexive(a);
    assert [(b, vb)] + [(a, va)] == [(b, vb), (a, va)];
  }

  /** Three inserts into an empty map whose middle key is the least and whose last key is
      the greatest. */
  lemma InsertThree(a: string, va: string, b: string, vb: string, c: string, vc: string)
    requires Less(b, a) && Less(a, c)
    ensures Insert(Insert(Insert([], a, va), b, vb), c, vc) == [(b, vb), (a, va), (c, vc)]
  {
    var one: SortedMap := [(a, va)];
    assert Insert([], a, va) == one by {
      assert [(a, va)] + [] == one;
    }
    InsertBelowSingle(a, va, b, vb);
    var two: SortedMap := [(b, vb), (a, va)];
    LessTransitive(b, a, c);
    KeysPair((b, vb), (a, va));
    InsertGreatest(two, c, vc);
    AppendToShort((b, vb), (a, va), (c, vc));
  }

  /** The keys of a two-entry list. */
  lemma KeysPair(e0: (string, string), e1: (string, string))
    ensures Keys([e0, e1]) == {e0.0, e1.0}
  {
    assert [e0, e1][0] == e0 && [e0, e1][1] == e1;
  }

  /** Looking up each key of a three-entry list with distinct keys. */
  lemma LookupThree(a: string, va: string, b: string, vb: string, c: string, vc: string)
    requires a != b && b != c && a != c
    ensures Lookup([(a, va), (b, vb), (c, vc)], a) == Some(va)
    ensures Lookup([(a, va), (b, vb), (c, vc)], b) == Some(vb)
    ensures Lookup([(a, va), (b, vb), (c, vc)], c) == Some(vc)
  {
    var m := [(a, va), (b, vb), (c, vc)];
    assert m[1..] == [(b, vb), (c, vc)] && m[1..][1..] == [(c, vc)];
    LookupCons(m);
    LookupCons(m[1..]);
    LookupCons(m[1..][1..]);
  }

  /** Inserting a key above every present key appends it. */
  lemma {:induction false} InsertGreatest(m: SortedMap, k: string, v: string)
    requires forall x :: x in Keys(m) ==> Less(x, k)
    ensures Insert(m, k, v) == m + [(k, v)]
    decreases |m|
  {
    if |m| > 0 {
      var rest: SortedMap := m[1..];
      assert m[0].0 != k && !Less(k, m[0].0) by {
        assert m[0].0 in Keys(m);
        LessIrreflexive(k);
        LessAsymmetric(m[0].0, k);
      }
      assert forall x :: x in Keys(rest) ==> Less(x, k) by {
        KeysCons(m);
      }
      InsertGreatest(rest, k, v);
      InsertAfterFirst(m, k, v);
      SnocCons(m, (k, v));
    } else {
      assert m + [(k, v)] == [(k, v)];
    }
  }

  /** One header line: the trimmed text before its first colon and the trimmed text
      after it; a line without a colon yields nothing. */
  function ParseLine(line: string): (r: Option<(string, string)>)
    ensures r.None? <==> ':' !in line
    ensures r.Some? ==> ':' !in r.value.0 && IsTrimmed(r.value.0) && IsTrimmed(r.value.1)
    ensures r.Some? ==> exists c :: 0 <= c < |line| && line[c] == ':' && ':' !in line[..c]
                                    && r.value == (Trim(line[..c]), Trim(line[c + 1..]))
  {
    var colon := IndexOfChar(line, ':', 0);
    if colon == -1 then None
    else
      var key := Trim(line[..colon]);
      assert forall i :: 0 <= i < |key| ==> key[i] in line[..colon];
      assert ':' !in line[..colon];
      Some((key, Trim(line[colon + 1..])))
  }

  /** No line among `lines` parses to an entry for `k`. */
  predicate NotNamed(lines: seq<string>, k: string)
  {
    forall j :: 0 <= j < |lines| ==> ParseLine(lines[j]).None? || ParseLine(lines[j]).value.0 != k
  }

  /** The header lines folded into `fm` in order, each parsed line inserted. Keys are
      only ever added, and a key no line names keeps its entry from `fm`. */
  function ParseLines(lines: seq<string>, fm: SortedMap): (r: SortedMap)
    ensures Keys(fm) <= Keys(r)
    ensures forall k :: NotNamed(lines, k) ==> Lookup(r, k) == Lookup(fm, k)
    decreases |lines|
  {
    if |lines| == 0 then fm
    else
      var init := lines[..|lines| - 1];
      assert forall k :: NotNamed(lines, k) ==> NotNamed(init, k) by {
        assert forall j :: 0 <= j < |init| ==> init[j] == lines[j];
      }
      Put(ParseLines(init, fm), ParseLine(lines[|lines| - 1]))
  }

  /** One parsed line folded into the map: inserted when present, skipped otherwise. */
  function Put(acc: SortedMap, e: Option<(string, string)>): (r: SortedMap)
    ensures e.None? ==> r == acc
    ensures e.Some? ==> Lookup(r, e.value.0) == Some(e.value.1)
    ensures forall k :: (e.None? || k != e.value.0) ==> Lookup(r, k) == Lookup(acc, k)
  {
    match e
    case None => acc
    case Some(x) => Insert(acc, x.0, x.1)
  }

  /** The parse of each line, in order. */
  function ParsedLines(lines: seq<string>): (es: seq<Option<(string, string)>>)
    ensures |es| == |lines|
    ensures forall j :: 0 <= j < |lines| ==> es[j] == ParseLine(lines[j])
  {
    seq(|lines|, j requires 0 <= j < |lines| => ParseLine(lines[j]))
  }

  /** Parsed entries folded into `fm` in order. */
  function PutAll(es: seq<Option<(string, string)>>, fm: SortedMap): SortedMap
    decreases |es|
  {
    if |es| == 0 then fm else Put(PutAll(es[..|es| - 1], fm), es[|es| - 1])
  }

  /** Parsing the lines one by one is folding their parses. */
  lemma {:induction false} ParseLinesIsPutAll(lines: seq<string>, fm: SortedMap)
    ensures ParseLines(lines, fm) == PutAll(ParsedLines(lines), fm)
    decreases |lines|
  {
    if |lines| > 0 {
      var n := |lines| - 1;
      ParseLinesIsPutAll(lines[..n], fm);
      assert ParsedLines(lines)[..n] == ParsedLines(lines[..n]);
    }
  }

  /** What extractFrontMatter hands back: the prompt text, and the header entries added
      to the map passed in. */
  datatype Extracted = Extracted(body: string, frontMatter: SortedMap)

  /** extractFrontMatter: split off and parse the header when the text starts with "---\n"
      and the closing "\n---\n" occurs at index 4 or later; otherwise return the text and
      the map as they were. */
  function ExtractFrontMatter(content: string, fm: SortedMap): (out: Extracted)
    ensures !StartsWith(content, "---\n") ==> out == Extracted(content, fm)
    ensures StartsWith(content, "---\n") && IndexOf(content, "\n---\n", 4) == -1 ==> out == Extracted(content, fm)
    ensures StartsWith(content, "---\n") && IndexOf(content, "\n---\n", 4) != -1 ==>
              out.body == content[IndexOf(content, "\n---\n", 4) + 5..]
    ensures |out.body| <= |content| && out.body == content[|content| - |out.body|..]
    ensures Keys(fm) <= Keys(out.frontMatter)
  {
    if !StartsWith(content, "---\n") then Extracted(content, fm)
    else
      var end := IndexOf(content, "\n---\n", 4);
      if end == -1 then Extracted(content, fm)
      else
        var lines := Split(content[4..end], '\n');
        Extracted(content[end + 5..], ParseLines(lines, fm))
  }

  /** A later duplicate key overwrites an earlier one: a key ends up with the value of
      the last line that names it. */
  lemma {:induction false} LaterLineWins(lines: seq<string>, fm: SortedMap, i: nat)
    requires i < |lines| && ParseLine(lines[i]).Some?
    requires forall j :: i < j < |lines| && ParseLine(lines[j]).Some? ==>
               ParseLine(lines[j]).value.0 != ParseLine(lines[i]).value.0
    ensures Lookup(ParseLines(lines, fm), ParseLine(lines[i]).value.0) == Some(ParseLine(lines[i]).value.1)
  {
    var e := ParseLine(lines[i]).value;
    var es := ParsedLines(lines);
    ParseLinesIsPutAll(lines, fm);
    LastEntryForKey(es, fm, i, e.0, e.1);
  }

  /** Entry `i` sets `k` to `v` and no later entry is for `k`: `k` keeps `v`. */
  lemma {:induction false} LastEntryForKey(es: seq<Option<(string, string)>>, fm: SortedMap, i: nat, k: string, v: string)
    requires i < |es| && es[i] == Some((k, v))
    requires forall j :: i < j < |es| ==> es[j].None? || es[j].value.0 != k
    ensures Lookup(PutAll(es, fm), k) == Some(v)
    decreases |es|
  {
    var n := |es| - 1;
    var init := es[..n];
    if i < n {
      assert init[i] == es[i];
      LastEntryForKey(init, fm, i, k, v);
    }
  }

  /** The "key: value" line generateFrontMatter writes for one entry. */
  function EntryLine(e: (string, string)): string
  {
    e.0 + ": " + e.1
  }

  /** The header lines of `m`, one per entry, in the order given. */
  function EntryLines(m: seq<(string, string)>): (lines: seq<string>)
    ensures |lines| == |m|
  {
    seq(|m|, i requires 0 <= i < |m| => EntryLine(m[i]))
  }

  /** The entry lines of `m`, each followed by a line feed. */
  function HeaderBody(m: seq<(string, string)>): string
    decreases |m|
  {
    if |m| == 0 then "" else EntryLine(m[0]) + "\n" + HeaderBody(m[1..])
  }

  /** generateFrontMatter: the opening "---", one line per entry in key order, and the
      closing "---". An empty map gives the two delimiter lines alone; otherwise the
      entry lines are joined by line feeds between the delimiters. */
  function GenerateFrontMatter(m: SortedMap): (r: string)
    ensures StartsWith(r, "---\n") && |r| >= 8 && r[|r| - 4..] == "---\n"
    ensures |m| == 0 ==> r == "---\n---\n"
    ensures |m| >= 1 ==> r == "---\n" + Join(EntryLines(m), '\n') + "\n---\n"
  {
    var r := "---\n" + HeaderBody(m) + "---\n";
    if |m| >= 1 then
      HeaderBodyIsJoin(m);
      r
    else r
  }

  /** An entry the codec carries unchanged: a key without colon or line feed and a value
      without line feed, both already trimmed. */
  predicate WellFormedEntry(e: (string, string))
  {
    IsTrimmed(e.0) && ':' !in e.0 && '\n' !in e.0 && IsTrimmed(e.1) && '\n' !in e.1
  }

  /** Parsing undoes writing, for one line. */
  lemma ParseEntryLine(e: (string, string))
    requires WellFormedEntry(e)
    ensures ParseLine(EntryLine(e)) == Some(e)
  {
    var line := EntryLine(e);
    var k := |e.0|;
    assert forall j :: 0 <= j < k ==> line[j] == e.0[j];
    assert line[k] == ':';
    assert line[..k] == e.0;
    assert line[k + 1..] == [' '] + e.1;
    TrimAfterSpaces([' '], e.1);
  }

  /** A written line is never the closing "---" and never contains a line feed. */
  lemma EntryLineShape(e: (string, string))
    requires WellFormedEntry(e)
    ensures '\n' !in EntryLine(e) && ':' in EntryLine(e) && EntryLine(e) != "---"
  {
    assert EntryLine(e)[|e.0|] == ':';
  }

  /** The written header body is the entry lines joined by line feeds, plus one more. */
  lemma {:induction false} HeaderBodyIsJoin(m: seq<(string, string)>)
    requires |m| >= 1
    ensures HeaderBody(m) == Join(EntryLines(m), '\n') + "\n"
    decreases |m|
  {
    if |m| > 1 {
      HeaderBodyIsJoin(m[1..]);
      assert EntryLines(m)[1..] == EntryLines(m[1..]);
    }
  }

  /** `s` does not start with the four characters "---\n" when it begins with a line
      that has no line feed, is not "---", and is followed by a line feed. */
  lemma NotDashLine(line: string, rest: string)
    requires '\n' !in line && line != "---"
    requires |rest| > 0 && rest[0] == '\n'
    ensures !StartsWith(line + rest, "---\n")
  {
    var s := line + rest;
    if |line| >= 4 {
      assert s[3] == line[3] && line[3] != '\n';
    } else if |line| < 3 {
      assert s[|line|] == '\n';
    } else {
      assert s[..3] == line;
    }
  }

  /** Occurrences in a concatenation at or past the first part are occurrences in the
      second part. */
  lemma OccursAtShift(a: string, b: string, pat: string, p: int)
    requires |a| <= p
    ensures OccursAt(a + b, pat, p) <==> OccursAt(b, pat, p - |a|)
  {
    if 0 <= p && p + |pat| <= |a + b| {
      assert (a + b)[p..p + |pat|] == b[p - |a|..p - |a| + |pat|];
    }
  }

  /** Joined lines begin with the first line, followed by a line feed or nothing. */
  lemma JoinHead(lines: seq<string>)
    requires |lines| >= 1
    ensures |lines[0]| <= |Join(lines, '\n')|
    ensures Join(lines, '\n')[..|lines[0]|] == lines[0]
    ensures |lines| == 1 ==> Join(lines, '\n') == lines[0]
    ensures |lines| > 1 ==> Join(lines, '\n')[|lines[0]|] == '\n'
  {
  }

  /** Inside joined header lines, followed by a line feed, the closing delimiter
      "\n---\n" cannot start. */
  lemma {:induction false} NoDelimiterInside(lines: seq<string>, rest: string, p: nat)
    requires |lines| >= 1
    requires forall k :: 0 <= k < |lines| ==> '\n' !in lines[k] && lines[k] != "---"
    requires |rest| > 0 && rest[0] == '\n'
    requires p < |Join(lines, '\n')|
    ensures !OccursAt(Join(lines, '\n') + rest, "\n---\n", p)
    decreases |lines|
  {
    var line := lines[0];
    var s := Join(lines, '\n') + rest;
    JoinHead(lines);
    if p < |line| {
      assert s[p] == line[p];
    } else {
      var tail := Join(lines[1..], '\n');
      assert s == (line + "\n") + (tail + rest);
      if p == |line| {
        var next := lines[1];
        assert lines[1..][0] == next;
        JoinHead(lines[1..]);
        var y := tail[|next|..] + rest;
        assert tail + rest == next + y;
        NotDashLine(next, y);
        if p + 5 <= |s| {
          assert s[p + 1..p + 5] == (tail + rest)[..4];
        }
      } else {
        assert forall k :: 0 <= k < |lines| - 1 ==> lines[1..][k] == lines[k + 1];
        NoDelimiterInside(lines[1..], rest, p - |line| - 1);
        OccursAtShift(line + "\n", tail + rest, "\n---\n", p);
      }
    }
  }

  /** Where the closing delimiter is found in a header built from such lines. */
  lemma DelimiterAfterHeader(lines: seq<string>, body: string)
    requires |lines| >= 1
    requires forall k :: 0 <= k < |lines| ==> '\n' !in lines[k] && lines[k] != "---"
    ensures IndexOf("---\n" + Join(lines, '\n') + "\n---\n" + body, "\n---\n", 4) == 4 + |Join(lines, '\n')|
  {
    var j := Join(lines, '\n');
    var rest := "\n---\n" + body;
    var s := "---\n" + j + "\n---\n" + body;
    assert s == "---\n" + (j + rest);
    var e := 4 + |j|;
    assert s[e..e + 5] == "\n---\n";
    assert OccursAt(s, "\n---\n", e);
    var r := IndexOf(s, "\n---\n", 4);
    assert r != -1;
    assert r <= e;
    if r < e {
      NoDelimiterInside(lines, rest, r - 4);
      OccursAtShift("---\n", j + rest, "\n---\n", r);
    }
  }

  /** A header of such lines is split off at the right place and parsed line by line. */
  lemma ExtractJoinedHeader(lines: seq<string>, body: string, fm: SortedMap)
    requires |lines| >= 1
    requires forall k :: 0 <= k < |lines| ==> '\n' !in lines[k] && lines[k] != "---"
    ensures ExtractFrontMatter("---\n" + Join(lines, '\n') + "\n---\n" + body, fm)
         == Extracted(body, ParseLines(lines, fm))
  {
    var j := Join(lines, '\n');
    var s := "---\n" + j + "\n---\n" + body;
    DelimiterAfterHeader(lines, body);
    assert s[..4] == "---\n";
    assert s[4..4 + |j|] == j;
    assert s[4 + |j| + 5..] == body;
    SplitJoin(lines, '\n');
  }

  /** Any header text whose lines are not "---" is split off at its own delimiter and
      parsed line by line, its lines being the pieces between its line feeds. */
  lemma ExtractHeader(header: string, body: string, fm: SortedMap)
    requires forall k :: 0 <= k < |Split(header, '\n')| ==> Split(header, '\n')[k] != "---"
    ensures ExtractFrontMatter("---\n" + header + "\n---\n" + body, fm)
         == Extracted(body, ParseLines(Split(header, '\n'), fm))
  {
    JoinSplit(header, '\n');
    ExtractJoinedHeader(Split(header, '\n'), body, fm);
  }

  /** Every key of a sorted list's prefix is below its last key. */
  lemma InitBelowLast(m: SortedMap, init: seq<(string, string)>, e: (string, string))
    requires m == init + [e]
    ensures StrictlySorted(init)
    ensures forall x :: x in Keys(init) ==> Less(x, e.0)
  {
    assert forall i :: 0 <= i < |init| ==> init[i] == m[i];
    forall x | x in Keys(init) ensures Less(x, e.0) {
      var i :| 0 <= i < |init| && init[i].0 == x;
      assert m[i].0 == x && m[|init|] == e;
    }
  }

  /** The lines of a list with one more entry have one more line. */
  lemma EntryLinesSnoc(xs: seq<(string, string)>, e: (string, string))
    ensures EntryLines(xs + [e]) == EntryLines(xs) + [EntryLine(e)]
  {
    var l := EntryLines(xs + [e]);
    var r := EntryLines(xs) + [EntryLine(e)];
    assert |l| == |r|;
    forall i | 0 <= i < |l| ensures l[i] == r[i] {
      if i < |xs| {
        assert (xs + [e])[i] == xs[i];
      }
    }
  }

  /** A well-formed entry line appended to the header is inserted last. */
  lemma ParseSnocEntry(lines: seq<string>, e: (string, string), fm: SortedMap)
    requires WellFormedEntry(e)
    ensures ParseLines(lines + [EntryLine(e)], fm) == Insert(ParseLines(lines, fm), e.0, e.1)
  {
    ParseEntryLine(e);
    assert (lines + [EntryLine(e)])[..|lines|] == lines;
  }

  /** Parsing one more well-formed line whose key is above every key so far appends it. */
  lemma ParseAppend(lines: seq<string>, prefix: SortedMap, e: (string, string))
    requires WellFormedEntry(e)
    requires ParseLines(lines, []) == prefix
    requires forall x :: x in Keys(prefix) ==> Less(x, e.0)
    ensures ParseLines(lines + [EntryLine(e)], []) == prefix + [e]
  {
    var all := lines + [EntryLine(e)];
    assert all[..|all| - 1] == lines;
    ParseEntryLine(e);
    InsertGreatest(prefix, e.0, e.1);
  }

  /** Parsing the lines of a sorted map of well-formed entries rebuilds it entry by entry. */
  lemma {:induction false} ParseEntryLines(m: SortedMap)
    requires forall k :: 0 <= k < |m| ==> WellFormedEntry(m[k])
    ensures ParseLines(EntryLines(m), []) == m
    decreases |m|
  {
    if |m| > 0 {
      var e := m[|m| - 1];
      assert m == m[..|m| - 1] + [e];
      InitBelowLast(m, m[..|m| - 1], e);
      var init: SortedMap := m[..|m| - 1];
      ParseEntryLines(init);
      EntryLinesSnoc(init, e);
      ParseAppend(EntryLines(init), init, e);
    }
  }

  /** Round trip: the header written for a non-empty map of well-formed entries, followed
      by any text, reads back as that text and that map. */
  lemma FrontMatterRoundTrip(m: SortedMap, body: string)
    requires |m| >= 1
    requires forall k :: 0 <= k < |m| ==> WellFormedEntry(m[k])
    ensures ExtractFrontMatter(GenerateFrontMatter(m) + body, []) == Extracted(body, m)
  {
    var lines := EntryLines(m);
    forall k | 0 <= k < |lines| ensures '\n' !in lines[k] && lines[k] != "---" {
      EntryLineShape(m[k]);
    }
    HeaderBodyIsJoin(m);
    assert GenerateFrontMatter(m) + body == "---\n" + Join(lines, '\n') + "\n---\n" + body;
    ExtractJoinedHeader(lines, body, []);
    ParseEntryLines(m);
  }

  /** The header written for an empty map is not recognised on reading: its closing
      delimiter starts at index 3, before the search begins. */
  lemma EmptyHeaderIsNotRecognised(fm: SortedMap)
    ensures GenerateFrontMatter([]) == "---\n---\n"
    ensures ExtractFrontMatter(GenerateFrontMatter([]), fm) == Extracted("---\n---\n", fm)
  {
    assert IndexOf("---\n---\n", "\n---\n", 4) == -1;
  }
}

=== FILE: migrate.dfy ===
/** The one-off exporter migrate_db_to_md.py, which writes every prompt of the old
    database as a Markdown file the repository can read: the header it writes, and where
    it puts each file. Reading the database, the date conversion and the writes are not
    modelled; the folder table arrives as a map from folder id to name. */
module Migrate {
  import opened Common
  import opened Strings
  import opened Models
  import opened FileNames
  import opened FrontMatter
  import opened PromptCache

  // ---------------------------------------------------------------------------------
  // sanitize_filename

  /** str.isspace, the whitespace of Python's \\s and str.strip: the ASCII whitespace,
      the separators U+001C to U+001F, and the Unicode spaces and line separators. */
  predicate PyIsSpace(c: char)
  {
    || IsSpace(c)
    || ('\U{1C}' <= c <= '\U{1F}')
    || c == '\U{85}' || c == '\U{A0}' || c == '\U{1680}'
    || ('\U{2000}' <= c <= '\U{200A}')
    || c == '\U{2028}' || c == '\U{2029}' || c == '\U{202F}' || c == '\U{205F}' || c == '\U{3000}'
  }

  /** A character the pattern [^a-zA-Z0-9_\-\s] does not remove, with Python's \s. */
  predicate PyIsAllowed(c: char)
  {
    ('a' <= c <= 'z') || ('A' <= c <= 'Z') || ('0' <= c <= '9') || c == '_' || c == '-' || PyIsSpace(c)
  }

  /** No Python whitespace at either end. */
  predicate PyIsTrimmed(s: string)
  {
    |s| == 0 || (!PyIsSpace(s[0]) && !PyIsSpace(s[|s| - 1]))
  }

  /** Every whitespace character of `s` is ASCII whitespace: on such text Python and Qt
      agree on what whitespace is. */
  predicate AsciiSpaced(s: string)
  {
    forall i :: 0 <= i < |s| ==> PyIsSpace(s[i]) ==> IsSpace(s[i])
  }

  /** re.sub of the pattern with '': the allowed characters, in order. */
  function PyKeepAllowed(s: string): (r: string)
    ensures |r| <= |s|
    ensures forall i :: 0 <= i < |r| ==> PyIsAllowed(r[i])
    ensures forall c :: c in r <==> c in s && PyIsAllowed(c)
    ensures (forall i :: 0 <= i < |s| ==> PyIsAllowed(s[i])) ==> r == s
    ensures AsciiSpaced(s) ==> r == KeepAllowed(s)
    decreases |s|
  {
    if |s| == 0 then ""
    else
      var rest := PyKeepAllowed(s[1..]);
      assert s == [s[0]] + s[1..];
      assert AsciiSpaced(s) ==> AsciiSpaced(s[1..]) by {
        assert forall i :: 0 <= i < |s| - 1 ==> s[1..][i] == s[i + 1];
      }
      if PyIsAllowed(s[0]) then [s[0]] + rest else rest
  }

  /** Length of the run of Python whitespace that starts `s`. */
  function PyLeadingSpaces(s: string): (n: nat)
    ensures n <= |s|
    ensures forall i :: 0 <= i < n ==> PyIsSpace(s[i])
    ensures n == |s| || !PyIsSpace(s[n])
    ensures AsciiSpaced(s) ==> n == LeadingSpaces(s)
    decreases |s|
  {
    assert AsciiSpaced(s) && |s| > 0 ==> AsciiSpaced(s[1..]) by {
      assert forall i :: 0 <= i < |s| - 1 ==> s[1..][i] == s[i + 1];
    }
    if |s| > 0 && PyIsSpace(s[0]) then 1 + PyLeadingSpaces(s[1..]) else 0
  }

  /** Length of the run of Python whitespace that ends `s`. */
  function PyTrailingSpaces(s: string): (n: nat)
    ensures n <= |s|
    ensures forall i :: |s| - n <= i < |s| ==> PyIsSpace(s[i])
    ensures n == |s| || !PyIsSpace(s[|s| - 1 - n])
    ensures AsciiSpaced(s) ==> n == TrailingSpaces(s)
    decreases |s|
  {
    assert AsciiSpaced(s) && |s| > 0 ==> AsciiSpaced(s[..|s| - 1]);
    if |s| > 0 && PyIsSpace(s[|s| - 1]) then 1 + PyTrailingSpaces(s[..|s| - 1]) else 0
  }

  /** str.strip(): `s` without its leading and trailing Python whitespace; on text whose
      whitespace is all ASCII, the same as QString::trimmed. */
  function PyStrip(s: string): (r: string)
    ensures PyIsTrimmed(r)
    ensures PyIsTrimmed(s) ==> r == s
    ensures forall i :: 0 <= i < |r| ==> r[i] in s
    ensures AsciiSpaced(s) ==> r == Trim(s)
  {
    var a := PyLeadingSpaces(s);
    var t := s[a..];
    StripAgrees(s);
    StripTrimmed(t);
    var r := t[..|t| - PyTrailingSpaces(t)];
    assert forall i :: 0 <= i < |r| ==> r[i] == s[a + i];
    assert PyIsTrimmed(s) ==> a == 0 && PyTrailingSpaces(t) == 0;
    r
  }

  /** Cutting the trailing Python whitespace off a text without leading whitespace
      leaves a stripped text. */
  lemma StripTrimmed(t: string)
    requires |t| == 0 || !PyIsSpace(t[0])
    ensures PyIsTrimmed(t[..|t| - PyTrailingSpaces(t)])
  {
    var r := t[..|t| - PyTrailingSpaces(t)];
    if |r| > 0 {
      assert r[0] == t[0];
    }
  }

  /** On text whose whitespace is ASCII, cutting Python whitespace off both ends cuts
      what QString::trimmed cuts. */
  lemma StripAgrees(s: string)
    ensures AsciiSpaced(s) ==>
              var t := s[PyLeadingSpaces(s)..];
              t[..|t| - PyTrailingSpaces(t)] == Trim(s)
  {
    if AsciiSpaced(s) {
      var a := PyLeadingSpaces(s);
      assert a == LeadingSpaces(s);
      AsciiSpacedSuffix(s, a);
      var t := s[a..];
      assert PyTrailingSpaces(t) == TrailingSpaces(t);
      TrimCuts(s);
    }
  }

  /** A suffix of text whose whitespace is ASCII has only ASCII whitespace. */
  lemma AsciiSpacedSuffix(s: string, a: nat)
    requires AsciiSpaced(s) && a <= |s|
    ensures AsciiSpaced(s[a..])
  {
    assert forall i :: 0 <= i < |s| - a ==> s[a..][i] == s[a + i];
  }

  /** sanitize_filename: drop every character outside [A-Za-z0-9_-] and Python
      whitespace, strip the ends, and fall back on "Untitled" when nothing is left. The
      result is never empty, holds only allowed characters and is stripped. */
  function SanitizeFilename(name: string): (r: string)
    ensures r != "" && PyIsTrimmed(r)
    ensures forall i :: 0 <= i < |r| ==> PyIsAllowed(r[i])
  {
    var kept := PyKeepAllowed(name);
    var s := PyStrip(kept);
    assert forall i :: 0 <= i < |s| ==> PyIsAllowed(s[i]) by {
      forall i | 0 <= i < |s| ensures PyIsAllowed(s[i]) {
        assert s[i] in kept;
      }
    }
    if s == "" then
      UntitledIsPyClean();
      "Untitled"
    else s
  }

  /** The fallback name survives Python's sanitising unchanged. */
  lemma UntitledIsPyClean()
    ensures PyIsTrimmed("Untitled")
    ensures forall i :: 0 <= i < |"Untitled"| ==> PyIsAllowed("Untitled"[i])
  {
    var u := "Untitled";
    assert forall i :: 0 <= i < |u| ==> 'a' <= u[i] <= 'z' || u[i] == 'U';
  }

  /** sanitize_filename gives the repository's title rule on every name whose whitespace
      is ASCII, and sanitising its result again changes nothing. */
  lemma SanitizeFilenameProperties(name: string)
    ensures SanitizeFilename(SanitizeFilename(name)) == SanitizeFilename(name)
    ensures AsciiSpaced(name) ==> SanitizeFilename(name) == SanitizeTitle(name)
  {
    var r := SanitizeFilename(name);
    assert PyKeepAllowed(r) == r;
    if AsciiSpaced(name) {
      var kept := PyKeepAllowed(name);
      assert AsciiSpaced(kept) by {
        forall i | 0 <= i < |kept| && PyIsSpace(kept[i]) ensures IsSpace(kept[i]) {
          assert kept[i] in name;
        }
      }
    }
  }

  /** The two sanitisers differ on a name holding a separator U+001F: Python keeps it as
      whitespace inside the name, the repository's pattern drops it. */
  lemma SanitizersDifferOnSeparator()
    ensures SanitizeFilename("a\U{1F}b") == "a\U{1F}b"
    ensures SanitizeTitle("a\U{1F}b") == "ab"
  {
    var n := "a\U{1F}b";
    assert n[0] == 'a' && n[1] == '\U{1F}' && n[2] == 'b' && |n| == 3;
    assert forall i :: 0 <= i < |n| ==> PyIsAllowed(n[i]);
    assert PyIsTrimmed(n);
    assert PyStrip(PyKeepAllowed(n)) == n;
    SeparatorDropped();
  }

  /** The repository's pattern drops the separator U+001F. */
  lemma SeparatorDropped()
    ensures SanitizeTitle("a\U{1F}b") == "ab"
  {
    var n := "a\U{1F}b";
    assert n[1..] == "\U{1F}b" && n[1..][1..] == "b" && "b"[1..] == "";
    var k2 := KeepAllowed("b");
    assert k2 == "b" by {
      KeepAllowedCons("b");
      assert KeepAllowed("") == "";
    }
    var k1 := KeepAllowed(n[1..]);
    assert k1 == "b" by {
      KeepAllowedCons(n[1..]);
      assert !IsAllowed(n[1..][0]);
    }
    assert KeepAllowed(n) == "ab" by {
      KeepAllowedCons(n);
      assert IsAllowed(n[0]);
      assert [n[0]] + "b" == "ab";
    }
    TrimAfterSpaces("", "ab");
    assert "" + "ab" == "ab";
  }

  /** The three header lines generate_frontmatter writes, in its order. */
  function HeaderLines(title: string, createdAt: string, updatedAt: string): (lines: seq<string>)
    ensures |lines| == 3
  {
    [EntryLine(("title", title)), EntryLine(("createdAt", createdAt)), EntryLine(("updatedAt", updatedAt))]
  }

  /** generate_frontmatter: the opening "---", title, creation time and update time in
      that order, and the closing "---", each on its own line. */
  function GenerateFrontmatter(title: string, createdAt: string, updatedAt: string): (fm: string)
    ensures fm == "---\n" + Join(HeaderLines(title, createdAt, updatedAt), '\n') + "\n---\n"
  {
    var lines := HeaderLines(title, createdAt, updatedAt);
    JoinThree(lines);
    "---\n" + lines[0] + "\n" + lines[1] + "\n" + lines[2] + "\n" + "---\n"
  }

  /** Three pieces joined by line feeds. */
  lemma JoinThree(lines: seq<string>)
    requires |lines| == 3
    ensures Join(lines, '\n') == lines[0] + "\n" + lines[1] + "\n" + lines[2]
  {
    var tail := lines[1..];
    assert tail[1..] == [lines[2]];
    assert Join(tail, '\n') == lines[1] + "\n" + lines[2];
  }

  /** A header of three lines in the exporter's order parses to the three inserts. */
  lemma ParseHeaderLines(title: string, createdAt: string, updatedAt: string)
    requires HeaderSafe(title) && HeaderSafe(createdAt) && HeaderSafe(updatedAt)
    ensures ParseLines(HeaderLines(title, createdAt, updatedAt), []) == PromptHeader(title, createdAt, updatedAt)
  {
    HeaderEntriesWellFormed(title, createdAt, updatedAt);
    ParseThreeLines(("title", title), ("createdAt", createdAt), ("updatedAt", updatedAt));
    PromptHeaderIsInserts(title, createdAt, updatedAt);
  }

  /** Three well-formed entry lines parse to the three entries inserted in line order. */
  lemma ParseThreeLines(e0: (string, string), e1: (string, string), e2: (string, string))
    requires WellFormedEntry(e0) && WellFormedEntry(e1) && WellFormedEntry(e2)
    ensures ParseLines([EntryLine(e0), EntryLine(e1), EntryLine(e2)], [])
         == Insert(Insert(Insert([], e0.0, e0.1), e1.0, e1.1), e2.0, e2.1)
  {
    var l0, l1, l2 := EntryLine(e0), EntryLine(e1), EntryLine(e2);
    AppendToShort(l0, l1, l2);
    ParseSnocEntry([], e0, []);
    ParseSnocEntry([l0], e1, []);
    ParseSnocEntry([l0, l1], e2, []);
  }

  /** The exporter writes its keys in another order than generateFrontMatter, which sorts
      them, yet the repository reads back the same header from both. */
  lemma ExportedHeaderParses(title: string, createdAt: string, updatedAt: string, body: string)
    requires HeaderSafe(title) && HeaderSafe(createdAt) && HeaderSafe(updatedAt)
    ensures ExtractFrontMatter(GenerateFrontmatter(title, createdAt, updatedAt) + body, [])
         == Extracted(body, PromptHeader(title, createdAt, updatedAt))
  {
    var lines := HeaderLines(title, createdAt, updatedAt);
    forall k | 0 <= k < |lines| ensures '\n' !in lines[k] && lines[k] != "---" {
      assert lines[k][0] != '-';
    }
    ExtractJoinedHeader(lines, body, []);
    ParseHeaderLines(title, createdAt, updatedAt);
  }

  /** An exported file is read by the repository as the prompt it was exported from. */
  lemma ExportedPromptReadsBack(p: Prompt, f: PromptFile, id: int, folderId: int)
    requires HeaderSafe(p.title) && HeaderSafe(p.createdAt) && HeaderSafe(p.updatedAt)
    requires f.text == Some(GenerateFrontmatter(p.title, p.createdAt, p.updatedAt) + p.content)
    ensures ParsePromptFile(f, id, folderId) == Some(p.(id := id, folderId := folderId))
  {
    ExportedHeaderParses(p.title, p.createdAt, p.updatedAt, p.content);
    PromptHeaderLookups(p.title, p.createdAt, p.updatedAt);
  }

  /** The directories the exporter creates: one per folder, under its sanitised name.
      Each is a clean, non-empty name below the output root, there are never more of them
      than folders, since folders whose names sanitise alike share one, and there are
      none exactly when there are no folders. */
  function CreatedDirs(folders: map<int, string>): (dirs: set<string>)
    ensures forall id :: id in folders ==> SanitizeFilename(folders[id]) in dirs
    ensures forall d :: d in dirs ==> exists id :: id in folders && d == SanitizeFilename(folders[id])
    ensures forall d :: d in dirs ==> d != "" && PyIsTrimmed(d) && forall i :: 0 <= i < |d| ==> PyIsAllowed(d[i])
    ensures |dirs| <= |folders|
    ensures dirs == {} <==> |folders| == 0
  {
    DirsOfCardinality(folders, folders.Keys);
    DirsOf(folders, folders.Keys)
  }

  /** The sanitised names of the folders whose ids are in `ids`. */
  function DirsOf(folders: map<int, string>, ids: set<int>): set<string>
  {
    set id | id in ids && id in folders :: SanitizeFilename(folders[id])
  }

  /** There are never more directory names than ids, and, for ids of folders, there are
      some exactly when there are ids. */
  lemma {:induction false} DirsOfCardinality(folders: map<int, string>, ids: set<int>)
    ensures |DirsOf(folders, ids)| <= |ids|
    ensures ids <= folders.Keys ==> (DirsOf(folders, ids) == {} <==> ids == {})
    decreases |ids|
  {
    if ids != {} {
      var k := Pick(ids);
      var rest := ids - {k};
      DirsOfCardinality(folders, rest);
      DirsOfRemove(folders, ids, k);
    } else {
      assert DirsOf(folders, ids) == {};
    }
  }

  /** The directory names of a set of ids: one id's, and the rest's. */
  lemma DirsOfRemove(folders: map<int, string>, ids: set<int>, k: int)
    requires k in ids
    ensures DirsOf(folders, ids) == DirsOf(folders, ids - {k}) + (if k in folders then {SanitizeFilename(folders[k])} else {})
  {
  }

  /** Where a prompt is exported: under its folder's sanitised name when its folder id is
      set, non-zero and a known folder, and in the output root otherwise; the file name
      is the sanitised title with ".md". */
  function TargetPath(folders: map<int, string>, folderId: Option<int>, title: string): (p: FilePath)
    ensures p.file == SanitizeFilename(title) + ".md"
    ensures p.dir.Some? <==> folderId.Some? && folderId.value != 0 && folderId.value in folders
    ensures p.dir.Some? ==> p.dir.value == SanitizeFilename(folders[folderId.value])
  {
    var file := SanitizeFilename(title) + ".md";
    match folderId
    case Some(id) =>
      if id != 0 && id in folders then FilePath(Some(SanitizeFilename(folders[id])), file)
      else FilePath(None, file)
    case None => FilePath(None, file)
  }

  /** An exported title whose whitespace is ASCII lands in the file the repository would
      save it to, in the same directory. */
  lemma ExportedFileIsRepositoryFile(folders: map<int, string>, folderId: Option<int>, title: string)
    requires AsciiSpaced(title)
    ensures var p := TargetPath(folders, folderId, title);
            p == PromptPath(p.dir, title)
  {
    SanitizeFilenameProperties(title);
  }

  /** Every file is exported into the root or into a directory created beforehand. */
  lemma TargetDirWasCreated(folders: map<int, string>, folderId: Option<int>, title: string)
    ensures var p := TargetPath(folders, folderId, title);
            p.dir.None? || p.dir.value in CreatedDirs(folders)
  {
  }
}

=== FILE: models.dfy ===
/** The records the repository and the search filter work on, from src/models/prompt.h
    and src/models/folder.h, as plain values. Timestamps are kept as their ISO-8601 text;
    an id of 0 or less marks a record not yet stored. */
module Models {

  datatype Prompt = Prompt(
    id: int,
    title: string,
    content: string,
    folderId: int,
    createdAt: string,
    updatedAt: string)
  {
    /** Prompt::isValid: the prompt has been given an id. */
    predicate IsStored()
    {
      id > 0
    }
  }

  datatype Folder = Folder(id: int, name: string)
  {
    /** Folder::isValid. */
    predicate IsStored()
    {
      id > 0
    }
  }

  /** A folder together with the number of prompts filed in it. */
  datatype FolderCount = FolderCount(folder: Folder, promptCount: nat)

  /** The folder id of each prompt, in order. */
  function FolderIdsOf(ps: seq<Prompt>): (ids: seq<int>)
    ensures |ids| == |ps|
    ensures forall i :: 0 <= i < |ps| ==> ids[i] == ps[i].folderId
  {
    seq(|ps|, i requires 0 <= i < |ps| => ps[i].folderId)
  }

  /** The number of prompts filed under folder `f`. */
  function CountIn(ps: seq<Prompt>, f: int): nat
  {
    multiset(FolderIdsOf(ps))[f]
  }

  /** Counting over a list with a first prompt: that prompt, then the rest. */
  lemma CountInCons(p: Prompt, ps: seq<Prompt>, f: int)
    ensures CountIn([p] + ps, f) == (if p.folderId == f then 1 else 0) + CountIn(ps, f)
  {
    assert FolderIdsOf([p] + ps) == [p.folderId] + FolderIdsOf(ps);
  }
}

=== FILE: placeholders.dfy ===
/** The placeholder template engine of src/utils/placeholderutils.cpp.

    A token is a match of the regular expression  \{\{([^}]+)\}\} : two opening
    braces, one or more characters other than a closing brace, two closing braces.
    The text is scanned for tokens leftmost-first without overlaps; the name of a
    token is its capture with surrounding whitespace trimmed. Nothing after a `|`
    is treated specially: it is part of the name. */
module Placeholders {
  import opened Common
  import opened Strings

  /** One match of the token pattern: it occupies [start, end) of the scanned text. */
  datatype Match = Match(start: nat, end: nat)

  /** Index of the first '}' at or after `k`, or |s| when there is none. */
  function FirstClose(s: string, k: nat): (j: nat)
    requires k <= |s|
    ensures k <= j <= |s|
    ensures j < |s| ==> s[j] == '}'
    ensures forall q :: k <= q < j ==> s[q] != '}'
    decreases |s| - k
  {
    if k == |s| || s[k] == '}' then k else FirstClose(s, k + 1)
  }

  /** The token pattern matches exactly s[i..e]. */
  predicate IsToken(s: string, i: int, e: int)
  {
    && 0 <= i && i + 5 <= e <= |s|
    && s[i] == '{' && s[i + 1] == '{'
    && s[e - 2] == '}' && s[e - 1] == '}'
    && forall q :: i + 2 <= q < e - 2 ==> s[q] != '}'
  }

  /** Does the token pattern match at position `i`, and where does the match end?
      The capture cannot contain '}', so a match at `i` has only one possible end. */
  function TokenAt(s: string, i: nat): (r: Option<nat>)
    ensures r.Some? ==> IsToken(s, i, r.value)
    ensures forall e :: IsToken(s, i, e) ==> r == Some(e)
  {
    if i + 2 <= |s| && s[i] == '{' && s[i + 1] == '{' then
      var j := FirstClose(s, i + 2);
      if i + 2 < j && j + 1 < |s| && s[j + 1] == '}' then Some(j + 2) else None
    else None
  }

  /** Each match in `ms` is a token of `s`. */
  predicate TokensOf(s: string, ms: seq<Match>)
  {
    forall k :: 0 <= k < |ms| ==> IsToken(s, ms[k].start, ms[k].end)
  }

  /** The matches lie inside [from, to), each with start <= end, increasing and
      without overlaps. */
  predicate Spans(ms: seq<Match>, from: int, to: int)
    decreases |ms|
  {
    && 0 <= from <= to
    && (|ms| > 0 ==>
          && from <= ms[0].start <= ms[0].end <= to
          && Spans(ms[1..], ms[0].end, to))
  }

  /** Splitting the last match off: the rest spans up to where it starts. */
  lemma {:induction false} SpansSplitLast(ms: seq<Match>, m: Match, from: int, to: int)
    requires Spans(ms + [m], from, to)
    ensures Spans(ms, from, m.start)
    ensures from <= m.start <= m.end <= to
    decreases |ms|
  {
    var all := ms + [m];
    if |ms| > 0 {
      assert all[0] == ms[0];
      assert all[1..] == ms[1..] + [m];
      SpansSplitLast(ms[1..], m, ms[0].end, to);
    }
  }

  /** Spans stay spans when the right bound grows. */
  lemma {:induction false} SpansWiden(ms: seq<Match>, from: int, to: int, to': int)
    requires Spans(ms, from, to) && to <= to'
    ensures Spans(ms, from, to')
    decreases |ms|
  {
    if |ms| > 0 {
      SpansWiden(ms[1..], ms[0].end, to, to');
    }
  }

  /** Position `p` falls inside one of the matches. */
  predicate Covers(ms: seq<Match>, p: int)
  {
    exists k :: 0 <= k < |ms| && ms[k].start <= p < ms[k].end
  }

  /** QRegularExpression::globalMatch from position `from`: leftmost, non-overlapping. */
  function Scan(s: string, from: nat): (ms: seq<Match>)
    requires from <= |s|
    ensures Spans(ms, from, |s|)
    ensures TokensOf(s, ms)
    decreases |s| - from
  {
    if from == |s| then []
    else match TokenAt(s, from)
      case Some(e) => [Match(from, e)] + Scan(s, e)
      case None => Scan(s, from + 1)
  }

  /** The scan misses nothing: wherever the pattern could match, at or after `from`,
      that position lies inside a reported match. */
  lemma {:induction false} ScanIsLeftmost(s: string, from: nat, p: nat)
    requires from <= p < |s|
    requires TokenAt(s, p).Some?
    ensures Covers(Scan(s, from), p)
    decreases |s| - from
  {
    var ms := Scan(s, from);
    match TokenAt(s, from)
    case Some(e) =>
      if p < e {
        assert ms[0] == Match(from, e);
      } else {
        ScanIsLeftmost(s, e, p);
        var rest := Scan(s, e);
        var k :| 0 <= k < |rest| && rest[k].start <= p < rest[k].end;
        assert ms[k + 1] == rest[k];
      }
    case None =>
      assert p != from;
      ScanIsLeftmost(s, from + 1, p);
  }

  /** The text between the braces of a token. */
  function Capture(s: string, m: Match): string
    requires IsToken(s, m.start, m.end)
  {
    s[m.start + 2..m.end - 2]
  }

  /** trimPlaceholderName(match.captured(1)). */
  function NameOf(s: string, m: Match): string
    requires IsToken(s, m.start, m.end)
  {
    Trim(Capture(s, m))
  }

  /** The trimmed names of all tokens of `text`, in scan order, repeats and empty names kept. */
  function TokenNames(text: string): seq<string>
  {
    var ms := Scan(text, 0);
    seq(|ms|, k requires 0 <= k < |ms| => NameOf(text, ms[k]))
  }

  /** Non-empty names not yet seen, each kept once. */
  function DistinctNames(names: seq<string>, seen: set<string>): (r: seq<string>)
    ensures NoDuplicates(r)
    ensures forall n :: n in r <==> n in names && n != "" && n !in seen
    decreases |names|
  {
    if |names| == 0 then []
    else if names[0] == "" || names[0] in seen then DistinctNames(names[1..], seen)
    else
      var rest := DistinctNames(names[1..], seen + {names[0]});
      assert names[0] !in rest;
      [names[0]] + rest
  }

  /** extractPlaceholders: every distinct non-empty token name, once. The source collects
      them in a QSet, so no order is promised; this model lists them in the order of
      first occurrence. */
  function ExtractPlaceholders(text: string): (r: seq<string>)
    ensures |text| == 0 ==> r == []
    ensures NoDuplicates(r)
    ensures forall n :: n in r <==> n in TokenNames(text) && n != ""
  {
    if |text| == 0 then [] else DistinctNames(TokenNames(text), {})
  }

  /** placeholderCount: the number of distinct non-empty token names. */
  function PlaceholderCount(text: string): (n: nat)
    ensures n == |set x | x in TokenNames(text) && x != ""|
  {
    var r := ExtractPlaceholders(text);
    NoDuplicatesCardinality(r);
    assert (set x | x in r) == (set x | x in TokenNames(text) && x != "");
    |r|
  }

  /** hasPlaceholders: the pattern matches somewhere in `text`; that is, the scan finds
      a token, even one whose name is empty. */
  function HasPlaceholders(text: string): (b: bool)
    ensures b <==> |Scan(text, 0)| > 0
  {
    TokenSomewhereIffScan(text);
    exists i :: 0 <= i < |text| && TokenAt(text, i).Some?
  }

  /** A single match anywhere is the same as a non-empty scan. */
  lemma TokenSomewhereIffScan(text: string)
    ensures (exists i :: 0 <= i < |text| && TokenAt(text, i).Some?) <==> |Scan(text, 0)| > 0
  {
    var ms := Scan(text, 0);
    if exists i :: 0 <= i < |text| && TokenAt(text, i).Some? {
      var i :| 0 <= i < |text| && TokenAt(text, i).Some?;
      ScanIsLeftmost(text, 0, i);
    }
    if |ms| > 0 {
      assert TokenAt(text, ms[0].start).Some?;
    }
  }

  /** "{{ }}" contains a token, but its name is empty, so it counts no placeholders. */
  lemma BlankTokenIsNotCounted()
    ensures HasPlaceholders("{{ }}")
    ensures PlaceholderCount("{{ }}") == 0
    ensures ExtractPlaceholders("{{ }}") == []
  {
    var s := "{{ }}";
    assert FirstClose(s, 3) == 3;
    assert FirstClose(s, 2) == 3;
    assert TokenAt(s, 0) == Some(5);
    assert Scan(s, 0) == [Match(0, 5)];
    assert Capture(s, Match(0, 5)) == " ";
    assert LeadingSpaces(" ") == 1;
    assert TokenNames(s) == [""];
    assert (set x | x in TokenNames(s) && x != "") == {};
  }

  /** isValidPlaceholder, as far as it is modelled: a name is rejected only when empty.
      The source then checks that the escaped name forms a valid pattern, which it
      always does. A valid name that is trimmed and free of '}' wraps into a template
      whose one placeholder is that name. */
  function IsValidPlaceholder(name: string): (b: bool)
    ensures b <==> name != ""
    ensures b && IsTrimmed(name) && '}' !in name ==> ExtractPlaceholders("{{" + name + "}}") == [name]
  {
    if name != "" && IsTrimmed(name) && '}' !in name then
      ValidPlaceholderWraps(name);
      true
    else name != ""
  }

  /** A non-empty, trimmed name free of '}' wrapped in braces is one token of that name. */
  lemma ValidPlaceholderWraps(name: string)
    requires name != "" && IsTrimmed(name) && '}' !in name
    ensures Scan("{{" + name + "}}", 0) == [Match(0, |name| + 4)]
    ensures ExtractPlaceholders("{{" + name + "}}") == [name]
  {
    var s := "{{" + name + "}}";
    assert IsToken(s, 0, |s|) && Capture(s, Match(0, |s|)) == name by {
      assert forall q :: 2 <= q < |s| - 2 ==> s[q] == name[q - 2];
      assert s[2..|s| - 2] == name;
    }
    WholeToken(s);
    DistinctSingle(name);
  }

  /** A text that is one token from end to end scans as that token alone. */
  lemma WholeToken(s: string)
    requires IsToken(s, 0, |s|)
    ensures Scan(s, 0) == [Match(0, |s|)]
    ensures TokenNames(s) == [NameOf(s, Match(0, |s|))]
  {
    assert TokenAt(s, 0) == Some(|s|);
    assert Scan(s, |s|) == [];
  }

  /** One non-empty name is its own list of distinct names. */
  lemma DistinctSingle(n: string)
    requires n != ""
    ensures DistinctNames([n], {}) == [n]
  {
    assert DistinctNames([n], {}) == [n] + DistinctNames([], {n});
  }

  /** The emptiness check accepts names that cannot be wrapped into a token. */
  lemma ValidPlaceholderMayNotWrap()
    ensures IsValidPlaceholder("}")
    ensures !HasPlaceholders("{{" + "}" + "}}")
  {
    var s := "{{" + "}" + "}}";
    assert s == "{{}}}";
    forall i | 0 <= i < |s| ensures TokenAt(s, i).None? {
      if i == 0 { assert FirstClose(s, 2) == 2; }
    }
  }

  /** The two substitution policies: replacePlaceholders leaves unknown tokens alone,
      generatePreview shows them as "[name]". */
  datatype Policy = Strict | Preview

  /** What the source splices in for match `m`; None when it leaves the token alone.
      A mapped name is replaced by its value even when that value is empty. */
  function Replacement(s: string, m: Match, policy: Policy, values: map<string, string>): Option<string>
    requires IsToken(s, m.start, m.end)
  {
    var n := NameOf(s, m);
    if n in values then Some(values[n])
    else if policy == Preview then Some("[" + n + "]")
    else None
  }

  /** The replacement decided for each match, in scan order. */
  function Replacements(s: string, ms: seq<Match>, policy: Policy, values: map<string, string>): (subs: seq<Option<string>>)
    requires TokensOf(s, ms)
    ensures |subs| == |ms|
  {
    seq(|ms|, k requires 0 <= k < |ms| => Replacement(s, ms[k], policy, values))
  }

  /** The text that stands for each match in the output: its replacement, or the
      token itself when it is left alone. */
  function Renderings(s: string, ms: seq<Match>, policy: Policy, values: map<string, string>): (pieces: seq<string>)
    requires TokensOf(s, ms)
    ensures |pieces| == |ms|
  {
    seq(|ms|, k requires 0 <= k < |ms| => Replacement(s, ms[k], policy, values).GetOr(s[ms[k].start..ms[k].end]))
  }

  /** `piece` is what `sub` makes of the slice of `s` covered by `m`. */
  predicate RendersAs(s: string, m: Match, sub: Option<string>, piece: string)
  {
    0 <= m.start <= m.end <= |s| && piece == sub.GetOr(s[m.start..m.end])
  }

  /** One QString::replace(start, length, value) call, or nothing when `sub` is None. */
  function SpliceOne(r: string, m: Match, sub: Option<string>): string
    requires 0 <= m.start <= m.end <= |r|
  {
    match sub
    case None => r
    case Some(v) => r[..m.start] + v + r[m.end..]
  }

  /** The source's algorithm: starting from `r`, replace matches last-to-first at the
      offsets they had in the original text, skipping those whose replacement is None. */
  function SpliceRightToLeft(r: string, ms: seq<Match>, subs: seq<Option<string>>): (out: string)
    requires |subs| == |ms|
    requires Spans(ms, 0, |r|)
    ensures (forall k :: 0 <= k < |subs| ==> subs[k].None?) ==> out == r
    decreases |ms|
  {
    if |ms| == 0 then r
    else
      var m := ms[|ms| - 1];
      var init := ms[..|ms| - 1];
      assert ms == init + [m];
      SpansSplitLast(init, m, 0, |r|);
      var next := SpliceOne(r, m, subs[|ms| - 1]);
      SpansWiden(init, 0, m.start, |next|);
      SpliceRightToLeft(next, init, subs[..|ms| - 1])
  }

  /** Splicing one match into a text that agrees with `s` up to `b`. */
  lemma SpliceOneAt(s: string, b: nat, t: string, m: Match, sub: Option<string>, piece: string)
    requires RendersAs(s, m, sub, piece) && m.end <= b <= |s|
    ensures SpliceOne(s[..b] + t, m, sub) == s[..m.start] + (piece + s[m.end..b] + t)
  {
    var r := s[..b] + t;
    assert r[..m.start] == s[..m.start];
    assert r[m.end..] == s[m.end..b] + t;
    if sub.None? {
      assert r == s[..m.start] + s[m.start..m.end] + (s[m.end..b] + t);
    }
  }

  /** The reference algorithm: one left-to-right pass over s[from..to] copying the text
      between matches and emitting each match's piece once. */
  function RebuildWith(s: string, ms: seq<Match>, pieces: seq<string>, from: nat, to: nat): string
    requires |pieces| == |ms|
    requires Spans(ms, from, to) && to <= |s|
    decreases |ms|
  {
    if |ms| == 0 then s[from..to]
    else s[from..ms[0].start] + pieces[0] + RebuildWith(s, ms[1..], pieces[1..], ms[0].end, to)
  }

  /** Left-to-right rebuild of the whole text over its own scan. */
  function Rebuild(s: string, policy: Policy, values: map<string, string>): string
  {
    var ms := Scan(s, 0);
    RebuildWith(s, ms, Renderings(s, ms, policy, values), 0, |s|)
  }

  /** Peeling the last match off a left-to-right rebuild. */
  lemma {:induction false} RebuildAppend(s: string, ms: seq<Match>, m: Match, pieces: seq<string>, p: string,
                                         from: nat, to: nat)
    requires |pieces| == |ms|
    requires Spans(ms + [m], from, to) && to <= |s|
    ensures Spans(ms, from, m.start) && from <= m.start <= m.end <= to
    ensures RebuildWith(s, ms + [m], pieces + [p], from, to)
         == RebuildWith(s, ms, pieces, from, m.start) + p + s[m.end..to]
    decreases |ms|
  {
    SpansSplitLast(ms, m, from, to);
    var all := ms + [m];
    var ps := pieces + [p];
    if |ms| == 0 {
      assert all == [m] && ps == [p];
    } else {
      assert all[0] == ms[0] && ps[0] == pieces[0];
      assert all[1..] == ms[1..] + [m];
      assert ps[1..] == pieces[1..] + [p];
      RebuildAppend(s, ms[1..], m, pieces[1..], p, ms[0].end, to);
    }
  }

  /** Right-to-left splicing at the original offsets gives the same text as a single
      left-to-right rebuild: replacements made at the back never shift the offsets of
      the matches still to be processed. Stated for a prefix s[..b] followed by any tail. */
  lemma {:induction false} RightToLeftIsRebuild(s: string, ms: seq<Match>, subs: seq<Option<string>>,
                                                pieces: seq<string>, b: nat, t: string)
    requires |subs| == |ms| == |pieces|
    requires Spans(ms, 0, b) && b <= |s|
    requires forall k :: 0 <= k < |ms| ==> RendersAs(s, ms[k], subs[k], pieces[k])
    ensures Spans(ms, 0, |s[..b] + t|)
    ensures SpliceRightToLeft(s[..b] + t, ms, subs) == RebuildWith(s, ms, pieces, 0, b) + t
    decreases |ms|
  {
    var r := s[..b] + t;
    SpansWiden(ms, 0, b, |r|);
    if |ms| > 0 {
      var n := |ms| - 1;
      var m := ms[n];
      var init := ms[..n];
      assert ms == init + [m];
      assert pieces == pieces[..n] + [pieces[n]];
      RebuildAppend(s, init, m, pieces[..n], pieces[n], 0, b);
      var tail := pieces[n] + s[m.end..b] + t;
      SpliceLast(r, ms, subs);
      assert RendersAs(s, m, subs[n], pieces[n]);
      SpliceOneAt(s, b, t, m, subs[n], pieces[n]);
      assert forall k :: 0 <= k < |init| ==> init[k] == ms[k] && subs[..n][k] == subs[k] && pieces[..n][k] == pieces[k];
      RightToLeftIsRebuild(s, init, subs[..n], pieces[..n], m.start, tail);
      assert RebuildWith(s, init, pieces[..n], 0, m.start) + tail == RebuildWith(s, ms, pieces, 0, b) + t;
    }
  }

  /** One step of the right-to-left splice: the last match is replaced first. */
  lemma SpliceLast(r: string, ms: seq<Match>, subs: seq<Option<string>>)
    requires |subs| == |ms| > 0
    requires Spans(ms, 0, |r|)
    ensures 0 <= ms[|ms| - 1].start <= ms[|ms| - 1].end <= |r|
    ensures Spans(ms[..|ms| - 1], 0, |SpliceOne(r, ms[|ms| - 1], subs[|ms| - 1])|)
    ensures SpliceRightToLeft(r, ms, subs)
         == SpliceRightToLeft(SpliceOne(r, ms[|ms| - 1], subs[|ms| - 1]), ms[..|ms| - 1], subs[..|ms| - 1])
  {
    var m := ms[|ms| - 1];
    var init := ms[..|ms| - 1];
    assert ms == init + [m];
    SpansSplitLast(init, m, 0, |r|);
    SpansWiden(init, 0, m.start, |SpliceOne(r, m, subs[|ms| - 1])|);
  }

  /** Each match renders as its replacement, or as itself when it is left alone. */
  lemma RenderingsRender(s: string, ms: seq<Match>, policy: Policy, values: map<string, string>)
    requires TokensOf(s, ms)
    ensures forall k :: 0 <= k < |ms| ==>
              RendersAs(s, ms[k], Replacements(s, ms, policy, values)[k], Renderings(s, ms, policy, values)[k])
  {
  }

  /** The source's right-to-left splicing over the scan of `text` is the left-to-right
      rebuild under the same policy. */
  lemma SpliceIsRebuild(text: string, policy: Policy, values: map<string, string>)
    ensures SpliceRightToLeft(text, Scan(text, 0), Replacements(text, Scan(text, 0), policy, values))
         == Rebuild(text, policy, values)
  {
    var ms := Scan(text, 0);
    var subs := Replacements(text, ms, policy, values);
    var pieces := Renderings(text, ms, policy, values);
    RenderingsRender(text, ms, policy, values);
    RightToLeftIsRebuild(text, ms, subs, pieces, |text|, []);
    EmptyTail(text);
    EmptyTail(RebuildWith(text, ms, pieces, 0, |text|));
  }

  /** The whole of a text with nothing after it. */
  lemma EmptyTail(s: string)
    ensures s[..|s|] + [] == s
  {
  }

  /** replacePlaceholders: each token whose name is mapped becomes its value; every other
      token and all text between tokens is copied verbatim. */
  function ReplacePlaceholders(text: string, values: map<string, string>): (r: string)
    ensures |text| == 0 || |values| == 0 ==> r == text
    ensures r == Rebuild(text, Strict, values)
  {
    if |text| == 0 || |values| == 0 then
      var ms := Scan(text, 0);
      StrictKeepsUnmapped(text, ms, Renderings(text, ms, Strict, values), 0, |text|, values);
      text
    else
      var ms := Scan(text, 0);
      SpliceIsRebuild(text, Strict, values);
      SpliceRightToLeft(text, ms, Replacements(text, ms, Strict, values))
  }

  /** generatePreview: every token becomes its mapped value, or "[name]" when unmapped. */
  function GeneratePreview(text: string, values: map<string, string>): (r: string)
    ensures |text| == 0 ==> r == text
    ensures r == Rebuild(text, Preview, values)
  {
    if |text| == 0 then
      assert Scan(text, 0) == [];
      text
    else
      var ms := Scan(text, 0);
      SpliceIsRebuild(text, Preview, values);
      SpliceRightToLeft(text, ms, Replacements(text, ms, Preview, values))
  }

  /** `m` is a token whose name has no entry in `values`. */
  predicate Unmapped(s: string, m: Match, values: map<string, string>)
  {
    IsToken(s, m.start, m.end) && NameOf(s, m) !in values
  }

  /** A rebuild whose every piece is the token it stands for reproduces the text. */
  lemma {:induction false} RebuildWithTokens(s: string, ms: seq<Match>, pieces: seq<string>, from: nat, to: nat)
    requires |pieces| == |ms|
    requires Spans(ms, from, to) && to <= |s|
    requires forall k :: 0 <= k < |ms| ==> RendersAs(s, ms[k], None, pieces[k])
    ensures RebuildWith(s, ms, pieces, from, to) == s[from..to]
    decreases |ms|
  {
    if |ms| > 0 {
      assert RendersAs(s, ms[0], None, pieces[0]);
      assert forall k :: 0 <= k < |ms| - 1 ==> pieces[1..][k] == pieces[k + 1] && ms[1..][k] == ms[k + 1];
      RebuildWithTokens(s, ms[1..], pieces[1..], ms[0].end, to);
      assert s[from..to] == s[from..ms[0].start] + s[ms[0].start..ms[0].end] + s[ms[0].end..to];
    }
  }

  /** Under the strict policy, tokens whose names are unmapped come out as they went in. */
  lemma StrictKeepsUnmapped(s: string, ms: seq<Match>, pieces: seq<string>, from: nat, to: nat,
                            values: map<string, string>)
    requires TokensOf(s, ms) && Spans(ms, from, to) && to <= |s|
    requires pieces == Renderings(s, ms, Strict, values)
    requires forall k :: 0 <= k < |ms| ==> Unmapped(s, ms[k], values)
    ensures RebuildWith(s, ms, pieces, from, to) == s[from..to]
  {
    RebuildWithTokens(s, ms, pieces, from, to);
  }

  /** When every token name is mapped, the two policies render every token alike. */
  lemma PoliciesAgreeOnMapped(s: string, ms: seq<Match>, values: map<string, string>)
    requires TokensOf(s, ms)
    requires forall k :: 0 <= k < |ms| ==> !Unmapped(s, ms[k], values)
    ensures Renderings(s, ms, Strict, values) == Renderings(s, ms, Preview, values)
  {
  }

  /** Text without tokens passes through both substitutions unchanged. */
  lemma NoTokensNoChange(text: string, values: map<string, string>)
    requires !HasPlaceholders(text)
    ensures ReplacePlaceholders(text, values) == text
    ensures GeneratePreview(text, values) == text
  {
  }

  /** The k-th token name is the name of the k-th match of the scan. */
  lemma TokenNamesAt(text: string)
    ensures |TokenNames(text)| == |Scan(text, 0)|
    ensures forall k :: 0 <= k < |Scan(text, 0)| ==> TokenNames(text)[k] == NameOf(text, Scan(text, 0)[k])
  {
  }

  /** The strict rebuild of a text none of whose token names is mapped is the text. */
  lemma StrictRebuildOfUnmapped(text: string, values: map<string, string>)
    requires forall k :: 0 <= k < |Scan(text, 0)| ==> Unmapped(text, Scan(text, 0)[k], values)
    ensures Rebuild(text, Strict, values) == text
  {
    var ms := Scan(text, 0);
    StrictKeepsUnmapped(text, ms, Renderings(text, ms, Strict, values), 0, |text|, values);
  }

  /** A map that mentions none of the token names leaves the text unchanged. */
  lemma ReplaceWithUnrelatedMap(text: string, values: map<string, string>)
    requires forall n :: n in TokenNames(text) ==> n !in values
    ensures ReplacePlaceholders(text, values) == text
  {
    var ms := Scan(text, 0);
    TokenNamesAt(text);
    forall k | 0 <= k < |ms| ensures Unmapped(text, ms[k], values) {
      assert TokenNames(text)[k] in TokenNames(text);
    }
    StrictRebuildOfUnmapped(text, values);
  }

  /** With every token name mapped, replacement and preview agree. */
  lemma ReplaceIsPreviewWhenAllMapped(text: string, values: map<string, string>)
    requires forall n :: n in TokenNames(text) ==> n in values
    ensures ReplacePlaceholders(text, values) == GeneratePreview(text, values)
  {
    var ms := Scan(text, 0);
    TokenNamesAt(text);
    forall k | 0 <= k < |ms| ensures NameOf(text, ms[k]) in values {
      assert TokenNames(text)[k] in TokenNames(text);
    }
    PoliciesAgreeOnMapped(text, ms, values);
  }

  /** A text made of two adjacent tokens scans as those two tokens. */
  lemma TwoWholeTokens(s: string, e: nat)
    requires IsToken(s, 0, e) && IsToken(s, e, |s|)
    ensures Scan(s, 0) == [Match(0, e), Match(e, |s|)]
    ensures TokenNames(s) == [NameOf(s, Match(0, e)), NameOf(s, Match(e, |s|))]
  {
    assert TokenAt(s, 0) == Some(e) && TokenAt(s, e) == Some(|s|);
    assert Scan(s, |s|) == [];
    assert Scan(s, e) == [Match(e, |s|)];
  }

  /** The names of the two-token template "{{a}}{{b}}". */
  lemma TwoTokenNames()
    ensures IsToken("{{a}}{{b}}", 0, 5) && IsToken("{{a}}{{b}}", 5, 10)
    ensures Scan("{{a}}{{b}}", 0) == [Match(0, 5), Match(5, 10)]
    ensures NameOf("{{a}}{{b}}", Match(0, 5)) == "a" && NameOf("{{a}}{{b}}", Match(5, 10)) == "b"
    ensures TokenNames("{{a}}{{b}}") == ["a", "b"]
  {
    var s := "{{a}}{{b}}";
    assert s[2..3] == "a" && s[7..8] == "b";
    assert IsTrimmed("a") && IsTrimmed("b");
    TwoWholeTokens(s, 5);
  }

  /** Two different non-empty names are kept once each, in that order. */
  lemma DistinctPair(a: string, b: string)
    requires a != "" && b != "" && a != b
    ensures DistinctNames([a, b], {}) == [a, b]
  {
    assert [a, b][1..] == [b] && [b][1..] == [];
    assert {} + {a} == {a} && {a} + {b} == {a, b};
    assert DistinctNames([a, b], {}) == [a] + DistinctNames([b], {a});
    assert DistinctNames([b], {a}) == [b] + DistinctNames([], {a, b});
  }

  /** The rendering of a mapped or unmapped name in a preview. */
  function PreviewOf(name: string, values: map<string, string>): string
  {
    if name in values then values[name] else "[" + name + "]"
  }

  /** Two adjacent matches covering the whole text rebuild as their two pieces. */
  lemma {:induction false} RebuildTwoAdjacent(s: string, ms: seq<Match>, pieces: seq<string>)
    requires |ms| == |pieces| == 2
    requires ms[0].start == 0 && ms[0].end == ms[1].start && ms[1].end == |s|
    requires Spans(ms, 0, |s|)
    ensures RebuildWith(s, ms, pieces, 0, |s|) == pieces[0] + pieces[1]
  {
    var e := ms[1].start;
    assert RebuildWith(s, ms[1..][1..], pieces[1..][1..], |s|, |s|) == [];
    assert RebuildWith(s, ms[1..], pieces[1..], e, |s|) == pieces[1];
  }

  /** A text made of exactly two adjacent tokens previews as the two renderings side by side. */
  lemma PreviewTwoAdjacent(s: string, e: nat, values: map<string, string>)
    requires Scan(s, 0) == [Match(0, e), Match(e, |s|)]
    ensures GeneratePreview(s, values)
         == PreviewOf(NameOf(s, Match(0, e)), values) + PreviewOf(NameOf(s, Match(e, |s|)), values)
  {
    var ms := Scan(s, 0);
    var pieces := Renderings(s, ms, Preview, values);
    assert pieces[0] == PreviewOf(NameOf(s, ms[0]), values);
    assert pieces[1] == PreviewOf(NameOf(s, ms[1]), values);
    RebuildTwoAdjacent(s, ms, pieces);
  }

  /** The preview of the two-token template "{{a}}{{b}}" under any map. */
  lemma TwoTokenTemplate(values: map<string, string>)
    ensures ExtractPlaceholders("{{a}}{{b}}") == ["a", "b"]
    ensures GeneratePreview("{{a}}{{b}}", values) == PreviewOf("a", values) + PreviewOf("b", values)
  {
    TwoTokenNames();
    TwoAdjacentTokensPreview("{{a}}{{b}}", 5, "a", "b", values);
  }

  /** `s` is exactly two adjacent tokens, the first ending at `e`, whose names `a` and `b`
      are non-empty and different. */
  predicate TwoAdjacentTokens(s: string, e: nat, a: string, b: string)
  {
    && IsToken(s, 0, e) && IsToken(s, e, |s|)
    && NameOf(s, Match(0, e)) == a && NameOf(s, Match(e, |s|)) == b
    && a != "" && b != "" && a != b
  }

  /** Such a text has the placeholders `a` and `b`, and previews as their two
      renderings side by side. */
  lemma TwoAdjacentTokensPreview(s: string, e: nat, a: string, b: string, values: map<string, string>)
    requires TwoAdjacentTokens(s, e, a, b)
    ensures ExtractPlaceholders(s) == [a, b]
    ensures GeneratePreview(s, values) == PreviewOf(a, values) + PreviewOf(b, values)
  {
    TwoWholeTokens(s, e);
    DistinctPair(a, b);
    PreviewTwoAdjacent(s, e, values);
  }
}

=== FILE: repository.dfy ===
/** The in-memory cache of src/repository/markdownpromptrepository.cpp.

    The repository keeps every prompt and folder of a directory tree in two lists and
    hands out ids from two counters. Folders are the sub-directories of the root, prompts
    are the ".md" files in them and in the root. The file system itself is not modelled:
    what a directory listing returned, whether a file could be read and whether a
    remove or mkpath call succeeded are parameters, and the writes, removes and renames
    the repository asks for are returned as a list of effects. */
module PromptCache {
  import opened Common
  import opened Strings
  import opened Models
  import opened FrontMatter
  import opened FileNames

  datatype Cache = Cache(
    prompts: seq<Prompt>,
    folders: seq<Folder>,
    nextPromptId: int,
    nextFolderId: int)

  /** What the repository asks of the file system. */
  datatype FileEffect =
    | WriteFile(path: FilePath, text: string)
    | RemoveFile(path: FilePath)
    | MakeDir(dir: Dir)
    | RenameDir(from: Dir, to: Dir)
    | RemoveDir(dir: Dir)

  /** No two prompts share an id. */
  predicate DistinctPromptIds(ps: seq<Prompt>)
  {
    forall i, j :: 0 <= i < j < |ps| ==> ps[i].id != ps[j].id
  }

  /** No two folders share an id. */
  predicate DistinctFolderIds(fs: seq<Folder>)
  {
    forall i, j :: 0 <= i < j < |fs| ==> fs[i].id != fs[j].id
  }

  /** The cache invariant: ids are distinct and were all handed out by the counters. */
  predicate Valid(c: Cache)
  {
    && c.nextPromptId >= 1 && c.nextFolderId >= 1
    && (forall i :: 0 <= i < |c.prompts| ==> 1 <= c.prompts[i].id < c.nextPromptId)
    && (forall i :: 0 <= i < |c.folders| ==> 1 <= c.folders[i].id < c.nextFolderId)
    && DistinctPromptIds(c.prompts)
    && DistinctFolderIds(c.folders)
  }

  /** The cache right after reload() cleared it. */
  function EmptyCache(): (c: Cache)
    ensures Valid(c) && c.nextPromptId == 1 && c.nextFolderId == 1
  {
    Cache([], [], 1, 1)
  }

  /** The id of each prompt, in order. */
  function PromptIds(ps: seq<Prompt>): (ids: seq<int>)
    ensures |ids| == |ps|
    ensures forall i :: 0 <= i < |ps| ==> ids[i] == ps[i].id
  {
    seq(|ps|, i requires 0 <= i < |ps| => ps[i].id)
  }

  /** The id of each folder, in order. */
  function FolderIds(fs: seq<Folder>): (ids: seq<int>)
    ensures |ids| == |fs|
    ensures forall i :: 0 <= i < |fs| ==> ids[i] == fs[i].id
  {
    seq(|fs|, i requires 0 <= i < |fs| => fs[i].id)
  }

  /** The position of the first prompt with id `id`, as the lookup loops find it. */
  function FindPrompt(ps: seq<Prompt>, id: int): (k: Option<nat>)
    ensures k.Some? ==> k.value < |ps| && ps[k.value].id == id
    ensures k.Some? ==> forall j :: 0 <= j < k.value ==> ps[j].id != id
    ensures k.None? ==> forall j :: 0 <= j < |ps| ==> ps[j].id != id
  {
    FirstIndex(PromptIds(ps), id)
  }

  /** The position of the first folder with id `id`. */
  function FindFolder(fs: seq<Folder>, id: int): (k: Option<nat>)
    ensures k.Some? ==> k.value < |fs| && fs[k.value].id == id
    ensures k.Some? ==> forall j :: 0 <= j < k.value ==> fs[j].id != id
    ensures k.None? ==> forall j :: 0 <= j < |fs| ==> fs[j].id != id
  {
    FirstIndex(FolderIds(fs), id)
  }

  /** The directory a prompt of folder `folderId` lives in: the directory of the cached
      folder with that id, or the root for -1 and for ids no cached folder has. A folder
      cached under the empty name lives in the root itself. */
  function FolderDir(c: Cache, folderId: int): (d: Dir)
    ensures d.Some? ==> exists k :: 0 <= k < |c.folders| && c.folders[k] == Folder(folderId, d.value)
    ensures folderId == -1 || (forall k :: 0 <= k < |c.folders| ==> c.folders[k].id != folderId) ==> d.None?
    ensures DistinctFolderIds(c.folders) && folderId != -1 ==>
              forall k :: 0 <= k < |c.folders| && c.folders[k].id == folderId ==> d == UnderRoot(c.folders[k].name)
  {
    if folderId == -1 then None
    else match FindFolder(c.folders, folderId)
      case None => None
      case Some(k) => UnderRoot(c.folders[k].name)
  }

  /** The file a prompt is stored in. */
  function PathOf(c: Cache, p: Prompt): FilePath
  {
    PromptPath(FolderDir(c, p.folderId), p.title)
  }

  /** xs without its element at position k. */
  function RemoveAt<T>(xs: seq<T>, k: nat): (r: seq<T>)
    requires k < |xs|
    ensures |r| == |xs| - 1
    ensures forall i :: 0 <= i < k ==> r[i] == xs[i]
    ensures forall i :: k <= i < |r| ==> r[i] == xs[i + 1]
  {
    xs[..k] + xs[k + 1..]
  }

  /** Cache a prompt under the next prompt id. */
  function AddPrompt(c: Cache, q: Prompt): (r: Cache)
    ensures r.prompts == c.prompts + [q] && r.nextPromptId == c.nextPromptId + 1
    ensures r.folders == c.folders && r.nextFolderId == c.nextFolderId
    ensures Valid(c) && q.id == c.nextPromptId ==> Valid(r)
  {
    c.(prompts := c.prompts + [q], nextPromptId := c.nextPromptId + 1)
  }

  /** Cache a folder under the next folder id. */
  function AddFolder(c: Cache, name: string): (r: Cache)
    ensures r.folders == c.folders + [Folder(c.nextFolderId, name)] && r.nextFolderId == c.nextFolderId + 1
    ensures r.prompts == c.prompts && r.nextPromptId == c.nextPromptId
    ensures Valid(c) ==> Valid(r)
  {
    c.(folders := c.folders + [Folder(c.nextFolderId, name)], nextFolderId := c.nextFolderId + 1)
  }

  /** Overwrite the cached prompt at `k` with one of the same id. */
  function ReplacePrompt(c: Cache, k: nat, q: Prompt): (r: Cache)
    requires k < |c.prompts|
    ensures r.prompts == c.prompts[k := q]
    ensures r.folders == c.folders && r.nextPromptId == c.nextPromptId && r.nextFolderId == c.nextFolderId
    ensures Valid(c) && q.id == c.prompts[k].id ==> Valid(r)
  {
    c.(prompts := c.prompts[k := q])
  }

  /** Overwrite the cached folder at `k` with one of the same id. */
  function ReplaceFolder(c: Cache, k: nat, g: Folder): (r: Cache)
    requires k < |c.folders|
    ensures r.folders == c.folders[k := g]
    ensures r.prompts == c.prompts && r.nextPromptId == c.nextPromptId && r.nextFolderId == c.nextFolderId
    ensures Valid(c) && g.id == c.folders[k].id ==> Valid(r)
  {
    c.(folders := c.folders[k := g])
  }

  // ---------------------------------------------------------------------------------
  // Reading and writing prompt files

  /** The header writePromptFile builds, as the QMap holds it: the three keys in the
      order createdAt, title, updatedAt. */
  function PromptHeader(title: string, createdAt: string, updatedAt: string): SortedMap
  {
    assert Less("createdAt", "title") && Less("title", "updatedAt") && Less("createdAt", "updatedAt");
    [("createdAt", createdAt), ("title", title), ("updatedAt", updatedAt)]
  }

  /** writePromptFile inserts title, then createdAt, then updatedAt into an empty QMap;
      the map sorts them into the header above. */
  lemma PromptHeaderIsInserts(title: string, createdAt: string, updatedAt: string)
    ensures Insert(Insert(Insert([], "title", title), "createdAt", createdAt), "updatedAt", updatedAt)
         == PromptHeader(title, createdAt, updatedAt)
  {
    assert Less("createdAt", "title") && Less("title", "updatedAt");
    InsertThree("title", title, "createdAt", createdAt, "updatedAt", updatedAt);
  }

  /** writePromptFile: the header of the prompt's title and timestamps, then its text.
      The file opens with the header's first delimiter line and ends with the prompt's
      text as it is. */
  function FileText(p: Prompt): (r: string)
    ensures StartsWith(r, "---\n")
    ensures |p.content| <= |r| && r[|r| - |p.content|..] == p.content
  {
    var h := GenerateFrontMatter(PromptHeader(p.title, p.createdAt, p.updatedAt));
    assert (h + p.content)[..4] == h[..4];
    h + p.content
  }

  /** One ".md" file as a directory listing reports it: its base name, its text (None
      when it cannot be opened), and the file system's creation and modification times. */
  datatype PromptFile = PromptFile(baseName: string, text: Option<string>, birthTime: string, lastModified: string)

  /** The front-matter value under `key`, when present and not empty. */
  function HeaderValue(fm: SortedMap, key: string, fallback: string): string
  {
    match Lookup(fm, key)
    case Some(v) => if v == "" then fallback else v
    case None => fallback
  }

  /** parsePromptFile: an unreadable file gives nothing; otherwise the body becomes the
      content, the header's title (or the file's base name) the title, and the header's
      timestamps (or the file's own times) the timestamps. */
  function ParsePromptFile(f: PromptFile, id: int, folderId: int): (r: Option<Prompt>)
    ensures r.None? <==> f.text.None?
    ensures r.Some? ==> r.value.id == id && r.value.folderId == folderId
  {
    match f.text
    case None => None
    case Some(text) =>
      var x := ExtractFrontMatter(text, []);
      Some(Prompt(id, HeaderValue(x.frontMatter, "title", f.baseName), x.body, folderId,
                  HeaderValue(x.frontMatter, "createdAt", f.birthTime),
                  HeaderValue(x.frontMatter, "updatedAt", f.lastModified)))
  }

  /** A value the header carries unchanged: non-empty, trimmed, on one line. */
  predicate HeaderSafe(v: string)
  {
    v != "" && IsTrimmed(v) && '\n' !in v
  }

  /** A file written for a prompt reads back as that prompt, under whatever id and folder
      the reader assigns, provided its title and timestamps survive the header. */
  lemma WrittenPromptReadsBack(p: Prompt, f: PromptFile, id: int, folderId: int)
    requires HeaderSafe(p.title) && HeaderSafe(p.createdAt) && HeaderSafe(p.updatedAt)
    requires f.text == Some(FileText(p))
    ensures ParsePromptFile(f, id, folderId) == Some(p.(id := id, folderId := folderId))
  {
    HeaderEntriesWellFormed(p.title, p.createdAt, p.updatedAt);
    FileTextExtracts(p);
    PromptHeaderLookups(p.title, p.createdAt, p.updatedAt);
  }

  /** A prompt written with an empty title reads back under the file's base name: the
      header carries the empty title, and the reader falls back on the name. */
  lemma EmptyTitleReadsAsBaseName(p: Prompt, f: PromptFile, id: int, folderId: int)
    requires p.title == "" && HeaderSafe(p.createdAt) && HeaderSafe(p.updatedAt)
    requires f.text == Some(FileText(p))
    ensures ParsePromptFile(f, id, folderId) == Some(p.(id := id, folderId := folderId, title := f.baseName))
  {
    HeaderEntriesWellFormed(p.title, p.createdAt, p.updatedAt);
    FileTextExtracts(p);
    PromptHeaderLookups(p.title, p.createdAt, p.updatedAt);
  }

  /** The reader splits a written file back into its header and its text. */
  lemma FileTextExtracts(p: Prompt)
    requires WellFormedEntry(("title", p.title))
    requires WellFormedEntry(("createdAt", p.createdAt)) && WellFormedEntry(("updatedAt", p.updatedAt))
    ensures ExtractFrontMatter(FileText(p), []) == Extracted(p.content, PromptHeader(p.title, p.createdAt, p.updatedAt))
  {
    var m := PromptHeader(p.title, p.createdAt, p.updatedAt);
    ThreeEntryRoundTrip(m, p.title, p.createdAt, p.updatedAt, p.content);
  }

  /** The round trip of a header holding the three prompt keys, whatever values the
      codec carries unchanged, empty ones included. */
  lemma ThreeEntryRoundTrip(m: SortedMap, title: string, createdAt: string, updatedAt: string, body: string)
    requires WellFormedEntry(("title", title))
    requires WellFormedEntry(("createdAt", createdAt)) && WellFormedEntry(("updatedAt", updatedAt))
    requires m == [("createdAt", createdAt), ("title", title), ("updatedAt", updatedAt)]
    ensures ExtractFrontMatter(GenerateFrontMatter(m) + body, []) == Extracted(body, m)
  {
    FrontMatterRoundTrip(m, body);
  }

  /** Values that are trimmed and on one line, under the three prompt keys, are entries
      the codec carries. */
  lemma HeaderEntriesWellFormed(title: string, createdAt: string, updatedAt: string)
    requires IsTrimmed(title) && '\n' !in title
    requires HeaderSafe(createdAt) && HeaderSafe(updatedAt)
    ensures WellFormedEntry(("title", title))
    ensures WellFormedEntry(("createdAt", createdAt))
    ensures WellFormedEntry(("updatedAt", updatedAt))
  {
  }

  /** Each of the three keys reads back the value inserted under it. */
  lemma PromptHeaderLookups(title: string, createdAt: string, updatedAt: string)
    ensures Lookup(PromptHeader(title, createdAt, updatedAt), "title") == Some(title)
    ensures Lookup(PromptHeader(title, createdAt, updatedAt), "createdAt") == Some(createdAt)
    ensures Lookup(PromptHeader(title, createdAt, updatedAt), "updatedAt") == Some(updatedAt)
  {
    assert |"title"| != |"createdAt"| && |"title"| != |"updatedAt"|;
    assert "createdAt" != "updatedAt" by {
      assert "createdAt"[0] != "updatedAt"[0];
    }
    LookupThree("createdAt", createdAt, "title", title, "updatedAt", updatedAt);
  }

  // ---------------------------------------------------------------------------------
  // reload / scanDirectory

  /** A sub-directory of the root and the ".md" files in it, in name order. */
  datatype DirListing = DirListing(name: string, files: seq<PromptFile>)

  /** What scanning the root finds: its sub-directories and its own ".md" files. */
  datatype Listing = Listing(dirs: seq<DirListing>, rootFiles: seq<PromptFile>)

  /** Read one file: it takes the next prompt id, and is cached when it can be read. */
  function LoadFile(f: PromptFile, folderId: int, c: Cache): (r: Cache)
    ensures Valid(c) ==> Valid(r)
    ensures r.folders == c.folders && r.nextFolderId == c.nextFolderId
    ensures r.nextPromptId == c.nextPromptId + 1
    ensures f.text.None? ==> r.prompts == c.prompts
    ensures f.text.Some? ==> |r.prompts| == |c.prompts| + 1 && r.prompts[..|c.prompts|] == c.prompts
    ensures f.text.Some? ==> r.prompts[|c.prompts|].id == c.nextPromptId && r.prompts[|c.prompts|].folderId == folderId
  {
    match ParsePromptFile(f, c.nextPromptId, folderId)
    case Some(q) => AddPrompt(c, q)
    case None => c.(nextPromptId := c.nextPromptId + 1)
  }

  /** Read the files of one directory in order, each into folder `folderId`. */
  function LoadFiles(files: seq<PromptFile>, folderId: int, c: Cache): (r: Cache)
    ensures Valid(c) ==> Valid(r)
    ensures r.folders == c.folders && r.nextFolderId == c.nextFolderId
    ensures r.nextPromptId == c.nextPromptId + |files|
    decreases |files|
  {
    if |files| == 0 then c
    else LoadFiles(files[1..], folderId, LoadFile(files[0], folderId, c))
  }

  /** Reading files only appends prompts, and every prompt appended is filed in the
      folder being read. */
  lemma {:induction false} LoadFilesAppends(files: seq<PromptFile>, folderId: int, c: Cache)
    ensures var r := LoadFiles(files, folderId, c);
            && |c.prompts| <= |r.prompts| && r.prompts[..|c.prompts|] == c.prompts
            && forall i :: |c.prompts| <= i < |r.prompts| ==> r.prompts[i].folderId == folderId
    decreases |files|
  {
    if |files| > 0 {
      var c1 := LoadFile(files[0], folderId, c);
      var r := LoadFiles(files[1..], folderId, c1);
      assert LoadFiles(files, folderId, c) == r;
      LoadFilesAppends(files[1..], folderId, c1);
      assert forall i :: 0 <= i < |c1.prompts| ==> r.prompts[i] == c1.prompts[i] by {
        assert forall i :: 0 <= i < |c1.prompts| ==> r.prompts[i] == r.prompts[..|c1.prompts|][i];
      }
      assert r.prompts[..|c.prompts|] == c1.prompts[..|c.prompts|];
    }
  }

  /** The folders a listing of sub-directories becomes: one per directory, in listing
      order, with consecutive ids from `firstId`. */
  function NewFolders(dirs: seq<DirListing>, firstId: int): (fs: seq<Folder>)
    ensures |fs| == |dirs|
    decreases |dirs|
  {
    if |dirs| == 0 then []
    else [Folder(firstId, dirs[0].name)] + NewFolders(dirs[1..], firstId + 1)
  }

  /** The first directory gives the first new folder. */
  lemma NewFoldersCons(dirs: seq<DirListing>, firstId: int)
    requires |dirs| > 0
    ensures NewFolders(dirs, firstId) == [Folder(firstId, dirs[0].name)] + NewFolders(dirs[1..], firstId + 1)
  {
  }

  /** The i-th new folder is named after the i-th directory and has id firstId + i. */
  lemma {:induction false} NewFoldersAt(dirs: seq<DirListing>, firstId: int)
    ensures forall i :: 0 <= i < |dirs| ==> NewFolders(dirs, firstId)[i] == Folder(firstId + i, dirs[i].name)
    decreases |dirs|
  {
    if |dirs| > 0 {
      var fs := NewFolders(dirs, firstId);
      var rest := NewFolders(dirs[1..], firstId + 1);
      NewFoldersAt(dirs[1..], firstId + 1);
      forall i | 1 <= i < |dirs| ensures fs[i] == Folder(firstId + i, dirs[i].name) {
        assert fs[i] == rest[i - 1];
        assert dirs[1..][i - 1] == dirs[i];
      }
    }
  }

  /** Read one sub-directory: it takes the next folder id and is cached, then its files
      are read into that folder. */
  function LoadDir(d: DirListing, c: Cache): (r: Cache)
    ensures Valid(c) ==> Valid(r)
    ensures r.folders == c.folders + [Folder(c.nextFolderId, d.name)] && r.nextFolderId == c.nextFolderId + 1
    ensures r.nextPromptId == c.nextPromptId + |d.files|
  {
    LoadFiles(d.files, c.nextFolderId, AddFolder(c, d.name))
  }

  /** Read each sub-directory in order. */
  function LoadDirs(dirs: seq<DirListing>, c: Cache): (r: Cache)
    ensures Valid(c) ==> Valid(r)
    ensures r.nextFolderId == c.nextFolderId + |dirs|
    ensures r.nextPromptId >= c.nextPromptId
    decreases |dirs|
  {
    if |dirs| == 0 then c
    else LoadDirs(dirs[1..], LoadDir(dirs[0], c))
  }

  /** Each listed sub-directory becomes one folder, appended in listing order with
      consecutive ids from the folder counter. */
  lemma {:induction false} LoadDirsFolders(dirs: seq<DirListing>, c: Cache)
    ensures LoadDirs(dirs, c).folders == c.folders + NewFolders(dirs, c.nextFolderId)
    decreases |dirs|
  {
    if |dirs| == 0 {
      assert c.folders + [] == c.folders;
    } else {
      var f := Folder(c.nextFolderId, dirs[0].name);
      var c2 := LoadDir(dirs[0], c);
      var rest := NewFolders(dirs[1..], c2.nextFolderId);
      calc {
        LoadDirs(dirs, c).folders;
        LoadDirs(dirs[1..], c2).folders;
        { LoadDirsFolders(dirs[1..], c2); }
        c2.folders + rest;
        (c.folders + [f]) + rest;
        { AppendAssociative(c.folders, [f], rest); }
        c.folders + ([f] + rest);
        { NewFoldersCons(dirs, c.nextFolderId); }
        c.folders + NewFolders(dirs, c.nextFolderId);
      }
    }
  }

  /** reload: clear the cache, reset both counters to 1, and scan the root. */
  function Reload(l: Listing): (r: Cache)
    ensures Valid(r)
    ensures |r.folders| == |l.dirs| && r.nextFolderId == |l.dirs| + 1
    ensures forall i :: 0 <= i < |l.dirs| ==> r.folders[i] == Folder(i + 1, l.dirs[i].name)
  {
    var c := LoadDirs(l.dirs, EmptyCache());
    LoadDirsFolders(l.dirs, EmptyCache());
    NewFoldersAt(l.dirs, 1);
    assert c.folders == NewFolders(l.dirs, 1);
    LoadFiles(l.rootFiles, -1, c)
  }

  /** Every file listed takes an id, readable or not, so the prompt counter ends one past
      the number of files seen. */
  lemma ReloadConsumesOneIdPerFile(l: Listing, n: nat)
    requires n == |l.rootFiles| + TotalFiles(l.dirs)
    ensures Reload(l).nextPromptId == n + 1
  {
    LoadDirsConsumesIds(l.dirs, EmptyCache());
  }

  /** The number of files in the listed sub-directories. */
  function TotalFiles(dirs: seq<DirListing>): nat
  {
    if |dirs| == 0 then 0 else |dirs[0].files| + TotalFiles(dirs[1..])
  }

  lemma {:induction false} LoadDirsConsumesIds(dirs: seq<DirListing>, c: Cache)
    ensures LoadDirs(dirs, c).nextPromptId == c.nextPromptId + TotalFiles(dirs)
    decreases |dirs|
  {
    if |dirs| > 0 {
      LoadDirsConsumesIds(dirs[1..], LoadDir(dirs[0], c));
    }
  }

  // ---------------------------------------------------------------------------------
  // Prompt operations

  /** What savePrompt leaves behind: the cache, the caller's prompt as it was updated (its
      new id and timestamps), and the file operations requested. */
  datatype SavedPrompt = SavedPrompt(cache: Cache, prompt: Prompt, effects: seq<FileEffect>)

  /** The last file operation writes the saved prompt's file text at `path`. */
  predicate WritesLast(out: SavedPrompt, path: FilePath)
  {
    |out.effects| > 0 && out.effects[|out.effects| - 1] == WriteFile(path, FileText(out.prompt))
  }

  /** savePrompt for a prompt without an id: it takes the next id, is stamped `now`, and
      a copy is appended to the cache. */
  function SaveNewPrompt(c: Cache, p: Prompt, now: string): (out: SavedPrompt)
    ensures Valid(c) ==> Valid(out.cache)
    ensures out.cache.folders == c.folders && out.cache.nextFolderId == c.nextFolderId
    ensures WritesLast(out, PathOf(c, p))
  {
    var q := p.(id := c.nextPromptId, createdAt := now, updatedAt := now);
    SavedPrompt(AddPrompt(c, q), q, [WriteFile(PathOf(c, p), FileText(q))])
  }

  /** savePrompt's update of the cache: the cached prompt with the prompt's id, if any,
      takes its title, content, folder and update time. */
  function UpdateCached(c: Cache, p: Prompt, now: string): (r: Cache)
    ensures r.folders == c.folders && r.nextPromptId == c.nextPromptId && r.nextFolderId == c.nextFolderId
    ensures |r.prompts| == |c.prompts|
    ensures forall i :: 0 <= i < |c.prompts| && c.prompts[i].id != p.id ==> r.prompts[i] == c.prompts[i]
    ensures FindPrompt(c.prompts, p.id).None? ==> r == c
    ensures FindPrompt(c.prompts, p.id).Some? ==>
              var k := FindPrompt(c.prompts, p.id).value;
              r.prompts[k] == c.prompts[k].(title := p.title, content := p.content, folderId := p.folderId, updatedAt := now)
    ensures Valid(c) ==> Valid(r)
  {
    match FindPrompt(c.prompts, p.id)
    case None => c
    case Some(k) =>
      ReplacePrompt(c, k, c.prompts[k].(title := p.title, content := p.content, folderId := p.folderId, updatedAt := now))
  }

  /** savePrompt for a prompt with an id: the cache is updated, and the cached prompt's
      file moves with it. */
  function SaveStoredPrompt(c: Cache, p: Prompt, now: string, oldFileExists: bool): (out: SavedPrompt)
    ensures Valid(c) ==> Valid(out.cache)
    ensures out.cache.folders == c.folders && out.cache.nextFolderId == c.nextFolderId
    ensures WritesLast(out, PathOf(c, p))
  {
    var path := PathOf(c, p);
    var q := p.(updatedAt := now);
    var effects := match FindPrompt(c.prompts, p.id)
      case None => [WriteFile(path, FileText(q))]
      case Some(k) => MoveAndWrite(PathOf(c, c.prompts[k]), path, FileText(q), oldFileExists);
    SavedPrompt(UpdateCached(c, p, now), q, effects)
  }

  /** The file operations of an update: the old file is removed when the prompt's file
      name changed and the old file exists, then the new file is written. */
  function MoveAndWrite(oldPath: FilePath, path: FilePath, text: string, oldFileExists: bool): (e: seq<FileEffect>)
    ensures 0 < |e| <= 2 && e[|e| - 1] == WriteFile(path, text)
    ensures |e| == 2 <==> oldPath != path && oldFileExists
    ensures |e| == 2 ==> e[0] == RemoveFile(oldPath)
  {
    var removal := if oldPath != path && oldFileExists then [RemoveFile(oldPath)] else [];
    removal + [WriteFile(path, text)]
  }

  /** savePrompt: a prompt without an id is added, one with an id is updated, and the
      prompt's file is written last, at the path its folder and title give. */
  function SavePrompt(c: Cache, p: Prompt, now: string, oldFileExists: bool): (out: SavedPrompt)
    ensures Valid(c) ==> Valid(out.cache)
    ensures out.cache.folders == c.folders && out.cache.nextFolderId == c.nextFolderId
    ensures WritesLast(out, PathOf(c, p))
  {
    if !p.IsStored() then SaveNewPrompt(c, p, now) else SaveStoredPrompt(c, p, now, oldFileExists)
  }

  /** A prompt without an id takes the next id, which no cached prompt has, is stamped
      `now` for both timestamps, and is appended; its file is the only one touched. */
  lemma SaveNewPromptAppends(c: Cache, p: Prompt, now: string, oldFileExists: bool)
    requires !p.IsStored()
    ensures var out := SavePrompt(c, p, now, oldFileExists);
            && out.prompt == p.(id := c.nextPromptId, createdAt := now, updatedAt := now)
            && out.cache.prompts == c.prompts + [out.prompt]
            && out.cache.nextPromptId == c.nextPromptId + 1
            && |out.effects| == 1
            && (Valid(c) ==> forall q :: q in c.prompts ==> q.id != out.prompt.id)
  {
  }

  /** A prompt with an id replaces the title, content, folder and update time of the
      cached prompt with that id and changes no other cached prompt; the caller's prompt
      keeps its creation time. Without a cached prompt of that id the cache is unchanged. */
  lemma SaveStoredPromptUpdates(c: Cache, p: Prompt, now: string, oldFileExists: bool)
    requires p.IsStored()
    ensures var out := SavePrompt(c, p, now, oldFileExists);
            && out.prompt == p.(updatedAt := now)
            && out.cache.nextPromptId == c.nextPromptId
            && |out.cache.prompts| == |c.prompts|
            && (forall i :: 0 <= i < |c.prompts| && c.prompts[i].id != p.id ==> out.cache.prompts[i] == c.prompts[i])
            && (FindPrompt(c.prompts, p.id).None? ==> out.cache == c)
            && (FindPrompt(c.prompts, p.id).Some? ==>
                  var k := FindPrompt(c.prompts, p.id).value;
                  out.cache.prompts[k] == c.prompts[k].(title := p.title, content := p.content, folderId := p.folderId, updatedAt := now))
  {
    assert SavePrompt(c, p, now, oldFileExists).cache == UpdateCached(c, p, now);
  }

  /** Updating a prompt removes at most one file: the cached prompt's old file, and only
      when its path differs from the new one and the old file exists. */
  lemma SaveStoredPromptMovesFile(c: Cache, p: Prompt, now: string, oldFileExists: bool)
    requires p.IsStored()
    ensures var out := SavePrompt(c, p, now, oldFileExists);
            && |out.effects| <= 2
            && (|out.effects| == 2 <==>
                  && FindPrompt(c.prompts, p.id).Some?
                  && PathOf(c, c.prompts[FindPrompt(c.prompts, p.id).value]) != PathOf(c, p)
                  && oldFileExists)
            && (|out.effects| == 2 ==>
                  out.effects[0] == RemoveFile(PathOf(c, c.prompts[FindPrompt(c.prompts, p.id).value])))
  {
  }

  /** What deletePrompt leaves behind: the cache, its result, and the file operation it
      attempted. */
  datatype Deleted = Deleted(cache: Cache, success: bool, effects: seq<FileEffect>)

  /** deletePrompt: an unknown id fails without touching anything; otherwise the prompt's
      file is removed, and only when that succeeds is the prompt dropped from the cache. */
  function DeletePrompt(c: Cache, id: int, removeOk: bool): (out: Deleted)
    ensures FindPrompt(c.prompts, id).None? ==> out == Deleted(c, false, [])
    ensures FindPrompt(c.prompts, id).Some? ==>
              out.effects == [RemoveFile(PathOf(c, c.prompts[FindPrompt(c.prompts, id).value]))]
    ensures out.success <==> FindPrompt(c.prompts, id).Some? && removeOk
    ensures !out.success ==> out.cache == c
    ensures out.success ==> out.cache == c.(prompts := out.cache.prompts) && |out.cache.prompts| == |c.prompts| - 1
  {
    match FindPrompt(c.prompts, id)
    case None => Deleted(c, false, [])
    case Some(k) =>
      var effects := [RemoveFile(PathOf(c, c.prompts[k]))];
      if removeOk then Deleted(c.(prompts := RemoveAt(c.prompts, k)), true, effects)
      else Deleted(c, false, effects)
  }

  /** A successful deletePrompt drops exactly the prompt with that id, and the cache stays
      valid whatever the outcome. */
  lemma DeletePromptDropsOnlyIt(c: Cache, id: int, removeOk: bool)
    requires Valid(c)
    ensures var out := DeletePrompt(c, id, removeOk);
            && Valid(out.cache)
            && (out.success ==> forall q :: q in out.cache.prompts <==> q in c.prompts && q.id != id)
  {
    match FindPrompt(c.prompts, id)
    case None =>
    case Some(k) =>
      RemovePromptKeepsIds(c.prompts, k, id, c.nextPromptId);
  }

  /** Saving a cached prompt again unchanged writes the very file deletePrompt would
      remove, and removes nothing: both compute the file name by the same rule. */
  lemma SaveAndDeleteAgreeOnPath(c: Cache, k: nat, now: string, oldFileExists: bool)
    requires Valid(c) && k < |c.prompts|
    ensures var p := c.prompts[k];
            && SavePrompt(c, p, now, oldFileExists).effects == [WriteFile(PathOf(c, p), FileText(p.(updatedAt := now)))]
            && DeletePrompt(c, p.id, true).effects == [RemoveFile(PathOf(c, p))]
  {
    var p := c.prompts[k];
    var f := FindPrompt(c.prompts, p.id);
    assert f == Some(k);
  }

  // ---------------------------------------------------------------------------------
  // Folder operations

  /** What saveFolder leaves behind: the cache, the caller's folder (with its new id),
      and the file operations requested. */
  datatype SavedFolder = SavedFolder(cache: Cache, folder: Folder, effects: seq<FileEffect>)

  /** saveFolder for a stored folder: when its cached name differs from the sanitised new
      name, the directory is renamed and the cache takes the sanitised name. */
  function RenameFolder(c: Cache, f: Folder): (out: SavedFolder)
    requires f.IsStored()
    ensures out.folder == f
    ensures out.cache.prompts == c.prompts && |out.cache.folders| == |c.folders|
    ensures out.cache.nextPromptId == c.nextPromptId && out.cache.nextFolderId == c.nextFolderId
    ensures forall i :: 0 <= i < |c.folders| ==>
              out.cache.folders[i].id == c.folders[i].id
              && (out.cache.folders[i] == c.folders[i] || out.cache.folders[i].name == SanitizeFolderName(f.name))
    ensures Valid(c) ==> Valid(out.cache)
  {
    var name := SanitizeFolderName(f.name);
    match FindFolder(c.folders, f.id)
    case Some(k) =>
      if c.folders[k].name != name then
        SavedFolder(ReplaceFolder(c, k, c.folders[k].(name := name)), f,
                    [RenameDir(UnderRoot(c.folders[k].name), UnderRoot(name))])
      else SavedFolder(c, f, [])
    case None => SavedFolder(c, f, [])
  }

  /** Renaming a stored folder: the folder is afterwards found in the directory of its
      sanitised name, the one rename requested goes from its old directory to that one,
      and every other folder keeps its directory. An unknown id changes nothing. */
  lemma RenamedFolderMoves(c: Cache, f: Folder, g: int)
    requires f.IsStored()
    ensures var out := RenameFolder(c, f);
            var name := SanitizeFolderName(f.name);
            && (FindFolder(c.folders, f.id).None? ==> out.cache == c && out.effects == [])
            && (FindFolder(c.folders, f.id).Some? ==>
                  var was := c.folders[FindFolder(c.folders, f.id).value].name;
                  && FolderDir(c, f.id) == UnderRoot(was)
                  && FolderDir(out.cache, f.id) == UnderRoot(name)
                  && out.effects == if was == name then [] else [RenameDir(UnderRoot(was), UnderRoot(name))])
            && (g != f.id ==> FolderDir(out.cache, g) == FolderDir(c, g))
  {
    var out := RenameFolder(c, f);
    FindFolderSameIds(c.folders, out.cache.folders, g);
    FindFolderSameIds(c.folders, out.cache.folders, f.id);
  }

  /** Lookups by id see only the ids: two folder lists with the same ids, position by
      position, find every id at the same place. */
  lemma FindFolderSameIds(fs: seq<Folder>, gs: seq<Folder>, id: int)
    requires |fs| == |gs|
    requires forall i :: 0 <= i < |fs| ==> fs[i].id == gs[i].id
    ensures FindFolder(fs, id) == FindFolder(gs, id)
  {
    assert FolderIds(fs) == FolderIds(gs);
  }

  /** saveFolder for a new folder as the source writes it: the directory is created under
      the sanitised name, but the cache records the name as given. */
  function SaveFolderAsWritten(c: Cache, f: Folder, mkpathOk: bool): (out: SavedFolder)
    ensures f.IsStored() ==> out == RenameFolder(c, f)
    ensures !f.IsStored() ==> out.effects == [MakeDir(UnderRoot(SanitizeFolderName(f.name)))]
    ensures !f.IsStored() && mkpathOk ==>
              out.cache.folders == c.folders + [Folder(c.nextFolderId, f.name)]
  {
    if f.IsStored() then RenameFolder(c, f)
    else
      var dir := UnderRoot(SanitizeFolderName(f.name));
      if mkpathOk then
        var g := f.(id := c.nextFolderId);
        SavedFolder(AddFolder(c, f.name), g, [MakeDir(dir)])
      else SavedFolder(c, f, [MakeDir(dir)])
  }

  /** The as-written saveFolder caches "a?b" for a folder whose directory it creates as
      "ab", so prompts saved into that folder afterwards go to a directory "a?b". */
  lemma SaveFolderCachesUnsanitisedName()
    ensures var out := SaveFolderAsWritten(EmptyCache(), Folder(0, "a?b"), true);
            && out.effects == [MakeDir(Some("ab"))]
            && FolderDir(out.cache, 1) == Some("a?b")
  {
    SanitizeQuestionMark();
  }

  /** The folder name "a?b" loses its question mark. */
  lemma SanitizeQuestionMark()
    ensures SanitizeFolderName("a?b") == "ab"
  {
    SanitizeDropsMiddle('a', '?', 'b');
  }

  /** A three-character name whose middle character is not allowed and whose outer ones
      are allowed non-blanks is sanitised to the outer two. */
  lemma SanitizeDropsMiddle(x: char, c: char, y: char)
    requires IsAllowed(x) && IsAllowed(y) && !IsSpace(x) && !IsSpace(y) && !IsAllowed(c)
    ensures SanitizeFolderName([x, c, y]) == [x, y]
  {
    assert KeepAllowed([y]) == [y] by {
      assert [y][1..] == [];
    }
    assert KeepAllowed([c, y]) == [y] by {
      assert [c, y][1..] == [y];
    }
    assert KeepAllowed([x, c, y]) == [x, y] by {
      assert [x, c, y][1..] == [c, y];
    }
    assert IsTrimmed([x, y]);
  }

  /** saveFolder with the cache recording the sanitised name, the same name the
      directory is created under and the one the rename branch stores. */
  function SaveFolder(c: Cache, f: Folder, mkpathOk: bool): (out: SavedFolder)
    ensures f.IsStored() ==> out == RenameFolder(c, f)
    ensures !f.IsStored() ==> out.effects == [MakeDir(UnderRoot(SanitizeFolderName(f.name)))]
    ensures !f.IsStored() && !mkpathOk ==> out.cache == c
    ensures !f.IsStored() && mkpathOk ==>
              && out.folder.id == c.nextFolderId
              && out.cache == c.(folders := c.folders + [Folder(c.nextFolderId, SanitizeFolderName(f.name))],
                                 nextFolderId := c.nextFolderId + 1)
    ensures Valid(c) ==> Valid(out.cache)
  {
    if f.IsStored() then RenameFolder(c, f)
    else
      var name := SanitizeFolderName(f.name);
      if mkpathOk then
        var g := f.(id := c.nextFolderId);
        SavedFolder(AddFolder(c, name), g, [MakeDir(UnderRoot(name))])
      else SavedFolder(c, f, [MakeDir(UnderRoot(name))])
  }

  /** A folder created by saveFolder is found afterwards in the directory that was made
      for it. */
  lemma NewFolderLivesWhereItWasMade(c: Cache, f: Folder)
    requires Valid(c) && !f.IsStored()
    ensures var out := SaveFolder(c, f, true);
            && out.effects == [MakeDir(UnderRoot(SanitizeFolderName(f.name)))]
            && FolderDir(out.cache, out.folder.id) == UnderRoot(SanitizeFolderName(f.name))
  {
    var x := Folder(c.nextFolderId, SanitizeFolderName(f.name));
    assert SaveFolder(c, f, true).cache.folders == c.folders + [x];
    FindAppendedFolder(c.folders, x);
  }

  /** A folder appended under a fresh id is found at the end. */
  lemma FindAppendedFolder(fs: seq<Folder>, x: Folder)
    requires forall j :: 0 <= j < |fs| ==> fs[j].id != x.id
    ensures FindFolder(fs + [x], x.id) == Some(|fs|)
  {
    var r := fs + [x];
    assert r[|fs|].id == x.id;
    assert forall j :: 0 <= j < |fs| ==> r[j].id != x.id;
  }

  /** The prompts not filed under folder `id`, in order. */
  function WithoutFolder(ps: seq<Prompt>, id: int): (r: seq<Prompt>)
    ensures forall q :: q in r <==> q in ps && q.folderId != id
    ensures |r| <= |ps|
    decreases |ps|
  {
    if |ps| == 0 then []
    else
      var rest := WithoutFolder(ps[1..], id);
      assert ps == [ps[0]] + ps[1..];
      if ps[0].folderId == id then rest else [ps[0]] + rest
  }

  /** Dropping a folder's prompts zeroes its count and leaves every other count alone. */
  lemma {:induction false} WithoutFolderCounts(ps: seq<Prompt>, id: int, g: int)
    ensures CountIn(WithoutFolder(ps, id), g) == if g == id then 0 else CountIn(ps, g)
    decreases |ps|
  {
    if |ps| > 0 {
      WithoutFolderCounts(ps[1..], id, g);
      assert ps == [ps[0]] + ps[1..];
      CountInCons(ps[0], ps[1..], g);
      if ps[0].folderId != id {
        CountInCons(ps[0], WithoutFolder(ps[1..], id), g);
      }
    } else {
      assert FolderIdsOf(ps) == [];
    }
  }

  /** Dropping prompts keeps prompt ids distinct and in range. */
  lemma {:induction false} WithoutFolderKeepsIds(ps: seq<Prompt>, id: int, next: int)
    requires DistinctPromptIds(ps)
    requires forall i :: 0 <= i < |ps| ==> 1 <= ps[i].id < next
    ensures DistinctPromptIds(WithoutFolder(ps, id))
    ensures forall i :: 0 <= i < |WithoutFolder(ps, id)| ==> 1 <= WithoutFolder(ps, id)[i].id < next
    decreases |ps|
  {
    if |ps| > 0 {
      var tail := ps[1..];
      assert forall i :: 0 <= i < |tail| ==> tail[i] == ps[i + 1];
      WithoutFolderKeepsIds(tail, id, next);
      var rest := WithoutFolder(tail, id);
      if ps[0].folderId != id {
        var r := [ps[0]] + rest;
        forall i, j | 0 <= i < j < |r| ensures r[i].id != r[j].id {
          if i == 0 {
            assert r[j] in tail;
            var t :| 0 <= t < |tail| && tail[t] == r[j];
            assert ps[t + 1] == r[j];
          }
        }
        forall i | 0 <= i < |r| ensures 1 <= r[i].id < next {
          if i > 0 {
            assert r[i] in tail;
          }
        }
      }
    }
  }

  /** deleteFolder: an unknown id fails without touching anything. Otherwise the
      directory is removed recursively, and only when that succeeds are the folder and
      exactly the prompts filed in it dropped from the cache. */
  function DeleteFolder(c: Cache, id: int, removeOk: bool): (out: Deleted)
    ensures FindFolder(c.folders, id).None? ==> out == Deleted(c, false, [])
    ensures FindFolder(c.folders, id).Some? ==>
              out.effects == [RemoveDir(UnderRoot(c.folders[FindFolder(c.folders, id).value].name))]
    ensures out.success <==> FindFolder(c.folders, id).Some? && removeOk
    ensures !out.success ==> out.cache == c
    ensures out.success ==>
              && out.cache.prompts == WithoutFolder(c.prompts, id)
              && out.cache.nextPromptId == c.nextPromptId && out.cache.nextFolderId == c.nextFolderId
    ensures out.success && Valid(c) ==> forall g :: g in out.cache.folders <==> g in c.folders && g.id != id
    ensures Valid(c) ==> Valid(out.cache)
  {
    match FindFolder(c.folders, id)
    case None => Deleted(c, false, [])
    case Some(k) =>
      var effects := [RemoveDir(UnderRoot(c.folders[k].name))];
      if removeOk then
        var r := c.(prompts := WithoutFolder(c.prompts, id), folders := RemoveAt(c.folders, k));
        RemoveFolderKeepsValid(c, k, id);
        Deleted(r, true, effects)
      else Deleted(c, false, effects)
  }

  /** Dropping a folder and its prompts from a valid cache leaves it valid, with exactly
      the other folders left. */
  lemma RemoveFolderKeepsValid(c: Cache, k: nat, id: int)
    requires k < |c.folders| && c.folders[k].id == id
    ensures var r := c.(prompts := WithoutFolder(c.prompts, id), folders := RemoveAt(c.folders, k));
            Valid(c) ==> Valid(r) && forall g :: g in r.folders <==> g in c.folders && g.id != id
  {
    if Valid(c) {
      WithoutFolderKeepsIds(c.prompts, id, c.nextPromptId);
      RemoveFolderKeepsIds(c.folders, k, id);
    }
  }

  /** Removing the folder at `k` from a list of distinct ids removes exactly the folder
      with its id. */
  lemma RemoveFolderKeepsIds(fs: seq<Folder>, k: nat, id: int)
    requires DistinctFolderIds(fs) && k < |fs| && fs[k].id == id
    ensures DistinctFolderIds(RemoveAt(fs, k))
    ensures forall g :: g in RemoveAt(fs, k) <==> g in fs && g.id != id
  {
    var r := RemoveAt(fs, k);
    forall i, j | 0 <= i < j < |r| ensures r[i].id != r[j].id {
      var i' := if i < k then i else i + 1;
      var j' := if j < k then j else j + 1;
      assert r[i] == fs[i'] && r[j] == fs[j'];
    }
    forall g ensures g in r <==> g in fs && g.id != id {
      if g in fs && g.id != id {
        var j :| 0 <= j < |fs| && fs[j] == g;
        if j < k { assert r[j] == g; } else { assert r[j - 1] == g; }
      }
      if g in r {
        var j :| 0 <= j < |r| && r[j] == g;
        var j' := if j < k then j else j + 1;
        assert fs[j'] == g && j' != k;
      }
    }
  }

  /** Removing the prompt at `k` from a list of distinct ids removes exactly the prompt
      with its id, and keeps the others distinct and in range. */
  lemma RemovePromptKeepsIds(ps: seq<Prompt>, k: nat, id: int, next: int)
    requires DistinctPromptIds(ps) && k < |ps| && ps[k].id == id
    requires forall i :: 0 <= i < |ps| ==> 1 <= ps[i].id < next
    ensures DistinctPromptIds(RemoveAt(ps, k))
    ensures forall i :: 0 <= i < |RemoveAt(ps, k)| ==> 1 <= RemoveAt(ps, k)[i].id < next
    ensures forall q :: q in RemoveAt(ps, k) <==> q in ps && q.id != id
  {
    var r := RemoveAt(ps, k);
    forall i, j | 0 <= i < j < |r| ensures r[i].id != r[j].id {
      var i' := if i < k then i else i + 1;
      var j' := if j < k then j else j + 1;
      assert r[i] == ps[i'] && r[j] == ps[j'];
    }
    forall q ensures q in r <==> q in ps && q.id != id {
      if q in ps && q.id != id {
        var j :| 0 <= j < |ps| && ps[j] == q;
        if j < k { assert r[j] == q; } else { assert r[j - 1] == q; }
      }
      if q in r {
        var j :| 0 <= j < |r| && r[j] == q;
        var j' := if j < k then j else j + 1;
        assert ps[j'] == q && j' != k;
      }
    }
  }

  /** After a successful deleteFolder no prompt is counted under that folder, and every
      other folder's count is what it was. */
  lemma DeleteFolderCounts(c: Cache, id: int, g: int)
    requires DeleteFolder(c, id, true).success
    ensures CountIn(DeleteFolder(c, id, true).cache.prompts, g) == if g == id then 0 else CountIn(c.prompts, g)
  {
    WithoutFolderCounts(c.prompts, id, g);
  }

  /** A folder name with no allowed character sanitises to "", and a rename to it
      caches the folder under "", which is the root: the rename requested moves the
      folder's directory onto the root itself. */
  lemma RenameToBlankNameTargetsRoot()
    ensures var c := Cache([], [Folder(1, "x")], 1, 2);
            var out := RenameFolder(c, Folder(1, "??"));
            && out.cache.folders == [Folder(1, "")]
            && out.effects == [RenameDir(Some("x"), None)]
            && FolderDir(out.cache, 1).None?
  {
    assert KeepAllowed("??") == "" by {
      assert "??"[1..] == "?" && "?"[1..] == "";
    }
    assert Trim("") == "";
  }

  /** Deleting a folder cached under "" removes the root recursively, every prompt file
      with it, while the cache drops only that folder's prompts and keeps the others. */
  lemma DeletingBlankFolderRemovesRoot(c: Cache, k: nat)
    requires Valid(c) && k < |c.folders| && c.folders[k].name == ""
    ensures var out := DeleteFolder(c, c.folders[k].id, true);
            && out.success && out.effects == [RemoveDir(None)]
            && forall q :: q in c.prompts && q.folderId != c.folders[k].id ==> q in out.cache.prompts
  {
    var id := c.folders[k].id;
    assert FindFolder(c.folders, id) == Some(k) by {
      var j := FindFolder(c.folders, id).value;
      assert c.folders[j].id == c.folders[k].id;
    }
  }

  // ---------------------------------------------------------------------------------
  // Counts

  /** getPromptCountByFolder: one pass over the cached prompts. */
  method PromptCountByFolder(c: Cache, folderId: int) returns (n: nat)
    ensures n == CountIn(c.prompts, folderId)
  {
    n := 0;
    var i := 0;
    while i < |c.prompts|
      invariant 0 <= i <= |c.prompts|
      invariant n == CountIn(c.prompts[..i], folderId)
    {
      assert FolderIdsOf(c.prompts[..i + 1]) == FolderIdsOf(c.prompts[..i]) + [c.prompts[i].folderId];
      if c.prompts[i].folderId == folderId {
        n := n + 1;
      }
      i := i + 1;
    }
    assert c.prompts[..i] == c.prompts;
  }

  /** getFoldersWithCounts: each cached folder, in order, with its prompt count. */
  method FoldersWithCounts(c: Cache) returns (r: seq<FolderCount>)
    ensures |r| == |c.folders|
    ensures forall i :: 0 <= i < |r| ==> r[i] == FolderCount(c.folders[i], CountIn(c.prompts, c.folders[i].id))
  {
    r := [];
    var i := 0;
    while i < |c.folders|
      invariant 0 <= i <= |c.folders|
      invariant |r| == i
      invariant forall j :: 0 <= j < i ==> r[j] == FolderCount(c.folders[j], CountIn(c.prompts, c.folders[j].id))
    {
      var n := PromptCountByFolder(c, c.folders[i].id);
      r := r + [FolderCount(c.folders[i], n)];
      i := i + 1;
    }
  }
}

=== FILE: searchfilter.dfy ===
/** The list filters of src/utils/searchfilter.cpp: a case-insensitive substring search
    over title and content, a folder filter with a three-way rule, and their
    combination. The lists hold pointers that may be null; an entry is None for a null
    pointer and Some(prompt) otherwise. */
module SearchFilter {
  import opened Common
  import opened Strings
  import opened Models

  /** One element of a prompt list: None stands for a null pointer. */
  type Entry = Option<Prompt>

  // ---------------------------------------------------------------------------------
  // Order-preserving selection

  /** `a` is `b` with some elements left out, in the same order. */
  predicate IsSubsequence<T(==,!new)>(a: seq<T>, b: seq<T>)
    decreases |b|
  {
    if |a| == 0 then true
    else if |b| == 0 then false
    else if a[0] == b[0] then IsSubsequence(a[1..], b[1..])
    else IsSubsequence(a, b[1..])
  }

  /** The elements of `xs` that satisfy `keep`, in their original order. */
  function Select<T(==,!new)>(xs: seq<T>, keep: T -> bool): (r: seq<T>)
    ensures |r| <= |xs|
    ensures forall i :: 0 <= i < |r| ==> keep(r[i])
    decreases |xs|
  {
    if |xs| == 0 then []
    else if keep(xs[0]) then [xs[0]] + Select(xs[1..], keep)
    else Select(xs[1..], keep)
  }

  /** The selection keeps order, keeps exactly the elements that pass, and keeps each of
      them as often as it occurs. */
  lemma {:induction false} SelectKeeps<T(!new)>(xs: seq<T>, keep: T -> bool)
    ensures var r := Select(xs, keep);
            && IsSubsequence(r, xs)
            && (forall x :: x in r <==> x in xs && keep(x))
            && (forall x :: multiset(r)[x] == if keep(x) then multiset(xs)[x] else 0)
    decreases |xs|
  {
    if |xs| > 0 {
      var rest := Select(xs[1..], keep);
      SelectKeeps(xs[1..], keep);
      assert xs == [xs[0]] + xs[1..];
      assert multiset(xs) == multiset{xs[0]} + multiset(xs[1..]);
      if keep(xs[0]) {
        assert ([xs[0]] + rest)[1..] == rest;
        assert multiset([xs[0]] + rest) == multiset{xs[0]} + multiset(rest);
      } else {
        SubsequenceOfTail(rest, xs);
      }
    }
  }

  /** A subsequence of a list's tail is a subsequence of the list. */
  lemma {:induction false} SubsequenceOfTail<T(!new)>(a: seq<T>, b: seq<T>)
    requires |b| > 0 && IsSubsequence(a, b[1..])
    ensures IsSubsequence(a, b)
    decreases |b|, 0
  {
    if |a| > 0 && a[0] == b[0] {
      DropFirst(a, b[1..]);
    }
  }

  /** Dropping the first element of a subsequence keeps it a subsequence. */
  lemma {:induction false} DropFirst<T(!new)>(a: seq<T>, b: seq<T>)
    requires |a| > 0 && IsSubsequence(a, b)
    ensures IsSubsequence(a[1..], b)
    decreases |b|, 1
  {
    if |a| > 1 {
      if a[0] == b[0] {
        SubsequenceOfTail(a[1..], b);
      } else {
        DropFirst(a, b[1..]);
        SubsequenceOfTail(a[1..], b);
      }
    }
  }

  /** A list whose every element is kept is selected whole. */
  lemma {:induction false} SelectAllKept<T(!new)>(xs: seq<T>, keep: T -> bool)
    requires forall i :: 0 <= i < |xs| ==> keep(xs[i])
    ensures Select(xs, keep) == xs
    decreases |xs|
  {
    if |xs| > 0 {
      SelectAllKept(xs[1..], keep);
      assert xs == [xs[0]] + xs[1..];
    }
  }

  /** Selecting twice by the same test is selecting once. */
  lemma SelectIdempotent<T(!new)>(xs: seq<T>, keep: T -> bool)
    ensures Select(Select(xs, keep), keep) == Select(xs, keep)
  {
    SelectAllKept(Select(xs, keep), keep);
  }

  /** Selecting by one test and then another is selecting once by both. */
  lemma {:induction false} SelectBoth<T(!new)>(xs: seq<T>, first: T -> bool, second: T -> bool, both: T -> bool)
    requires forall x :: both(x) == (first(x) && second(x))
    ensures Select(Select(xs, first), second) == Select(xs, both)
    decreases |xs|
  {
    if |xs| > 0 {
      SelectBoth(xs[1..], first, second, both);
      var rest := Select(xs[1..], first);
      if first(xs[0]) {
        assert ([xs[0]] + rest)[1..] == rest;
      }
    }
  }

  // ---------------------------------------------------------------------------------
  // The two tests

  /** matchesSearch: a null entry and an empty search match; otherwise the lower-cased
      title or content must contain the lower-cased search text, so in particular an
      occurrence in the exact case matches. */
  function MatchesSearch(e: Entry, text: string): (b: bool)
    ensures e.None? || text == "" ==> b
    ensures e.Some? && (Contains(e.value.title, text) || Contains(e.value.content, text)) ==> b
  {
    match e
    case None => true
    case Some(p) =>
      ContainsLower(p.title, text);
      ContainsLower(p.content, text);
      text == "" || Contains(Lower(p.title), Lower(text)) || Contains(Lower(p.content), Lower(text))
  }

  /** matchesFolder: a null entry never matches; folder 0 stands for the prompts without
      a folder (id 0 or below), a positive id for exactly that folder, and a negative id
      for every prompt. So a null entry fails every folder test, a negative id lets every
      prompt through, and for an id of 0 or more a prompt passes exactly for its own
      folder, counting a prompt without one as folder 0. */
  function MatchesFolder(e: Entry, folderId: int): (b: bool)
    ensures b ==> e.Some?
    ensures folderId < 0 ==> (b <==> e.Some?)
    ensures e.Some? && folderId >= 0 ==>
              (b <==> folderId == (if e.value.folderId <= 0 then 0 else e.value.folderId))
  {
    match e
    case None => false
    case Some(p) =>
      if folderId == 0 then p.folderId <= 0
      else if folderId > 0 then p.folderId == folderId
      else true
  }

  // ---------------------------------------------------------------------------------
  // The three filters

  /** filterPrompts: the entries matching the search, in order; an empty search returns
      the list as it is. Null entries always survive. */
  function FilterPrompts(ps: seq<Entry>, text: string): (r: seq<Entry>)
    ensures text == "" ==> r == ps
    ensures |r| <= |ps| && IsSubsequence(r, ps)
    ensures forall e :: e in r <==> e in ps && MatchesSearch(e, text)
    ensures forall e :: multiset(r)[e] == if MatchesSearch(e, text) then multiset(ps)[e] else 0
    ensures None in ps ==> None in r
  {
    SelectKeeps(ps, e => MatchesSearch(e, text));
    if text == "" then
      SelectAllKept(ps, e => MatchesSearch(e, text));
      ps
    else Select(ps, e => MatchesSearch(e, text))
  }

  /** filterByFolder: the entries matching the folder rule, in order. Null entries
      never survive. */
  function FilterByFolder(ps: seq<Entry>, folderId: int): (r: seq<Entry>)
    ensures |r| <= |ps| && IsSubsequence(r, ps)
    ensures forall e :: e in r <==> e in ps && MatchesFolder(e, folderId)
    ensures forall e :: multiset(r)[e] == if MatchesFolder(e, folderId) then multiset(ps)[e] else 0
    ensures None !in r
  {
    SelectKeeps(ps, e => MatchesFolder(e, folderId));
    Select(ps, e => MatchesFolder(e, folderId))
  }

  /** applyFilters: the folder filter unless the folder id is negative, then the search
      filter unless the text is empty. */
  function ApplyFilters(ps: seq<Entry>, text: string, folderId: int): (r: seq<Entry>)
    ensures |r| <= |ps|
    ensures forall e :: e in r <==> e in ps && MatchesSearch(e, text) && (folderId < 0 || MatchesFolder(e, folderId))
  {
    var byFolder := if folderId >= 0 then FilterByFolder(ps, folderId) else ps;
    FilterPrompts(byFolder, text)
  }

  // ---------------------------------------------------------------------------------
  // Properties

  /** The folder filters with ids of 0 and above partition the prompts: each prompt
      matches exactly one of them, folder 0 when it has no folder and its own folder
      otherwise. */
  lemma FolderFiltersPartition(p: Prompt, g: int)
    requires g >= 0
    ensures MatchesFolder(Some(p), g) <==> g == (if p.folderId <= 0 then 0 else p.folderId)
    ensures exists h :: h >= 0 && MatchesFolder(Some(p), h)
  {
    var h := if p.folderId <= 0 then 0 else p.folderId;
    assert MatchesFolder(Some(p), h);
  }

  /** Searching again for the same text changes nothing. */
  lemma FilterPromptsIdempotent(ps: seq<Entry>, text: string)
    ensures FilterPrompts(FilterPrompts(ps, text), text) == FilterPrompts(ps, text)
  {
    if text != "" {
      SelectIdempotent(ps, e => MatchesSearch(e, text));
    }
  }

  /** Filtering again by the same folder changes nothing. */
  lemma FilterByFolderIdempotent(ps: seq<Entry>, folderId: int)
    ensures FilterByFolder(FilterByFolder(ps, folderId), folderId) == FilterByFolder(ps, folderId)
  {
    SelectIdempotent(ps, e => MatchesFolder(e, folderId));
  }

  /** The two filters may be applied in either order. */
  lemma FiltersCommute(ps: seq<Entry>, text: string, folderId: int)
    ensures FilterPrompts(FilterByFolder(ps, folderId), text) == FilterByFolder(FilterPrompts(ps, text), folderId)
  {
    if text != "" {
      var search := (e: Entry) => MatchesSearch(e, text);
      var folder := (e: Entry) => MatchesFolder(e, folderId);
      var both := (e: Entry) => MatchesSearch(e, text) && MatchesFolder(e, folderId);
      SelectBoth(ps, folder, search, both);
      SelectBoth(ps, search, folder, both);
    }
  }

  /** applyFilters is one order-preserving pass that keeps exactly the entries passing
      both tests, the folder test counting only for a folder id of 0 or more. */
  lemma ApplyFiltersIsOnePass(ps: seq<Entry>, text: string, folderId: int)
    ensures ApplyFilters(ps, text, folderId)
         == Select(ps, e => MatchesSearch(e, text) && (folderId < 0 || MatchesFolder(e, folderId)))
  {
    var search := (e: Entry) => MatchesSearch(e, text);
    var folder := (e: Entry) => MatchesFolder(e, folderId);
    var both := (e: Entry) => MatchesSearch(e, text) && (folderId < 0 || MatchesFolder(e, folderId));
    if folderId >= 0 {
      if text == "" {
        SelectBoth(ps, folder, search, both);
        SelectAllKept(Select(ps, folder), search);
      } else {
        SelectBoth(ps, folder, search, both);
      }
    } else if text == "" {
      SelectAllKept(ps, both);
    } else {
      SelectBoth(ps, search, search, both);
      SelectIdempotent(ps, search);
    }
  }

  /** With a negative folder id applyFilters keeps null entries, which filterByFolder
      with the same id would drop. */
  lemma NegativeFolderKeepsNulls()
    ensures ApplyFilters([None], "", -1) == [None]
    ensures FilterByFolder([None], -1) == []
  {
    assert None !in FilterByFolder([None], -1);
  }

  /** The search does not depend on the case of the search text. */
  lemma SearchIgnoresCase(e: Entry, text: string)
    ensures MatchesSearch(e, Lower(text)) == MatchesSearch(e, text)
  {
    assert Lower(Lower(text)) == Lower(text);
    assert Lower(text) == "" <==> text == "";
  }
}

=== FILE: strings.dfy ===
/** Text helpers that stand in for the QString / Python str operations the core uses:
    whitespace trimming, lower-casing, substring search, splitting on a character,
    and the lexicographic order QMap keeps its keys in. Whitespace and case are ASCII. */
module Strings {

  /** ASCII whitespace: space, tab, line feed, vertical tab, form feed, carriage return. */
  predicate IsSpace(c: char)
  {
    c == ' ' || c == '\t' || c == '\n' || c == '\U{B}' || c == '\U{C}' || c == '\r'
  }

  /** No whitespace at either end. */
  predicate IsTrimmed(s: string)
  {
    |s| == 0 || (!IsSpace(s[0]) && !IsSpace(s[|s| - 1]))
  }

  /** Length of the run of whitespace that starts `s`. */
  function LeadingSpaces(s: string): (n: nat)
    ensures n <= |s|
    ensures forall i :: 0 <= i < n ==> IsSpace(s[i])
    ensures n == |s| || !IsSpace(s[n])
    decreases |s|
  {
    if |s| > 0 && IsSpace(s[0]) then 1 + LeadingSpaces(s[1..]) else 0
  }

  /** Length of the run of whitespace that ends `s`. */
  function TrailingSpaces(s: string): (n: nat)
    ensures n <= |s|
    ensures forall i :: |s| - n <= i < |s| ==> IsSpace(s[i])
    ensures n == |s| || !IsSpace(s[|s| - 1 - n])
    decreases |s|
  {
    if |s| > 0 && IsSpace(s[|s| - 1]) then 1 + TrailingSpaces(s[..|s| - 1]) else 0
  }

  /** `r` is the infix of `s` starting at `a`, and everything outside it is whitespace. */
  predicate CutAt(s: string, r: string, a: int)
  {
    0 <= a <= |s| - |r| && r == s[a..a + |r|]
    && (forall i :: 0 <= i < a ==> IsSpace(s[i]))
    && (forall i :: a + |r| <= i < |s| ==> IsSpace(s[i]))
  }

  /** QString::trimmed / str.strip: `s` without its leading and trailing whitespace.
      Only whitespace is removed, and only at the two ends. */
  function Trim(s: string): (r: string)
    ensures IsTrimmed(r)
    ensures r == s <==> IsTrimmed(s)
    ensures exists a :: CutAt(s, r, a)
    ensures forall i :: 0 <= i < |r| ==> r[i] in s
  {
    var a := LeadingSpaces(s);
    var t := s[a..];
    var r := t[..|t| - TrailingSpaces(t)];
    assert r == s[a..a + |r|];
    assert CutAt(s, r, a);
    assert IsTrimmed(r) by {
      if |r| > 0 {
        assert r[0] == t[0];
      }
    }
    assert IsTrimmed(s) ==> a == 0 && TrailingSpaces(t) == 0;
    r
  }

  /** Trimming cuts the leading run of whitespace, then the trailing run of what is left. */
  lemma TrimCuts(s: string)
    ensures var t := s[LeadingSpaces(s)..]; Trim(s) == t[..|t| - TrailingSpaces(t)]
  {
  }

  /** Whitespace in front of a trimmed string is exactly what trimming removes. */
  lemma TrimAfterSpaces(w: string, v: string)
    requires forall i :: 0 <= i < |w| ==> IsSpace(w[i])
    requires IsTrimmed(v)
    ensures Trim(w + v) == v
  {
    var s := w + v;
    assert forall i :: 0 <= i < |w| ==> IsSpace(s[i]);
    if |v| > 0 {
      assert !IsSpace(s[|w|]);
    }
    assert LeadingSpaces(s) == |w|;
    assert s[|w|..] == v;
    assert TrailingSpaces(v) == 0;
  }

  /** ASCII lower-casing of one character, standing in for QString::toLower. */
  function LowerChar(c: char): (r: char)
    ensures 'A' <= c <= 'Z' ==> 'a' <= r <= 'z'
    ensures !('A' <= c <= 'Z') ==> r == c
  {
    if 'A' <= c <= 'Z' then (c as int + 32) as char else c
  }

  /** QString::toLower on ASCII: the same length, no upper-case letter left, each
      upper-case letter moved 32 code points down to its lower-case twin, and every
      other character kept. */
  function Lower(s: string): (r: string)
    ensures |r| == |s|
    ensures forall i :: 0 <= i < |r| ==> !('A' <= r[i] <= 'Z')
    ensures forall i :: 0 <= i < |s| && !('A' <= s[i] <= 'Z') ==> r[i] == s[i]
    ensures forall i :: 0 <= i < |s| && 'A' <= s[i] <= 'Z' ==> r[i] as int == s[i] as int + 32
  {
    seq(|s|, i requires 0 <= i < |s| => LowerChar(s[i]))
  }

  /** Lower-casing twice is lower-casing once. */
  lemma LowerIdempotent(s: string)
    ensures Lower(Lower(s)) == Lower(s)
  {
  }

  /** An occurrence survives lower-casing: whatever `s` contains, its lower-case form
      contains in lower case. */
  lemma ContainsLower(s: string, pat: string)
    ensures Contains(s, pat) ==> Contains(Lower(s), Lower(pat))
  {
    if Contains(s, pat) {
      var i :| 0 <= i <= |s| - |pat| && OccursAt(s, pat, i);
      var ls, lp := Lower(s), Lower(pat);
      forall j | 0 <= j < |pat| ensures ls[i + j] == lp[j] {
        assert s[i + j] == s[i..i + |pat|][j] == pat[j];
      }
      assert ls[i..i + |lp|] == lp;
      assert OccursAt(ls, lp, i);
    }
  }

  /** `pat` occurs in `s` starting at index `i`. */
  predicate OccursAt(s: string, pat: string, i: int)
  {
    0 <= i && i + |pat| <= |s| && s[i..i + |pat|] == pat
  }

  /** QString::startsWith. */
  predicate StartsWith(s: string, prefix: string)
  {
    |prefix| <= |s| && s[..|prefix|] == prefix
  }

  /** QString::contains / the `in` operator on strings. */
  predicate Contains(s: string, pat: string)
  {
    exists i :: 0 <= i <= |s| - |pat| && OccursAt(s, pat, i)
  }

  /** QString::indexOf(pat, from): the first occurrence of `pat` at or after `from`,
      or -1 when there is none. */
  function IndexOf(s: string, pat: string, from: nat): (r: int)
    ensures r == -1 || (from <= r && OccursAt(s, pat, r))
    ensures r == -1 ==> forall j :: from <= j ==> !OccursAt(s, pat, j)
    ensures r != -1 ==> forall j :: from <= j < r ==> !OccursAt(s, pat, j)
    decreases |s| - from
  {
    if from + |pat| > |s| then -1
    else if s[from..from + |pat|] == pat then from
    else IndexOf(s, pat, from + 1)
  }

  /** The first position at or after `from` holding `c`, or -1. */
  function IndexOfChar(s: string, c: char, from: nat): (r: int)
    ensures r == -1 || (from <= r < |s| && s[r] == c)
    ensures r == -1 ==> forall j :: from <= j < |s| ==> s[j] != c
    ensures r != -1 ==> forall j :: from <= j < r ==> s[j] != c
    decreases |s| - from
  {
    if from >= |s| then -1
    else if s[from] == c then from
    else IndexOfChar(s, c, from + 1)
  }

  /** QString::split(sep) with empty parts kept: the pieces between separators. */
  function Split(s: string, sep: char): (parts: seq<string>)
    ensures |parts| >= 1
    ensures forall k :: 0 <= k < |parts| ==> sep !in parts[k]
    decreases |s|
  {
    var i := IndexOfChar(s, sep, 0);
    if i < 0 then [s] else [s[..i]] + Split(s[i + 1..], sep)
  }

  /** The pieces glued back together with one separator between neighbours. */
  function Join(parts: seq<string>, sep: char): (s: string)
    requires |parts| >= 1
    decreases |parts|
  {
    if |parts| == 1 then parts[0] else parts[0] + [sep] + Join(parts[1..], sep)
  }

  /** Splitting undoes joining when no piece contains the separator. */
  lemma {:induction false} SplitJoin(parts: seq<string>, sep: char)
    requires |parts| >= 1
    requires forall k :: 0 <= k < |parts| ==> sep !in parts[k]
    ensures Split(Join(parts, sep), sep) == parts
    decreases |parts|
  {
    var s := Join(parts, sep);
    var p := parts[0];
    if |parts| == 1 {
      assert IndexOfChar(s, sep, 0) == -1;
    } else {
      var rest := Join(parts[1..], sep);
      assert s == p + [sep] + rest;
      assert s[|p|] == sep;
      assert forall j :: 0 <= j < |p| ==> s[j] == p[j];
      assert IndexOfChar(s, sep, 0) == |p|;
      assert s[..|p|] == p;
      assert s[|p| + 1..] == rest;
      SplitJoin(parts[1..], sep);
      assert parts == [p] + parts[1..];
    }
  }

  /** Joining undoes splitting: the separators split out are put back where they were. */
  lemma {:induction false} JoinSplit(s: string, sep: char)
    ensures Join(Split(s, sep), sep) == s
    decreases |s|
  {
    var i := IndexOfChar(s, sep, 0);
    if i >= 0 {
      var parts := Split(s, sep);
      assert parts == [s[..i]] + Split(s[i + 1..], sep);
      assert parts[1..] == Split(s[i + 1..], sep);
      JoinSplit(s[i + 1..], sep);
      assert s == s[..i] + [sep] + s[i + 1..];
    }
  }

  /** QString's operator<: lexicographic order on character codes. */
  predicate Less(a: string, b: string)
    decreases |a|
  {
    if |a| == 0 then |b| > 0
    else if |b| == 0 then false
    else if a[0] != b[0] then a[0] < b[0]
    else Less(a[1..], b[1..])
  }

  lemma {:induction false} LessIrreflexive(a: string)
    ensures !Less(a, a)
    decreases |a|
  {
    if |a| > 0 { LessIrreflexive(a[1..]); }
  }

  lemma {:induction false} LessAsymmetric(a: string, b: string)
    requires Less(a, b)
    ensures !Less(b, a)
    decreases |a|
  {
    if |a| > 0 && |b| > 0 && a[0] == b[0] { LessAsymmetric(a[1..], b[1..]); }
  }

  lemma {:induction false} LessTransitive(a: string, b: string, c: string)
    requires Less(a, b) && Less(b, c)
    ensures Less(a, c)
    decreases |a|
  {
    if |a| > 0 && |b| > 0 && |c| > 0 && a[0] == b[0] && b[0] == c[0] {
      LessTransitive(a[1..], b[1..], c[1..]);
    }
  }

  lemma {:induction false} LessTotal(a: string, b: string)
    ensures Less(a, b) || a == b || Less(b, a)
    decreases |a|
  {
    if |a| > 0 && |b| > 0 && a[0] == b[0] {
      LessTotal(a[1..], b[1..]);
      if a[1..] == b[1..] {
        assert a == [a[0]] + a[1..] && b == [b[0]] + b[1..];
      }
    }
  }
}

=== FILE: wizard.dfy ===
/** The placeholder-filling wizard of src/viewmodels/placeholderviewmodel.cpp as a state
    record and pure transitions. The user walks through the placeholders of a template one
    at a time; the value being typed is staged in `currentValue` and committed to `values`
    when the wizard moves on. Qt change signals are not modelled except the
    all-placeholders-completed event, which each transition reports as a count. */
module Wizard {
  import opened Common
  import opened Placeholders

  datatype Session = Session(
    originalContent: string,
    placeholders: seq<string>,
    currentIndex: int,
    currentValue: string,
    values: map<string, string>,
    processedContent: string)

  /** The result of saveCurrentValue: the new state, and whether it announced that every
      placeholder is now filled. */
  datatype Saved = Saved(session: Session, completedEvent: bool)

  /** The result of a navigation call: the new state, whether the index moved, and how
      many all-completed events were announced on the way. */
  datatype Moved = Moved(session: Session, moved: bool, completedEvents: nat)

  /** The index points at a placeholder. */
  predicate HasCurrent(s: Session)
  {
    0 <= s.currentIndex < |s.placeholders|
  }

  /** The index is -1 exactly when there are no placeholders, and in range otherwise. */
  predicate IndexInvariant(s: Session)
  {
    (s.currentIndex == -1 <==> |s.placeholders| == 0)
    && (|s.placeholders| > 0 ==> HasCurrent(s))
  }

  /** currentPlaceholder: the name under the index, or "" when there is none. While the
      list holds the template's names, the current name is one of the template's token
      names and never empty. */
  function CurrentPlaceholder(s: Session): (n: string)
    ensures HasCurrent(s) ==> n == s.placeholders[s.currentIndex]
    ensures !HasCurrent(s) ==> n == ""
    ensures HasCurrent(s) && s.placeholders == ExtractPlaceholders(s.originalContent) ==>
              n != "" && n in TokenNames(s.originalContent)
  {
    if HasCurrent(s) then
      var n := s.placeholders[s.currentIndex];
      ExtractedName(s.originalContent, n);
      n
    else ""
  }

  /** A name of the template's placeholder list is a non-empty token name. */
  lemma ExtractedName(text: string, n: string)
    ensures n in ExtractPlaceholders(text) ==> n != "" && n in TokenNames(text)
  {
  }

  /** The committed values with the staged value laid over the current placeholder: the
      names are the committed ones plus the current one, the current name maps to the
      staged value, and every other name keeps its committed value. */
  function Overlay(s: Session): (m: map<string, string>)
    ensures m.Keys == s.values.Keys + (if HasCurrent(s) then {CurrentPlaceholder(s)} else {})
    ensures HasCurrent(s) ==> m[CurrentPlaceholder(s)] == s.currentValue
    ensures forall n :: n in s.values && (!HasCurrent(s) || n != CurrentPlaceholder(s)) ==> m[n] == s.values[n]
  {
    if HasCurrent(s) then s.values[CurrentPlaceholder(s) := s.currentValue] else s.values
  }

  /** getPreview: the template rendered with the committed values and the staged one.
      An empty template previews as empty, and once the staged value is the committed
      one, or there is no current placeholder, the preview shows the committed values. */
  function GetPreview(s: Session): (p: string)
    ensures s.originalContent == "" ==> p == ""
    ensures !HasCurrent(s) ==> p == GeneratePreview(s.originalContent, s.values)
    ensures HasCurrent(s) && CurrentPlaceholder(s) in s.values && s.values[CurrentPlaceholder(s)] == s.currentValue ==>
              p == GeneratePreview(s.originalContent, s.values)
  {
    OverlayOfCommitted(s);
    GeneratePreview(s.originalContent, Overlay(s))
  }

  /** Laying the committed value of the current name over the committed values changes
      nothing. */
  lemma OverlayOfCommitted(s: Session)
    ensures HasCurrent(s) && CurrentPlaceholder(s) in s.values && s.values[CurrentPlaceholder(s)] == s.currentValue ==>
              Overlay(s) == s.values
  {
    if HasCurrent(s) && CurrentPlaceholder(s) in s.values && s.values[CurrentPlaceholder(s)] == s.currentValue {
      UpdateSameValue(s.values, CurrentPlaceholder(s), s.currentValue);
    }
  }

  /** What every public operation keeps: the index invariant, the placeholder list of the
      template, and a processed text equal to the live preview. */
  predicate Valid(s: Session)
  {
    && IndexInvariant(s)
    && s.placeholders == ExtractPlaceholders(s.originalContent)
    && s.processedContent == GetPreview(s)
  }

  /** isComplete: no placeholders at all, or each has a non-empty committed value; that
      is, the placeholder names lie among the names committed with a non-empty value. */
  function IsComplete(s: Session): (b: bool)
    ensures |s.placeholders| == 0 ==> b
    ensures b <==> forall n :: n in s.placeholders ==> ValueOr(s.values, n, "") != ""
  {
    CompleteByName(s);
    forall k :: 0 <= k < |s.placeholders| ==>
      s.placeholders[k] in s.values && s.values[s.placeholders[k]] != ""
  }

  /** Every position holding a filled name is the same as every name being filled. */
  lemma CompleteByName(s: Session)
    ensures (forall k :: 0 <= k < |s.placeholders| ==> s.placeholders[k] in s.values && s.values[s.placeholders[k]] != "")
            <==> (forall n :: n in s.placeholders ==> ValueOr(s.values, n, "") != "")
  {
    if forall k :: 0 <= k < |s.placeholders| ==> s.placeholders[k] in s.values && s.values[s.placeholders[k]] != "" {
      forall n | n in s.placeholders
        ensures ValueOr(s.values, n, "") != ""
      {
        var k :| 0 <= k < |s.placeholders| && s.placeholders[k] == n;
      }
    }
    if forall n :: n in s.placeholders ==> ValueOr(s.values, n, "") != "" {
      forall k | 0 <= k < |s.placeholders|
        ensures s.placeholders[k] in s.values && s.values[s.placeholders[k]] != ""
      {
        assert ValueOr(s.values, s.placeholders[k], "") != "";
      }
    }
  }

  /** isComplete as the source computes it: an early exit for an empty list, then one
      pass that stops at the first missing or empty value. */
  method CheckComplete(s: Session) returns (b: bool)
    ensures b <==> IsComplete(s)
  {
    if |s.placeholders| == 0 {
      return true;
    }
    var k := 0;
    while k < |s.placeholders|
      invariant 0 <= k <= |s.placeholders|
      invariant forall j :: 0 <= j < k ==> s.placeholders[j] in s.values && s.values[s.placeholders[j]] != ""
    {
      var p := s.placeholders[k];
      if p !in s.values || s.values[p] == "" {
        return false;
      }
      k := k + 1;
    }
    return true;
  }

  /** Typing into the current field does not make the wizard complete: only committed
      values count. */
  lemma CompletionIgnoresStaged(s: Session, v: string)
    ensures IsComplete(s.(currentValue := v)) <==> IsComplete(s)
    ensures IsComplete(s.(currentValue := v, processedContent := GetPreview(s.(currentValue := v)))) <==> IsComplete(s)
  {
  }

  /** canGoNext: under the index invariant, exactly when the index after the current
      one is a placeholder's. */
  function CanGoNext(s: Session): (b: bool)
    ensures IndexInvariant(s) ==> (b <==> HasCurrent(s) && 0 <= s.currentIndex + 1 < |s.placeholders|)
  {
    s.currentIndex < |s.placeholders| - 1
  }

  /** canGoPrevious: under the index invariant, exactly when the index before the current
      one is a placeholder's. */
  function CanGoPrevious(s: Session): (b: bool)
    ensures IndexInvariant(s) ==> (b <==> HasCurrent(s) && 0 <= s.currentIndex - 1 < |s.placeholders|)
  {
    s.currentIndex > 0
  }

  /** updateCurrentValue: reload the staged value from the committed one, "" if none.
      Only the staged value changes, so the index invariant and the processed text are
      kept; afterwards the preview's values are the committed ones, with "" for a current
      name that has none. */
  function UpdateCurrentValue(s: Session): (r: Session)
    ensures r == s.(currentValue := r.currentValue)
    ensures IndexInvariant(s) ==> IndexInvariant(r)
    ensures !HasCurrent(s) ==> r.currentValue == "" && Overlay(r) == s.values
    ensures HasCurrent(s) && CurrentPlaceholder(s) in s.values ==> Overlay(r) == s.values
    ensures HasCurrent(s) && CurrentPlaceholder(s) !in s.values ==> Overlay(r) == s.values[CurrentPlaceholder(s) := ""]
  {
    var r := s.(currentValue := if HasCurrent(s) then ValueOr(s.values, CurrentPlaceholder(s), "") else "");
    if HasCurrent(s) && CurrentPlaceholder(s) in s.values then
      UpdateSameValue(s.values, CurrentPlaceholder(s), r.currentValue);
      r
    else r
  }

  /** updateProcessedContent: recompute the processed text from the live preview. */
  function UpdateProcessedContent(s: Session): (r: Session)
    ensures r == s.(processedContent := r.processedContent)
    ensures r.processedContent == GetPreview(r)
    ensures IndexInvariant(s) && s.placeholders == ExtractPlaceholders(s.originalContent) ==> Valid(r)
  {
    s.(processedContent := GetPreview(s))
  }

  /** The state of a freshly constructed view model. */
  function Empty(): (r: Session)
    ensures Valid(r) && r.currentIndex == -1 && r.placeholders == []
  {
    Session("", [], -1, "", map[], "")
  }

  /** initialize(content): a fresh walk through the placeholders of `content`. */
  function Initialize(content: string): (r: Session)
    ensures Valid(r)
    ensures r.originalContent == content
    ensures r.values == map[]
    ensures r.placeholders == ExtractPlaceholders(content)
    ensures r.currentIndex == (if |r.placeholders| == 0 then -1 else 0)
    ensures r.currentValue == ""
  {
    var ph := ExtractPlaceholders(content);
    var s := Session(content, ph, if |ph| == 0 then -1 else 0, "", map[], "");
    UpdateProcessedContent(UpdateCurrentValue(s))
  }

  /** setOriginalContent: reinitialise, unless the content is the same. */
  function SetOriginalContent(s: Session, content: string): (r: Session)
    ensures content == s.originalContent ==> r == s
    ensures content != s.originalContent ==> r == Initialize(content)
    ensures r.originalContent == content
    ensures Valid(s) ==> Valid(r)
  {
    if s.originalContent == content then s else Initialize(content)
  }

  /** reset: forget every value and go back to the first placeholder. */
  function Reset(s: Session): (r: Session)
    ensures r.originalContent == s.originalContent && r.placeholders == s.placeholders
    ensures r.values == map[] && r.currentValue == ""
    ensures r.currentIndex == (if |s.placeholders| == 0 then -1 else 0)
    ensures IndexInvariant(r)
    ensures r.processedContent == GetPreview(r)
    ensures Valid(s) ==> Valid(r)
  {
    var t := s.(values := map[], currentIndex := if |s.placeholders| == 0 then -1 else 0, currentValue := "");
    UpdateProcessedContent(UpdateCurrentValue(t))
  }

  /** Committing the staged value does not change what the preview shows. */
  lemma CommitKeepsOverlay(s: Session)
    requires HasCurrent(s)
    ensures Overlay(s.(values := s.values[CurrentPlaceholder(s) := s.currentValue])) == Overlay(s)
  {
  }

  /** saveCurrentValue: commit the staged value under the current placeholder and report
      whether every placeholder is now filled. Without a current placeholder, nothing. */
  function SaveCurrentValue(s: Session): (out: Saved)
    ensures !HasCurrent(s) ==> out == Saved(s, false)
    ensures HasCurrent(s) ==> out.session.values == s.values[CurrentPlaceholder(s) := s.currentValue]
    ensures forall n :: n != CurrentPlaceholder(s) ==>
              (n in out.session.values <==> n in s.values)
              && (n in s.values ==> out.session.values[n] == s.values[n])
    ensures out.session == s.(values := out.session.values, processedContent := out.session.processedContent)
    ensures out.completedEvent <==> HasCurrent(s) && IsComplete(out.session)
    ensures HasCurrent(s) ==> out.session.processedContent == GetPreview(out.session)
    ensures HasCurrent(s) ==> out.session.processedContent == GetPreview(s)
    ensures Valid(s) ==> Valid(out.session) && out.session.processedContent == s.processedContent
  {
    if HasCurrent(s) then
      CommitKeepsOverlay(s);
      var t := UpdateProcessedContent(s.(values := s.values[CurrentPlaceholder(s) := s.currentValue]));
      Saved(t, IsComplete(t))
    else Saved(s, false)
  }

  /** setCurrentIndex as written: save, move, reload the staged value, and stop there.
      The values are the saved ones and the staged value is reloaded for the new name,
      but the processed text keeps the preview computed before the move. */
  function SetCurrentIndexAsWritten(s: Session, index: int): (out: Moved)
    ensures !(0 <= index < |s.placeholders| && index != s.currentIndex) ==> out == Moved(s, false, 0)
    ensures 0 <= index < |s.placeholders| && index != s.currentIndex ==>
              && out.moved
              && out.session.currentIndex == index
              && out.session.originalContent == s.originalContent
              && out.session.placeholders == s.placeholders
              && out.session.values == SaveCurrentValue(s).session.values
              && out.session.currentValue == ValueOr(SaveCurrentValue(s).session.values, s.placeholders[index], "")
              && out.session.processedContent == SaveCurrentValue(s).session.processedContent
              && out.completedEvents == (if SaveCurrentValue(s).completedEvent then 1 else 0)
    ensures IndexInvariant(s) ==> IndexInvariant(out.session)
  {
    if 0 <= index < |s.placeholders| && s.currentIndex != index then
      var saved := SaveCurrentValue(s);
      var t := UpdateCurrentValue(saved.session.(currentIndex := index));
      Moved(t, true, if saved.completedEvent then 1 else 0)
    else Moved(s, false, 0)
  }

  /** setCurrentIndex with the processed text refreshed after the move, so that it stays
      equal to the preview. It differs from the as-written move in the processed text
      only. Out-of-range and unchanged indices are ignored. */
  function SetCurrentIndex(s: Session, index: int): (out: Moved)
    ensures !(0 <= index < |s.placeholders| && index != s.currentIndex) ==> out == Moved(s, false, 0)
    ensures out.moved == SetCurrentIndexAsWritten(s, index).moved
    ensures out.completedEvents == SetCurrentIndexAsWritten(s, index).completedEvents
    ensures out.session == SetCurrentIndexAsWritten(s, index).session.(processedContent := out.session.processedContent)
    ensures out.moved ==> out.session.processedContent == GetPreview(out.session)
    ensures IndexInvariant(s) ==> IndexInvariant(out.session)
    ensures Valid(s) ==> Valid(out.session)
  {
    var m := SetCurrentIndexAsWritten(s, index);
    if m.moved then Moved(UpdateProcessedContent(m.session), true, m.completedEvents) else m
  }

  /** Saving an already saved state commits the same value again: the values stay as
      they are and completion is announced again exactly when it was the first time. */
  lemma SaveAgain(s: Session)
    requires HasCurrent(s)
    ensures var saved := SaveCurrentValue(s);
            && HasCurrent(saved.session)
            && SaveCurrentValue(saved.session).session.values == saved.session.values
            && SaveCurrentValue(saved.session).completedEvent == saved.completedEvent
  {
    var saved := SaveCurrentValue(s);
    var t := saved.session;
    assert t.currentIndex == s.currentIndex && t.placeholders == s.placeholders && t.currentValue == s.currentValue;
    var n := CurrentPlaceholder(t);
    assert n == CurrentPlaceholder(s);
    UpdateSameValue(t.values, n, t.currentValue);
    var again := SaveCurrentValue(t);
    CompletionDependsOnValues(again.session, t);
  }

  /** Writing a key's own value back leaves a map as it is. */
  lemma UpdateSameValue<K, V>(m: map<K, V>, k: K, v: V)
    requires k in m && m[k] == v
    ensures m[k := v] == m
  {
  }

  /** isComplete looks at the placeholder list and the committed values only. */
  lemma CompletionDependsOnValues(a: Session, b: Session)
    requires a.placeholders == b.placeholders && a.values == b.values
    ensures IsComplete(a) == IsComplete(b)
  {
  }

  /** The move goNext and goPrevious make: save, then go to another valid index with the
      as-written setCurrentIndex. The second save commits the same value again and
      announces completion exactly when the first did, the staged value is reloaded for
      the new name, and the processed text is the preview from before the move, which
      is the old processed text when that was current. Nothing here needs the session
      to be valid, so it also describes a move made from a stale session. */
  lemma SaveThenMove(s: Session, index: int)
    ensures HasCurrent(s) && 0 <= index < |s.placeholders| && index != s.currentIndex ==>
            var saved := SaveCurrentValue(s);
            var m := SetCurrentIndexAsWritten(saved.session, index);
            && m.moved && m.session.currentIndex == index
            && m.session.originalContent == s.originalContent && m.session.placeholders == s.placeholders
            && IndexInvariant(m.session)
            && m.session.values == s.values[CurrentPlaceholder(s) := s.currentValue]
            && m.session.currentValue == ValueOr(m.session.values, s.placeholders[index], "")
            && m.session.processedContent == GetPreview(s)
            && m.completedEvents == (if saved.completedEvent then 1 else 0)
            && (Valid(s) ==> m.session.processedContent == s.processedContent)
  {
    if HasCurrent(s) && 0 <= index < |s.placeholders| && index != s.currentIndex {
      var saved := SaveCurrentValue(s);
      SaveAgain(s);
      assert saved.session.currentIndex == s.currentIndex && saved.session.placeholders == s.placeholders;
      CommitKeepsOverlay(saved.session);
    }
  }

  /** goNext as written: when there is a next placeholder, commit the staged value and
      move forward with the as-written setCurrentIndex, which saves once more. The
      values and the staged value are those of the new position, but the processed
      text is the preview from before the move, refreshed by the saves and not after
      the move; each of the two saves announces completion when the wizard is complete.
      From a valid session that text is the old processed text. */
  function GoNext(s: Session): (out: Moved)
    ensures !CanGoNext(s) ==> out == Moved(s, false, 0)
    ensures out.session.originalContent == s.originalContent && out.session.placeholders == s.placeholders
    ensures IndexInvariant(s) ==> IndexInvariant(out.session)
    ensures IndexInvariant(s) && CanGoNext(s) ==>
              && out.moved
              && out.session.currentIndex == s.currentIndex + 1
              && out.session.values == s.values[CurrentPlaceholder(s) := s.currentValue]
              && out.session.currentValue == ValueOr(out.session.values, s.placeholders[s.currentIndex + 1], "")
              && out.session.processedContent == GetPreview(s)
              && out.completedEvents == (if SaveCurrentValue(s).completedEvent then 2 else 0)
    ensures Valid(s) ==> out.session.processedContent == s.processedContent
  {
    if CanGoNext(s) then
      var saved := SaveCurrentValue(s);
      SaveThenMove(s, s.currentIndex + 1);
      var m := SetCurrentIndexAsWritten(saved.session, s.currentIndex + 1);
      Moved(m.session, true, (if saved.completedEvent then 1 else 0) + m.completedEvents)
    else Moved(s, false, 0)
  }

  /** goPrevious as written: when there is a previous placeholder, commit and move back;
      the processed text is the preview from before the move, as for goNext. */
  function GoPrevious(s: Session): (out: Moved)
    ensures !CanGoPrevious(s) ==> out == Moved(s, false, 0)
    ensures out.session.originalContent == s.originalContent && out.session.placeholders == s.placeholders
    ensures IndexInvariant(s) ==> IndexInvariant(out.session)
    ensures IndexInvariant(s) && CanGoPrevious(s) ==>
              && out.moved
              && out.session.currentIndex == s.currentIndex - 1
              && out.session.values == s.values[CurrentPlaceholder(s) := s.currentValue]
              && out.session.currentValue == ValueOr(out.session.values, s.placeholders[s.currentIndex - 1], "")
              && out.session.processedContent == GetPreview(s)
              && out.completedEvents == (if SaveCurrentValue(s).completedEvent then 2 else 0)
    ensures Valid(s) ==> out.session.processedContent == s.processedContent
  {
    if CanGoPrevious(s) then
      var saved := SaveCurrentValue(s);
      SaveThenMove(s, s.currentIndex - 1);
      var m := SetCurrentIndexAsWritten(saved.session, s.currentIndex - 1);
      Moved(m.session, true, (if saved.completedEvent then 1 else 0) + m.completedEvents)
    else Moved(s, false, 0)
  }

  /** goNext corrected: the same move as goNext, with the processed text refreshed from
      the live preview once the move is made, as the refreshing setCurrentIndex does, so
      the session stays valid. */
  function GoNextRefreshed(s: Session): (out: Moved)
    ensures out.moved == GoNext(s).moved && out.completedEvents == GoNext(s).completedEvents
    ensures out.session == GoNext(s).session.(processedContent := out.session.processedContent)
    ensures out.moved ==> out.session.processedContent == GetPreview(out.session)
    ensures Valid(s) ==> Valid(out.session)
  {
    var m := GoNext(s);
    if m.moved then Moved(UpdateProcessedContent(m.session), true, m.completedEvents) else m
  }

  /** goPrevious corrected: the same move as goPrevious, with the processed text
      refreshed, so the session stays valid. */
  function GoPreviousRefreshed(s: Session): (out: Moved)
    ensures out.moved == GoPrevious(s).moved && out.completedEvents == GoPrevious(s).completedEvents
    ensures out.session == GoPrevious(s).session.(processedContent := out.session.processedContent)
    ensures out.moved ==> out.session.processedContent == GetPreview(out.session)
    ensures Valid(s) ==> Valid(out.session)
  {
    var m := GoPrevious(s);
    if m.moved then Moved(UpdateProcessedContent(m.session), true, m.completedEvents) else m
  }

  /** setCurrentValue: stage a new value and refresh the processed text. */
  function SetCurrentValue(s: Session, v: string): (r: Session)
    ensures v == s.currentValue ==> r == s
    ensures r.currentValue == v
    ensures r == s.(currentValue := v, processedContent := r.processedContent)
    ensures v != s.currentValue ==> r.processedContent == GetPreview(r)
    ensures Valid(s) ==> Valid(r)
  {
    if s.currentValue == v then s else UpdateProcessedContent(s.(currentValue := v))
  }

  /** A move that completes the last field announces completion twice, once for each of
      the two saves it performs. */
  lemma GoNextAnnouncesTwice(s: Session)
    requires IndexInvariant(s) && CanGoNext(s)
    requires IsComplete(SaveCurrentValue(s).session)
    ensures GoNext(s).completedEvents == 2
  {
    SaveAgain(s);
    var saved := SaveCurrentValue(s);
    assert saved.completedEvent;
    assert saved.session.currentIndex == s.currentIndex && saved.session.placeholders == s.placeholders;
    assert SetCurrentIndexAsWritten(saved.session, s.currentIndex + 1).completedEvents == 1;
  }

  /** The wizard opened on a template of two adjacent tokens `a` and `b`: at the first
      name, nothing committed, and the second name shown unfilled. */
  lemma InitializeTwoNames(content: string, e: nat, a: string, b: string)
    requires TwoAdjacentTokens(content, e, a, b)
    ensures var s := Initialize(content);
            && Valid(s) && s.placeholders == [a, b] && s.currentIndex == 0
            && s.currentValue == "" && s.values == map[]
            && s.processedContent == "[" + b + "]"
  {
    var s := Initialize(content);
    TwoAdjacentTokensPreview(content, e, a, b, map[a := ""]);
    assert Overlay(s) == map[a := ""];
    assert PreviewOf(a, map[a := ""]) == "";
  }

  /** Moving off the first field with the as-written setCurrentIndex, in a template of
      two adjacent tokens: the processed text still shows the second name unfilled,
      while the live preview, with "" staged for it, shows nothing. */
  lemma StaleAfterFirstMove(content: string, e: nat, a: string, b: string)
    requires TwoAdjacentTokens(content, e, a, b)
    ensures var s := Initialize(content);
            var m := SetCurrentIndexAsWritten(s, 1);
            && Valid(s) && m.moved
            && m.session.processedContent == "[" + b + "]"
            && GetPreview(m.session) == ""
            && !Valid(m.session)
  {
    InitializeTwoNames(content, e, a, b);
    var s := Initialize(content);
    var m := SetCurrentIndexAsWritten(s, 1);
    assert m.session.values == map[a := ""] && m.session.currentValue == "";
    assert Overlay(m.session) == map[a := "", b := ""];
    TwoAdjacentTokensPreview(content, e, a, b, map[a := "", b := ""]);
  }

  /** goNext as written, from the first of two adjacent tokens: the processed text still
      shows the second name unfilled while the preview shows nothing; the refreshed move
      shows the preview. */
  lemma GoNextLeavesStalePreview(content: string, e: nat, a: string, b: string)
    requires TwoAdjacentTokens(content, e, a, b)
    ensures var s := Initialize(content);
            var m := GoNext(s);
            && m.moved && m.session.currentIndex == 1
            && m.session.processedContent == "[" + b + "]"
            && GetPreview(m.session) == ""
            && !Valid(m.session)
            && GoNextRefreshed(s).session.processedContent == ""
  {
    InitializeTwoNames(content, e, a, b);
    var s := Initialize(content);
    var m := GoNext(s);
    assert CanGoNext(s);
    assert m.session.values == map[a := ""] && m.session.currentValue == "";
    assert Overlay(m.session) == map[a := "", b := ""];
    TwoAdjacentTokensPreview(content, e, a, b, map[a := "", b := ""]);
  }

  /** The as-written setCurrentIndex leaves a stale processed text: moving to a
      placeholder without a committed value stages "" for it, so the preview shows
      nothing there, while the processed text still shows "[b]". */
  lemma SetCurrentIndexLeavesStalePreview()
    ensures var s := Initialize("{{a}}{{b}}");
            var m := SetCurrentIndexAsWritten(s, 1);
            && Valid(s) && m.moved
            && m.session.processedContent == "[" + "b" + "]"
            && GetPreview(m.session) == ""
            && !Valid(m.session)
  {
    TwoTokenNames();
    StaleAfterFirstMove("{{a}}{{b}}", 5, "a", "b");
  }
}
